=== FILE: README.md ===
# llmix — a Dafny model of its core

llmix watches a project directory and serves a small web UI. In the UI, files are dragged into
coloured *content groups*. Generating a group concatenates its files into one text artifact.

The server side keeps its state in a `.llmix` folder under the watched directory:

- `groups.json`, the registry of groups;
- one sub-directory per group id, holding the generated artifacts.

Its Express server (`src/server/index.js`) does the following:

- lists the project's files at `/api/files`;
- echoes the loaded configuration at `/api/config`;
- generates an artifact and records it in the group's history at `/api/generate`;
- mounts the group routes of `src/server/api/groups.js`;
- keeps browser clients current over a WebSocket, with a ping/terminate heartbeat and a
  file-change broadcast.

The routers `src/server/api/generate.js` and `src/server/api/config.js` exist but are not mounted
by `index.js`. They are modelled as the handlers they would be.

The model is split as the program is:

| Dafny module | file | models |
|---|---|---|
| `Wrappers`, `Seqs`, `Text`, `Js` | wrappers.dfy, seqs.dfy, text.dfy, js.dfy | Option/Result, filtering and de-duplication, decimal rendering, the JavaScript values, truthiness, `trim` and `parseInt` the handlers depend on |
| `Groups`, `Settings`, `Http` | groups.dfy, settings.dfy, http.dfy | a group record and its history, the configuration record, HTTP responses |
| `Disk` | disk.dfy | the `.llmix` folder, as a value (`Snapshot`) and as the object the server updates in place (`Volume`) |
| `CliUtils` | cli_utils.dfy | `src/cli/utils.js`: ignore patterns and the recursive file scan |
| `GroupStorage` | storage.dfy | `src/server/storage.js`: the `Storage` class |
| `FileUtils` | file_utils.dfy | `src/server/fileUtils.js`: artifact naming and layout, generation, cleanup, deletion and move |
| `GroupsApi` | groups_api.dfy | `src/server/api/groups.js` |
| `Server` | server.dfy | `src/server/index.js`: the files route, the generate route and the live-update hub |
| `GenerateApi`, `ConfigApi` | generate_api.dfy, config_api.dfy | the unmounted routers |
| `App`, `ContentBox`, `FileTree`, `IgnoreConfig` | app.dfy, content_box.dfy, file_tree.dfy, ignore_config.dfy | the React components' state logic |

Each operation that changes the folder is a method on the `Volume` object (or on the `Storage`
object that holds it). The method is proved equal to a pure specification function on the
`Snapshot` it starts from. The properties the program promises are lemmas about those functions.

The environment becomes parameters:

- `Snapshot.writable` says whether the operating system accepts writes;
- a `Glob` function stands for minimatch;
- a `probe` function stands for `fs.stat`/`fs.readFile` on each file;
- a `Clock` holds the three `new Date().toISOString()` readings;
- a `Listing` holds the directory tree as `fs.readdir` returns it.

## Model

| member | source | states |
|---|---|---|
| Seqs.Filter | src/ui/components/FileTree.jsx:16-18 | a filtered sequence is never longer than its input |
| Seqs.FilterMembers | src/server/api/groups.js:77 | an element survives a filter exactly when it was present and passes the test |
| Seqs.FilterAppend | src/ui/components/FileTree.jsx:16-18 | filtering distributes over concatenation |
| Seqs.FilterKeepsAll | src/ui/App.jsx:91-93 | a filter that every element passes returns its input unchanged |
| Seqs.FilterKeepsLength | src/ui/App.jsx:91-93 | a filter keeps the length exactly when every element passes |
| Seqs.FilterDrop | src/ui/App.jsx:231-233 | an element that fails the test is removed and the passing prefix is kept in place |
| Seqs.FilterNoDup | src/ui/App.jsx:231-233 | filtering a duplicate-free list leaves it duplicate-free |
| Seqs.Dedup | src/ui/components/IgnoreConfig.jsx:17 | a `Set` spread holds exactly the input's members and is no longer than the input |
| Seqs.DedupNoDup | src/ui/components/IgnoreConfig.jsx:17 | a `Set` spread holds every element once |
| Seqs.DedupOfNoDup | src/ui/components/IgnoreConfig.jsx:17 | de-duplicating a duplicate-free list changes nothing |
| Seqs.DedupSnoc | src/ui/components/IgnoreConfig.jsx:17 | a new element is added at the end of the de-duplicated list, and a repeat is dropped |
| Seqs.FilterSnoc | src/ui/components/FileTree.jsx:16-18 | filtering a list with one more element adds that element at the end exactly when it passes |
| Seqs.DedupAppend | src/ui/components/IgnoreConfig.jsx:17 | de-duplicating `a + b` keeps `a`'s distinct elements first, then `b`'s that are new |
| Seqs.FlatMapAppend | src/server/fileUtils.js:51-77 | the per-file sections of two lists concatenate |
| Seqs.FlatMapSingle | src/server/fileUtils.js:51-77 | one file contributes exactly its own section |
| Seqs.FlatMapAt | src/server/fileUtils.js:51-77 | the i-th file's section sits between those of the files before and after it |
| Text.DigitChar | src/server/fileUtils.js:45 | a digit character encodes its value |
| Text.NatToString | src/server/fileUtils.js:45 | a decimal numeral is non-empty and all digits, one digit exactly below ten, and ends in the last digit |
| Text.NatToStringInjective | src/ui/App.jsx:34 | distinct counters render to distinct numerals |
| Text.IntToString | src/server/storage.js:134 | the rendering of any integer is non-empty |
| Text.IndexOfFrom | src/server/fileUtils.js:169 | the search finds the first occurrence at or after the start, or reports none exists |
| Text.JoinThree | src/server/fileUtils.js:39-48 | joining three header lines puts one newline between each |
| Text.JoinFive | src/server/fileUtils.js:39-48 | joining five lines puts one newline between each |
| Js.LeadingDigits | src/server/api/groups.js:106 | `parseInt` reads the longest run of digits that starts the string: every character taken is a digit of the radix and the next one is not |
| Js.TrimStart | src/ui/App.jsx:25 | trimming the front removes exactly the leading white space: the removed prefix is all white space and the rest does not start with any |
| Js.TrimEnd | src/ui/App.jsx:25 | trimming the end removes exactly the trailing white space: the removed suffix is all white space and the rest does not end with any |
| Js.Strings | src/ui/components/ContentBox.jsx:53-57 | the JSON array holds only strings, and a name is in it exactly when it is one of the files |
| Js.ParseInt | src/server/api/groups.js:106 | `parseInt` always yields a number or NaN, never a string |
| Js.ParseIntHexLiteral | src/server/api/groups.js:106 | an unsigned `0x` literal is read as the hexadecimal digits after the prefix, or NaN when there are none |
| Js.ParseIntHex | src/server/api/groups.js:106 | without a radix, `parseInt("0x1f")` reads base 16 and gives 31 |
| Js.ParseIntNoDigits | src/server/api/groups.js:106 | a string that starts with anything but white space, a sign or a digit parses to NaN |
| Js.ParseIntWord | src/server/api/groups.js:106 | a group id such as `default` parses to NaN |
| Groups.FindIndex | src/server/api/groups.js:9 | `findIndex` with strict equality returns the first index whose id equals the key, or none when no id equals it |
| Groups.FindIndexIds | src/server/api/groups.js:9-13 | a string key is found exactly when some group has that id |
| Groups.NumberKeyNeverFound | src/server/storage.js:131 | a numeric or NaN key never equals a string id, so it is never found |
| Groups.IdsCard | src/ui/App.jsx:33-36 | there are never more distinct ids than groups, which bounds the counter search |
| Disk.MakeDir | src/server/storage.js:41 | a recursive `mkdir` succeeds on an existing directory without change; otherwise it needs a writable disk, creates an empty directory and creates the folder too |
| CliUtils.ShouldIgnore | src/cli/utils.js:35-44 | a file is ignored exactly when some pattern matches it |
| CliUtils.ShouldIgnoreAppend | src/cli/utils.js:35-44 | matching against two pattern lists is matching against either |
| CliUtils.IgnorePatternsMeaning | src/cli/utils.js:73-83 | a file is ignored by the scan exactly when a built-in pattern or a configured `ignore` pattern matches it |
| CliUtils.FilePathsUnder | src/cli/utils.js:89-100 | every path under a directory starts with that directory's prefix |
| CliUtils.VisibleLeaf | src/cli/utils.js:92-99 | a file directly in the scanned directory is listed exactly when no pattern matches its relative path |
| CliUtils.VisibleUnderDir | src/cli/utils.js:92-97 | a path under a sub-directory is visible exactly when that directory is not ignored and the path is visible below it |
| CliUtils.ScanExact | src/cli/utils.js:85-102 | a successful scan lists exactly the files of the tree none of whose ancestors and which itself no pattern matches |
| CliUtils.ScanSpecPrefixFails | src/cli/utils.js:85-102 | an unreadable directory early in a listing makes the whole scan fail |
| CliUtils.IgnoredListingIrrelevant | src/cli/utils.js:92-94 | an ignored directory is never read, so its contents cannot change the result |
| CliUtils.ToForwardSlashes | src/cli/utils.js:99 | every backslash becomes a forward slash and every other character is kept |
| CliUtils.Normalized | src/cli/utils.js:99 | normalising keeps one entry per path |
| CliUtils.NormalizedKeepsPlainPaths | src/cli/utils.js:99 | paths without backslashes are unchanged |
| CliUtils.Scan | src/cli/utils.js:85-102 | the recursive scan appends the normalised visible paths in listing order, or fails when any directory it enters cannot be read |
| CliUtils.GetAllFiles | src/cli/utils.js:69-106 | `getAllFiles` returns the scan of the root under the built-in and configured patterns, or fails when the root cannot be read |
| GroupStorage.SaveSpec | src/server/storage.js:114-121 | saving succeeds exactly on a present, writable folder, stores the list verbatim and leaves the directories alone |
| GroupStorage.InitSpec | src/server/storage.js:11-35 | initialisation succeeds when the disk is writable or the registry already exists; a missing registry gets the single default group and its directory; an existing one is left as it is |
| GroupStorage.CreateDirIdempotent | src/server/storage.js:37-47 | creating a group directory twice is the same as once, and a non-empty id ends up with its directory |
| GroupStorage.DeleteSpec | src/server/storage.js:66-74 | deletion removes exactly the group's directory, does nothing for an empty id, and swallows a failure |
| GroupStorage.CleanupSpec | src/server/storage.js:49-64 | cleanup removes exactly the empty group directories and leaves the others and the registry untouched |
| GroupStorage.RenameSpec | src/server/storage.js:76-102 | renaming creates the new directory, moves every file of the old one into it under its own name and removes the old one; a falsy id or a read-only disk changes nothing |
| GroupStorage.HistoryUnknownGroup | src/server/storage.js:131-135 | recording a generation for an unknown id fails with "Group not found" |
| GroupStorage.HistoryPrepended | src/server/storage.js:137-143 | recording a generation puts the new entry first in that group's history, keeps the older entries after it, and changes no other field or group |
| GroupStorage.TransferStart | src/server/storage.js:85-94 | before the move loop nothing has been moved |
| GroupStorage.TransferStep | src/server/storage.js:85-94 | each step moves one file from the old directory to the new one |
| GroupStorage.TransferEnd | src/server/storage.js:85-94 | once every file is moved and the old directory removed, the new directory holds both sets of files |
| GroupStorage.Storage.constructor | src/server/storage.js:6-9 | the store works in `<watchDir>/.llmix` with registry `groups.json` |
| GroupStorage.Storage.GroupDirectoriesDistinct | src/server/storage.js:123-125 | `getGroupDirectory` gives two different non-empty group ids two different directories, so no group's files land in another's |
| GroupStorage.Storage.Init | src/server/storage.js:11-35 | `init` performs `InitSpec` on the volume, or fails and leaves it unchanged |
| GroupStorage.Storage.CreateGroupDirectory | src/server/storage.js:37-47 | `createGroupDirectory` makes the directory and returns its path, returns nothing for an empty id, or fails and leaves the volume unchanged |
| GroupStorage.Storage.CleanupEmptyDirectories | src/server/storage.js:49-64 | the volume afterwards is `CleanupSpec` of the volume before |
| GroupStorage.Storage.DeleteGroupDirectory | src/server/storage.js:66-74 | the volume afterwards is `DeleteSpec` of the volume before |
| GroupStorage.Storage.RenameGroupDirectory | src/server/storage.js:76-102 | the volume afterwards is `RenameSpec` of the volume before |
| GroupStorage.Storage.GetGroups | src/server/storage.js:104-112 | `getGroups` returns the stored list, and an empty list when the registry is missing or unreadable |
| GroupStorage.Storage.SaveGroups | src/server/storage.js:114-121 | `saveGroups` performs `SaveSpec`, or reports the error and changes nothing |
| GroupStorage.Storage.AddGenerationToHistory | src/server/storage.js:127-149 | `addGenerationToHistory` performs `AddHistorySpec`, or reports its error and changes nothing |
| FileUtils.TrailingDigits | src/server/fileUtils.js:24 | the count is that of the maximal run of digits ending the string |
| FileUtils.FilterIso | src/server/fileUtils.js:21-24 | removing `-` and `:` from an ISO timestamp keeps the date, hour, minute and second fields |
| FileUtils.ReplaceAfterDigits | src/server/fileUtils.js:23 | the first `T` after an all-digit date part is the separator |
| FileUtils.StripFraction | src/server/fileUtils.js:24 | the `.mmmZ` suffix is removed |
| FileUtils.FilteredIso | src/server/fileUtils.js:21-24 | the filtered timestamp is date, `T`, time and fraction in order |
| FileUtils.TokenOfIso | src/server/fileUtils.js:21-24 | the timestamp token is `YYYYMMDDHHMMSS` taken from the ISO string |
| FileUtils.TokenDigits | src/server/fileUtils.js:21-24 | the token is exactly fourteen digits |
| FileUtils.ArtifactName | src/server/fileUtils.js:35 | an artifact is named `<groupId>-<14 digits>.txt` |
| FileUtils.DescriptionLine | src/server/fileUtils.js:42 | the description line appears exactly for a truthy description and starts with `# Description: ` |
| FileUtils.SectionLayout | src/server/fileUtils.js:61-68 | a readable file's section is its heading, size, modification time, content and separator |
| FileUtils.SectionHoldsContent | src/server/fileUtils.js:62-68 | a readable file's content appears inside its section |
| FileUtils.FailedSectionLayout | src/server/fileUtils.js:69-75 | an unreadable file's section carries the error message instead |
| FileUtils.BodyAppend | src/server/fileUtils.js:51-77 | the sections of two file lists concatenate |
| FileUtils.BodyStep | src/server/fileUtils.js:51-77 | each loop iteration appends the next file's section |
| FileUtils.SectionsInOrder | src/server/fileUtils.js:51-77 | the i-th file's section follows those of the earlier files |
| FileUtils.SkippedFilesVanish | src/server/fileUtils.js:56-59 | entries that are not regular files contribute nothing |
| FileUtils.AppendSections | src/server/fileUtils.js:51-77 | the loop's content is the header followed by every file's section in order |
| FileUtils.GenerateOutcome | src/server/fileUtils.js:15-100 | generation fails exactly on a missing group id or a read-only disk; on success one new artifact named after the group is added to its directory, nothing else changes, and the result reports its path, file count and size |
| FileUtils.GenerateContentFile | src/server/fileUtils.js:15-100 | `generateContentFile` performs `GenerateSpec` on the volume, or fails and leaves it unchanged |
| FileUtils.FileExists | src/server/fileUtils.js:107-114 | a file can exist only inside a present folder and, for a group file, inside an existing group directory |
| FileUtils.CleanupSpec | src/server/fileUtils.js:120-143 | cleanup removes exactly the empty group directories other than `default` |
| FileUtils.CleanupsAgreeExceptDefault | src/server/fileUtils.js:130-137 | the two cleanups agree unless `default` is empty |
| FileUtils.CleanupEmptyDirectories | src/server/fileUtils.js:120-143 | the volume afterwards is `CleanupSpec` of the volume before |
| FileUtils.RemoveGroupSpec | src/server/fileUtils.js:189-200 | removal of a group directory fails only on a read-only disk where something exists; an empty id removes the whole folder |
| FileUtils.DeletionsAgree | src/server/fileUtils.js:189-200 | for a non-empty id it agrees with the storage class's deletion |
| FileUtils.DeleteGroupDirectory | src/server/fileUtils.js:189-200 | `deleteGroupDirectory` performs `RemoveGroupSpec`, or reports the failure and changes nothing |
| FileUtils.MoveSpec | src/server/fileUtils.js:151-182 | the new directory is always created first; moving renames each file by replacing the old id with the new one, gathers them in the new directory and removes the old one; every other group directory is untouched; with no old directory only the new one is made; with equal ids the directory and its files are removed |
| FileUtils.ReplaceLeadingId | src/server/fileUtils.js:169 | a name starting with the old id gets the new id in its place |
| FileUtils.MoveRenamesPrefixed | src/server/fileUtils.js:166-172 | a file named `<oldId><rest>` arrives as `<newId><rest>` |
| FileUtils.MoveRenamesArtifacts | src/server/fileUtils.js:166-172 | an artifact generated for the old group arrives under the name it would have had for the new group |
| FileUtils.MidwayStart | src/server/fileUtils.js:161-166 | before the move loop nothing has been moved |
| FileUtils.RenamedAdd | src/server/fileUtils.js:169 | renaming a set with one more file adds that file's renamed name |
| FileUtils.MidwayStep | src/server/fileUtils.js:166-172 | each step moves one file and renames it |
| FileUtils.MidwayEnd | src/server/fileUtils.js:166-175 | once the loop and the removal are done, the new directory holds its old files plus every renamed one |
| FileUtils.MoveGroupFiles | src/server/fileUtils.js:151-182 | `moveGroupFiles` performs `MoveSpec` (so it creates the new directory, leaves every other group alone and loses the files when both ids are equal), or reports the failure and changes nothing |
| GroupsApi.PutUnknownId | src/server/api/groups.js:9-13 | a PUT for an id no group has answers 404 and changes nothing |
| GroupsApi.PutReplacesAtIndex | src/server/api/groups.js:4-26 | a PUT replaces exactly the group with that id and echoes it, succeeding exactly on a writable disk |
| GroupsApi.PutRenamesOnlyOnIdChange | src/server/api/groups.js:15-17 | the group directory is renamed only when the id changed |
| GroupsApi.PutGroup | src/server/api/groups.js:4-26 | the handler's response and resulting volume are `PutSpec` of the volume before |
| GroupsApi.CreateAll | src/server/api/groups.js:33-35 | creating each group's directory keeps the folder consistent and present |
| GroupsApi.CreateAllMakesDirs | src/server/api/groups.js:33-35 | after the loop every non-empty id has a directory, existing ones are untouched and the registry is unchanged |
| GroupsApi.CreateAllFailsUnchanged | src/server/api/groups.js:33-35 | on a read-only disk the loop changes nothing |
| GroupsApi.CreateAllStopsAtFailure | src/server/api/groups.js:33-35 | the first failed `await` ends the loop |
| GroupsApi.CreateAllFailsOnlyReadOnly | src/server/api/groups.js:33-35 | on a writable disk the loop always succeeds |
| GroupsApi.PostSavesVerbatim | src/server/api/groups.js:30-42 | POST stores the list as sent, with a directory for each group, and answers 200 exactly on a writable disk |
| GroupsApi.PostGroups | src/server/api/groups.js:30-42 | the handler's response and resulting volume are `PostSpec` of the volume before |
| GroupsApi.DeleteNotFound | src/server/api/groups.js:76-81 | DELETE answers 404 exactly for an unknown id, and then changes nothing |
| GroupsApi.DeleteRemovesAll | src/server/api/groups.js:73-89 | DELETE removes every group with that id and its directory and keeps the others in order |
| GroupsApi.DeleteGroup | src/server/api/groups.js:73-89 | the handler's response and resulting volume are `DeleteRouteSpec` of the volume before |
| GroupsApi.HistoryRouteAlwaysFails | src/server/api/groups.js:102-111 | the history route answers 500 "Group not found" for every id and changes nothing |
| GroupsApi.PostHistory | src/server/api/groups.js:102-111 | the handler's response and resulting volume are `HistorySpec` of the volume before |
| GroupsApi.HistoryFixedRecords | src/server/api/groups.js:102-111 | with the id passed as a string, the entry is recorded first in that group's history |
| GroupsApi.PostHistoryFixed | src/server/api/groups.js:102-111 | the corrected handler performs `HistoryFixedSpec` |
| Server.ListFiles | src/server/index.js:32-39 | `/api/files` answers 200 with the scanned paths, or 500 when the scan fails |
| Server.ValidationOrder | src/server/index.js:50-66 | the generate route answers 400 exactly when files, name or group id is missing, reports the first missing one, and then changes nothing |
| Server.GenerateReadOnly | src/server/index.js:45-94 | on a read-only disk a valid request answers 500 and nothing changes |
| Server.GenerateWritesThenRecords | src/server/index.js:69-93 | a valid request always writes the artifact; it answers 200 with the artifact's path and prepends the history entry exactly when the group is registered, and 500 otherwise |
| Server.HandleGenerate | src/server/index.js:45-94 | the handler's response and resulting volume are `GenerateRouteSpec` of the volume before |
| Server.Terminate | src/server/index.js:123-126 | a terminated socket is never open and keeps its liveness flag |
| Server.TerminateIdempotent | src/server/index.js:123-126 | terminating twice is terminating once, and a socket already closing or closed is left as it is |
| Server.TickSpec | src/server/index.js:121-130 | a heartbeat tick keeps the same clients |
| Server.PongSpec | src/server/index.js:139-141 | a pong keeps the same clients |
| Server.SilentClientTerminated | src/server/index.js:121-130 | a client that never answers is terminated by the second tick |
| Server.AnsweringClientKept | src/server/index.js:121-141 | a client that answers every ping stays open |
| Server.InitialMessages | src/server/index.js:144-160 | a new open client gets the file list and then the group list, and nothing when the scan fails or the socket is not open |
| Server.SyncHub.constructor | src/server/index.js:120-130 | the hub starts with no clients, the heartbeat running and no shutdown |
| Server.SyncHub.Connect | src/server/index.js:133-138 | a connection registers an open, alive client |
| Server.SyncHub.Pong | src/server/index.js:139-141 | a pong marks only that client alive |
| Server.SyncHub.Closed | src/server/index.js:162-165 | a close forgets the client |
| Server.SyncHub.Errored | src/server/index.js:167-170 | an error removes the client from the broadcast set only |
| Server.SyncHub.PingTick | src/server/index.js:121-130 | a tick terminates exactly the clients that did not answer and pings the rest |
| Server.SyncHub.Broadcast | src/server/index.js:174-199 | a file event sends one message to every open client and drops the clients whose send fails |
| Server.SyncHub.Cleanup | src/server/index.js:215-252 | shutdown runs once: it stops the heartbeat and terminates every socket |
| GenerateApi.GenerateApiNeverSucceeds | src/server/api/generate.js:4-39 | the unmounted generate router validates files then name, and otherwise always answers 500 because it never passes the group id |
| GenerateApi.GroupIdIgnored | src/server/api/generate.js:22-28 | the request's group id makes no difference |
| GenerateApi.HandleGenerateApi | src/server/api/generate.js:4-39 | the handler's response and resulting volume are `GenerateApiSpec` of the volume before |
| ConfigApi.OrDefault | src/server/api/config.js:9-10 | a given non-empty value wins, otherwise the default |
| ConfigApi.DefaultsApply | src/server/api/config.js:6-12 | missing `ignore` becomes `[]`; missing output settings become `.llmix` and `{name}-{timestamp}.txt` |
| ConfigApi.GivenValuesPass | src/server/api/config.js:6-12 | configured values are passed through unchanged |
| ConfigApi.OtherFieldsDropped | src/server/api/config.js:6-12 | fields outside the three are not exposed |
| ConfigApi.SanitiseIdempotent | src/server/api/config.js:6-12 | sanitising an already sanitised configuration changes nothing |
| FileTree.VisibleFiles | src/ui/components/FileTree.jsx:16-18 | the tree shows exactly the string entries not starting with `.` |
| FileTree.VisibleFilesAppend | src/ui/components/FileTree.jsx:16-18 | filtering distributes over concatenation |
| FileTree.VisibleFilesKeepsPlain | src/ui/components/FileTree.jsx:16-18 | a list without dot-files is shown unchanged |
| FileTree.Render | src/ui/components/FileTree.jsx:4-41 | a missing prop takes the `[]` default and renders the empty panel with its placeholder; any other non-array renders nothing; an array lists the visible files, shows the placeholder exactly when there are none, and labels the count otherwise |
| IgnoreConfig.Rows | src/ui/components/IgnoreConfig.jsx:17-62 | one row per distinct pattern |
| IgnoreConfig.ListsEachOnce | src/ui/components/IgnoreConfig.jsx:17 | each pattern is listed once, and exactly the defaults and the configured ones are listed |
| IgnoreConfig.DisplayDefaultsDistinct | src/ui/components/IgnoreConfig.jsx:8-14 | the five built-in patterns are distinct |
| IgnoreConfig.DefaultsFirst | src/ui/components/IgnoreConfig.jsx:17 | the defaults come first, then the new configured patterns in first-seen order |
| IgnoreConfig.CountShown | src/ui/components/IgnoreConfig.jsx:28 | the count shown is between five and five plus the configured count |
| IgnoreConfig.CustomTag | src/ui/components/IgnoreConfig.jsx:17-62 | the rows tagged custom show exactly the configured patterns (defaults included), the untagged rows exactly the defaults that are not configured, and no pattern has two rows |
| App.LowerChar | src/ui/App.jsx:24 | a lowered character is never an upper-case letter |
| App.Lower | src/ui/App.jsx:24 | lowering leaves no capital, keeps letters letters and every other character as it was |
| App.LowerIdempotent | src/ui/App.jsx:24 | lowering twice is lowering once |
| App.Squash | src/ui/App.jsx:27-28 | the result is empty exactly when the input is; it ends in the replacement when the input ends in the class, and otherwise in the input's own last character |
| App.SquashNoRun | src/ui/App.jsx:27-28 | after collapsing, no two adjacent characters both belong to the class |
| App.SquashAlphabet | src/ui/App.jsx:27-28 | collapsing introduces only the replacement character |
| App.SquashKeepsOthers | src/ui/App.jsx:27-28 | collapsing keeps, in order, every character that is neither in the class nor the replacement, for both `replace(/\s+/g, '-')` and `replace(/-+/g, '-')`: only the runs are rewritten |
| App.TrimKeeps | src/ui/App.jsx:25 | trimming introduces no characters |
| App.LowerHasNoUpper | src/ui/App.jsx:24 | a lowered string has no upper-case letter |
| App.FilteredChars | src/ui/App.jsx:26 | after the filter only word characters, hyphens and white space remain |
| App.HyphensSquashed | src/ui/App.jsx:28 | collapsing hyphens leaves a slug-shaped string |
| App.SpacesSquashed | src/ui/App.jsx:27 | collapsing white space leaves only slug characters |
| App.BaseSlugShape | src/ui/App.jsx:23-28 | a slug holds only lower-case word characters and hyphens, never two hyphens in a row |
| App.CandidateInjective | src/ui/App.jsx:34 | different counters give different candidates |
| App.FirstFree | src/ui/App.jsx:33-36 | the counter search never goes below its start |
| App.FirstFreeIsFirst | src/ui/App.jsx:33-36 | the search stops at the first free candidate |
| App.SlugIsFresh | src/ui/App.jsx:22-41 | the slug is no existing id; it is the base slug when free, else the base with the least counter giving a free id |
| App.GenerateSlug | src/ui/App.jsx:22-41 | the loop returns `Slug` |
| App.AddNewBoxAppends | src/ui/App.jsx:150-163 | a new group is appended with a fresh id, the next default name, the rotating colour and empty contents, keeping ids distinct |
| App.RemoveDropsAll | src/ui/App.jsx:230-234 | removal drops every group with that id and keeps all others |
| App.DistinctIdsFilter | src/ui/App.jsx:230-234 | filtering keeps ids distinct |
| App.FindById | src/ui/App.jsx:168 | `find` returns a group with that id exactly when one exists, and it is the first such group |
| App.UpdateKeepingName | src/ui/App.jsx:165-176 | an update that keeps the name replaces exactly the group with that id |
| App.RenameDropped | src/ui/App.jsx:165-176 | an update whose new name gives a different slug leaves the list unchanged |
| App.FixedUpdateApplies | src/ui/App.jsx:165-176 | with the lookup made before the id changes, a rename replaces that group under a fresh id and keeps ids distinct |
| App.MessagesApplied | src/ui/App.jsx:86-101 | a group message replaces the groups; a file message replaces the files with its non-dot entries |
| App.UnknownMessagesIgnored | src/ui/App.jsx:86-101 | an unparsable or unknown message changes nothing |
| App.SavePayload | src/ui/App.jsx:132-148 | the list is saved exactly when it is non-empty |
| App.SaveStoresList | src/ui/App.jsx:132-148 | saving a non-empty list stores it verbatim in the registry |
| ContentBox.HandleDrop | src/ui/components/ContentBox.jsx:21-32 | a drop changes only the file list, and is ignored exactly when the file is already there |
| ContentBox.DropAppends | src/ui/components/ContentBox.jsx:21-32 | a new file is appended, keeping the list duplicate-free |
| ContentBox.RemoveFileDropsAll | src/ui/components/ContentBox.jsx:34-39 | removal drops every copy of the file and keeps the rest |
| ContentBox.RequestOf | src/ui/components/ContentBox.jsx:41-57 | a request is sent exactly when the group has files, and it carries the files but no group id |
| ContentBox.RequestWithId | src/ui/components/ContentBox.jsx:41-57 | the corrected request also carries the group id |
| ContentBox.GenerateFlow | src/ui/components/ContentBox.jsx:41-71 | the button does nothing without files; otherwise it shows progress, always clears it, and reports an error exactly on a failed or non-2xx answer |
| ContentBox.ClickAlwaysRefused | src/ui/components/ContentBox.jsx:53-57 | the request as written is always refused with 400 by the generate route, nothing is written, and the panel shows the error |
| ContentBox.FixedRequestGenerates | src/ui/components/ContentBox.jsx:53-57 | with the group id sent, a registered group's artifact is written and the panel shows success |

## Left out

- File contents, sizes and modification times are opaque: `probe` supplies them. The reported size of the artifact is `outputContent.length`, a count of UTF-16 code units; the model counts characters.
- The three `new Date()` readings, `process.cwd()`, minimatch and cosmiconfig's `loadConfig` (src/cli/utils.js:8-33) are parameters.
- `path.join`/`path.relative` are modelled as `/`-joining. There is no `..` resolution and no Windows separators beyond the backslash replacement.
- Errors are abbreviated: an OS error is one message per kind (`EACCES`, `ENOENT`), and the `stack` in the 500 body of index.js is not modelled.
- Logging (`console.*`) is left out.
- Request bodies are assumed to be parsed JSON objects. A group in a body is assumed to be a well-formed `Group` record.
- Js.ParseInt: the value is an exact integer. JavaScript returns a double, so integers beyond 2^53 are rounded.
- GroupsApi.HistoryRouteAlwaysFails: the 500 message prints the parsed value exactly. JavaScript prints the rounded double, and from 10^21 on in exponent form (`1e+21`), so for such ids the message text differs. That the route always fails is unaffected.
- `String.prototype.replace` is modelled for plain-string patterns and replacements without `$` sequences.
- Lower-casing is ASCII only. `\w` and `\s` use the ASCII classes plus the common white-space characters; there is no Unicode case mapping.
- groups.js:45-70 and 92-99 register a second PUT and a second POST on paths already taken. Express always dispatches to the first registration, so these handlers never run and are not modelled.
- index.js:41-43 serves the raw configuration at `/api/config`. That route is the identity on the configuration and has no contract worth stating.
- src/server/api/config.js:14-20: the `catch` cannot be reached for a configuration record. It is not modelled.
- The WebSocket server's framing, timers (`setInterval`, `setTimeout` in shutdown), the `http` server, process signals and the concurrency of interleaved requests are left out. Each handler runs atomically on the volume.
- Server.SyncHub.PingTick: `ws.ping()` throwing on a socket that is not open is not modelled; every alive socket is pinged.
- The UI's `fetch` calls are not modelled as network I/O. Their requests are given to the server's specification functions, as `App.SaveStoresList` and `ContentBox.ClickAlwaysRefused` show.
- Beyond those requests, the UI's initial `fetch('/api/groups')` (no GET route exists), the WebSocket reconnect logic and the rendering are left out.
- App.HandleGroupUpdate: the source mutates `updatedBox.id` in place. The model returns the new list; the mutation of the caller's object is not observable in it.
- FileUtils.MoveGroupFiles: requires non-empty ids. With an empty id, `path.join` would name the whole `.llmix` folder, and whether that folder can be renamed into itself depends on the operating system.
- GroupStorage.RenameSpec: `renameGroupDirectory` moves each file under its own name (storage.js:85-94); only `moveGroupFiles` rewrites names.

## Findings

| source | as written | input that shows it | evidently intended | confidence | as-written member | corrected member |
|---|---|---|---|---|---|---|
| src/ui/components/ContentBox.jsx:53-57 | the generate request sends `files`, `name` and `description` but no `groupId`, and index.js:62-66 requires one | any group with at least one file: clicking Generate gets 400 "Group ID is required" (or "Name is required and must be a string" for an empty name) | the request also sends the group's id, and the artifact is written and recorded | not executed | ContentBox.ClickAlwaysRefused | ContentBox.FixedRequestGenerates |
| src/server/api/groups.js:106 | the route passes `parseInt(groupId)` to `addGenerationToHistory`, whose strict `===` against string ids never matches a number or NaN | POST `/api/groups/default/history` on the initial registry answers 500 "Group not found: NaN" | the id is passed as the string it is | not executed | GroupsApi.HistoryRouteAlwaysFails | GroupsApi.HistoryFixedRecords |
| src/ui/App.jsx:165-176 | `updatedBox.id` is replaced by the new slug before `boxes.map` looks for the group by id, so no group matches | groups `[{id: "a", name: "a"}]`, update `{id: "a", name: "b"}`: the list stays unchanged | the old group is replaced by the renamed one under its new id | not executed | App.RenameDropped | App.FixedUpdateApplies |

=== FILE: app.dfy ===
/** The group logic of the browser application, src/ui/App.jsx: slugs for group ids,
    adding, updating and removing groups, applying pushed messages and saving. */
module App {
  import opened Wrappers
  import opened Seqs
  import opened Text
  import opened Js
  import opened Groups
  import opened Disk
  import opened FileTree
  import GroupsApi
  import Server

  // ---- the base slug ------------------------------------------------------

  /** `toLowerCase()` on ASCII letters. */
  function LowerChar(c: char): (r: char)
    ensures !('A' <= r <= 'Z')
  {
    if 'A' <= c <= 'Z' then (c as int + 32) as char else c
  }

  /** `toLowerCase()`: no capital is left, letters stay letters and every other
      character stays where it was. */
  function Lower(s: string): (r: string)
    ensures |r| == |s| && forall i :: 0 <= i < |s| ==> r[i] == LowerChar(s[i])
    ensures forall i :: 0 <= i < |s| ==> ('a' <= r[i] <= 'z' <==> 'a' <= s[i] <= 'z' || 'A' <= s[i] <= 'Z')
    ensures forall i :: 0 <= i < |s| && !('A' <= s[i] <= 'Z') ==> r[i] == s[i]
  {
    seq(|s|, i requires 0 <= i < |s| => LowerChar(s[i]))
  }

  /** What `/[^\w\s-]/g` leaves in place. */
  predicate Allowed(c: char)
  {
    IsWordChar(c) || IsSpace(c) || c == '-'
  }

  predicate IsHyphen(c: char)
  {
    c == '-'
  }

  /** Replaces every maximal run of characters satisfying `p` by the single character `c`:
      `.replace(/\s+/g, '-')` and `.replace(/-+/g, '-')`. */
  function Squash(s: string, p: char -> bool, c: char): (r: string)
    ensures r == [] <==> s == []
    ensures r != [] && p(s[|s| - 1]) ==> r[|r| - 1] == c
    ensures r != [] && !p(s[|s| - 1]) ==> r[|r| - 1] == s[|s| - 1]
  {
    if s == [] then []
    else
      var init, x := s[..|s| - 1], s[|s| - 1];
      if !p(x) then Squash(init, p, c) + [x]
      else if init != [] && p(init[|init| - 1]) then Squash(init, p, c)
      else Squash(init, p, c) + [c]
  }

  /** No two neighbours in `r` both satisfy `p`. */
  predicate NoRun(r: string, p: char -> bool)
  {
    forall i :: 0 <= i < |r| - 1 ==> !(p(r[i]) && p(r[i + 1]))
  }

  /** After squashing, no two neighbours both satisfy `p` when `c` does. */
  lemma {:induction false} SquashNoRun(s: string, p: char -> bool, c: char)
    requires p(c)
    ensures NoRun(Squash(s, p, c), p)
  {
    if s != [] {
      var init, x := s[..|s| - 1], s[|s| - 1];
      SquashNoRun(init, p, c);
      var r0 := Squash(init, p, c);
      var r := Squash(s, p, c);
      if !p(x) {
        assert r == r0 + [x];
        PairsOfSnoc(r0, x, p);
      } else if init != [] && p(init[|init| - 1]) {
        assert r == r0;
      } else {
        assert r == r0 + [c];
        assert r0 != [] ==> !p(r0[|r0| - 1]);
        PairsOfSnoc(r0, c, p);
      }
    }
  }

  /** Appending `y` adds one neighbour pair, formed with the old last character. */
  lemma PairsOfSnoc(r0: string, y: char, p: char -> bool)
    requires NoRun(r0, p)
    requires r0 != [] ==> !(p(r0[|r0| - 1]) && p(y))
    ensures NoRun(r0 + [y], p)
  {
    var r := r0 + [y];
    forall i | 0 <= i < |r| - 1 ensures !(p(r[i]) && p(r[i + 1])) {
      assert r[i] == r0[i];
      if i + 1 < |r0| {
        assert r[i + 1] == r0[i + 1];
      }
    }
  }

  /** The characters that are neither in the class `p` nor the replacement `c`. */
  function Untouched(p: char -> bool, c: char): char -> bool
  {
    x => !p(x) && x != c
  }

  /** Squashing keeps, in order, every character that is neither in the class nor the
      replacement: only the runs of `p` are rewritten. */
  lemma {:induction false} SquashKeepsOthers(s: string, p: char -> bool, c: char)
    ensures Filter(Squash(s, p, c), Untouched(p, c)) == Filter(s, Untouched(p, c))
  {
    if s != [] {
      var init, x := s[..|s| - 1], s[|s| - 1];
      var keep := Untouched(p, c);
      SquashKeepsOthers(init, p, c);
      var r0 := Squash(init, p, c);
      assert s == init + [x];
      FilterAppend(init, [x], keep);
      assert Filter([c], keep) == [] by { assert [c][1..] == []; }
      if !p(x) {
        FilterAppend(r0, [x], keep);
      } else if init != [] && p(init[|init| - 1]) {
        assert Filter([x], keep) == [] by { assert [x][1..] == []; }
      } else {
        FilterAppend(r0, [c], keep);
        assert Filter([x], keep) == [] by { assert [x][1..] == []; }
      }
    }
  }

  /** Squashing introduces no character but `c`: what remains of `s` lies outside `p`. */
  lemma {:induction false} SquashAlphabet(s: string, p: char -> bool, c: char)
    ensures forall x :: x in Squash(s, p, c) ==> x == c || (x in s && !p(x))
  {
    if s != [] {
      var init, last := s[..|s| - 1], s[|s| - 1];
      SquashAlphabet(init, p, c);
      assert s == init + [last];
    }
  }

  /** Trimming only removes characters. */
  lemma TrimKeeps(s: string)
    ensures forall x :: x in Trim(s) ==> x in s
  {
    var a := TrimStart(s);
    var b := TrimEnd(a);
    forall x | x in b ensures x in s {
      var i :| 0 <= i < |b| && b[i] == x;
      assert a[i] == x;
      assert s[|s| - |a| + i] == x;
    }
  }

  /** Lower-casing leaves no upper-case ASCII letter. */
  lemma LowerHasNoUpper(s: string)
    ensures forall x :: x in Lower(s) ==> !('A' <= x <= 'Z')
  {
  }

  /** Lowering an already lowered string changes nothing. */
  lemma LowerIdempotent(s: string)
    ensures Lower(Lower(s)) == Lower(s)
  {
    var t := Lower(s);
    assert forall i :: 0 <= i < |t| ==> Lower(t)[i] == t[i];
  }

  /** The base slug: lower-cased, trimmed, stripped of everything but word characters,
      white space and hyphens, white-space runs turned into one hyphen, hyphen runs
      collapsed. */
  function BaseSlug(text: string): string
  {
    Squash(Squash(Filter(Trim(Lower(text)), Allowed), IsSpace, '-'), IsHyphen, '-')
  }

  predicate SlugChar(c: char)
  {
    ('a' <= c <= 'z') || ('0' <= c <= '9') || c == '_' || c == '-'
  }

  /** The characters that survive the filter of a lower-cased, trimmed text. */
  lemma FilteredChars(text: string)
    ensures forall x :: x in Filter(Trim(Lower(text)), Allowed) ==> SlugChar(x) || IsSpace(x)
  {
    var t := Trim(Lower(text));
    TrimKeeps(Lower(text));
    LowerHasNoUpper(text);
    FilterMembers(t, Allowed);
  }

  /** Only slug characters, and never two hyphens in a row. */
  predicate SlugShaped(r: string)
  {
    && (forall i :: 0 <= i < |r| ==> SlugChar(r[i]))
    && forall i :: 0 <= i < |r| - 1 ==> !(r[i] == '-' && r[i + 1] == '-')
  }

  /** Squashing hyphen runs in a text of slug characters gives a slug without `--`. */
  lemma HyphensSquashed(sp: string)
    requires forall x :: x in sp ==> SlugChar(x)
    ensures SlugShaped(Squash(sp, IsHyphen, '-'))
  {
    var r := Squash(sp, IsHyphen, '-');
    SquashAlphabet(sp, IsHyphen, '-');
    SquashNoRun(sp, IsHyphen, '-');
    assert forall i :: 0 <= i < |r| ==> r[i] in r;
    forall i | 0 <= i < |r| - 1 ensures !(r[i] == '-' && r[i + 1] == '-') {
      assert !(IsHyphen(r[i]) && IsHyphen(r[i + 1]));
    }
  }

  /** Squashing white-space runs in a text of slug characters and white space leaves
      only slug characters. */
  lemma SpacesSquashed(f: string)
    requires forall x :: x in f ==> SlugChar(x) || IsSpace(x)
    ensures forall x :: x in Squash(f, IsSpace, '-') ==> SlugChar(x)
  {
    SquashAlphabet(f, IsSpace, '-');
  }

  /** A base slug holds only lower-case letters, digits, `_` and `-`, and never `--`. */
  lemma BaseSlugShape(text: string)
    ensures SlugShaped(BaseSlug(text))
  {
    var f := Filter(Trim(Lower(text)), Allowed);
    FilteredChars(text);
    SpacesSquashed(f);
    HyphensSquashed(Squash(f, IsSpace, '-'));
  }

  // ---- collision avoidance ------------------------------------------------

  /** The k-th candidate: the base itself, then `base-1`, `base-2`, ... */
  function Candidate(base: string, k: nat): string
  {
    if k == 0 then base else base + "-" + NatToString(k)
  }

  lemma CandidateInjective(base: string, i: nat, j: nat)
    requires Candidate(base, i) == Candidate(base, j)
    ensures i == j
  {
    if i != 0 && j != 0 {
      var n := |base| + 1;
      assert Candidate(base, i)[n..] == NatToString(i);
      assert Candidate(base, j)[n..] == NatToString(j);
      NatToStringInjective(i, j);
    }
  }

  /** The first candidate from the k-th on that is not in `ids`. Each candidate found
      taken is removed from the set, which bounds the search. */
  function FirstFree(base: string, ids: set<string>, k: nat): (r: nat)
    ensures r >= k
    decreases |ids|
  {
    if Candidate(base, k) !in ids then k else FirstFree(base, ids - {Candidate(base, k)}, k + 1)
  }

  /** The candidate found is free and every earlier one from `k` on is taken. */
  lemma {:induction false} FirstFreeIsFirst(base: string, ids: set<string>, k: nat)
    ensures Candidate(base, FirstFree(base, ids, k)) !in ids
    ensures forall j :: k <= j < FirstFree(base, ids, k) ==> Candidate(base, j) in ids
  {
    var here := Candidate(base, k);
    if here in ids {
      var rest := ids - {here};
      assert FirstFree(base, ids, k) == FirstFree(base, rest, k + 1);
      FirstFreeIsFirst(base, rest, k + 1);
      var r := FirstFree(base, rest, k + 1);
      assert Candidate(base, r) != here by {
        if Candidate(base, r) == here {
          CandidateInjective(base, r, k);
        }
      }
      forall j | k <= j < r ensures Candidate(base, j) in ids {
        if j > k {
          assert Candidate(base, j) in rest;
        }
      }
    }
  }

  /** `generateSlug(text, existingGroups)`. */
  function Slug(text: string, existing: seq<Group>): string
  {
    var base := BaseSlug(text);
    Candidate(base, FirstFree(base, Ids(existing), 0))
  }

  /** The slug is never the id of an existing group. A free base slug is returned as
      it is; otherwise the result is `base-k` for the smallest k >= 1 that is free. */
  lemma SlugIsFresh(text: string, existing: seq<Group>)
    ensures Slug(text, existing) !in Ids(existing)
    ensures BaseSlug(text) !in Ids(existing) ==> Slug(text, existing) == BaseSlug(text)
    ensures BaseSlug(text) in Ids(existing) ==>
      exists k: nat :: k >= 1 && Slug(text, existing) == BaseSlug(text) + "-" + NatToString(k)
        && forall j: nat :: 1 <= j < k ==> BaseSlug(text) + "-" + NatToString(j) in Ids(existing)
  {
    var base := BaseSlug(text);
    FirstFreeIsFirst(base, Ids(existing), 0);
    var k := FirstFree(base, Ids(existing), 0);
    if base in Ids(existing) {
      assert k != 0;
      assert forall j: nat :: 1 <= j ==> Candidate(base, j) == base + "-" + NatToString(j);
      assert k >= 1 && Slug(text, existing) == base + "-" + NatToString(k)
        && forall j: nat :: 1 <= j < k ==> base + "-" + NatToString(j) in Ids(existing);
    }
  }

  /** The loop of `generateSlug`: try `base`, then `base-1`, `base-2`, ... */
  method GenerateSlug(text: string, existing: seq<Group>) returns (slug: string)
    ensures slug == Slug(text, existing)
  {
    slug := BaseSlug(text);
    if slug in Ids(existing) {
      var counter := 1;
      var newSlug := slug;
      ghost var remaining := Ids(existing);
      while newSlug in Ids(existing)
        invariant counter >= 1 && newSlug == Candidate(slug, counter - 1)
        invariant remaining <= Ids(existing)
        invariant FirstFree(slug, remaining, counter - 1) == FirstFree(slug, Ids(existing), 0)
        invariant forall j: nat :: j >= counter - 1 ==>
          (Candidate(slug, j) in remaining <==> Candidate(slug, j) in Ids(existing))
        decreases |remaining|
      {
        var taken := newSlug;
        assert FirstFree(slug, remaining, counter - 1) == FirstFree(slug, remaining - {taken}, counter);
        remaining := remaining - {taken};
        forall j: nat | j >= counter
          ensures Candidate(slug, j) in remaining <==> Candidate(slug, j) in Ids(existing)
        {
          if Candidate(slug, j) == taken {
            CandidateInjective(slug, j, counter - 1);
          }
        }
        newSlug := slug + "-" + NatToString(counter);
        counter := counter + 1;
      }
      slug := newSlug;
    }
  }

  // ---- the group list -----------------------------------------------------

  const ColorOptions: seq<string> :=
    ["blue", "green", "purple", "yellow", "pink", "indigo", "red", "orange", "teal", "cyan"]

  predicate DistinctIds(gs: seq<Group>)
  {
    forall i, j :: 0 <= i < j < |gs| ==> gs[i].id != gs[j].id
  }

  /** The group `addNewBox` creates for a list of n groups. */
  function NewBox(boxes: seq<Group>): Group
  {
    var name := "Content Group " + NatToString(|boxes| + 1);
    Group(Slug(name, boxes), name, [], "", ColorOptions[|boxes| % |ColorOptions|], Some([]))
  }

  function AddNewBox(boxes: seq<Group>): seq<Group>
  {
    boxes + [NewBox(boxes)]
  }

  /** Adding appends exactly one group, empty, with the next colour in turn and an id no
      other group has; distinct ids stay distinct. */
  lemma AddNewBoxAppends(boxes: seq<Group>)
    ensures var r := AddNewBox(boxes);
      && |r| == |boxes| + 1 && r[..|boxes|] == boxes
      && r[|boxes|].id !in Ids(boxes)
      && r[|boxes|].name == "Content Group " + NatToString(|boxes| + 1)
      && r[|boxes|].color == ColorOptions[|boxes| % 10]
      && r[|boxes|].files == [] && r[|boxes|].description == "" && r[|boxes|].history == Some([])
    ensures DistinctIds(boxes) ==> DistinctIds(AddNewBox(boxes))
  {
    SlugIsFresh("Content Group " + NatToString(|boxes| + 1), boxes);
    var r := AddNewBox(boxes);
    assert r[..|boxes|] == boxes;
    forall i | 0 <= i < |boxes| ensures r[i].id != r[|boxes|].id {
      assert boxes[i].id in Ids(boxes);
    }
  }

  /** `boxes.filter(b => b.id !== id)`. */
  function WithoutId(boxes: seq<Group>, id: string): seq<Group>
  {
    Filter(boxes, (b: Group) => b.id != id)
  }

  /** `onRemove`: every group with the id goes, the rest stay in order. */
  lemma RemoveDropsAll(boxes: seq<Group>, id: string)
    ensures id !in Ids(WithoutId(boxes, id))
    ensures forall g :: g in WithoutId(boxes, id) <==> g in boxes && g.id != id
    ensures DistinctIds(boxes) ==> DistinctIds(WithoutId(boxes, id))
  {
    var keep := (b: Group) => b.id != id;
    var r := Filter(boxes, keep);
    FilterMembers(boxes, keep);
    forall i | 0 <= i < |r| ensures r[i].id != id {
      assert r[i] in r;
    }
    if DistinctIds(boxes) {
      DistinctIdsFilter(boxes, keep);
    }
  }

  lemma {:induction false} DistinctIdsFilter(gs: seq<Group>, keep: Group -> bool)
    requires DistinctIds(gs)
    ensures DistinctIds(Filter(gs, keep))
  {
    if gs != [] {
      DistinctIdsFilter(gs[1..], keep);
      var rest := Filter(gs[1..], keep);
      FilterMembers(gs[1..], keep);
      forall j | 0 <= j < |rest| ensures rest[j].id != gs[0].id {
        assert rest[j] in gs[1..];
        var k :| 0 <= k < |gs[1..]| && gs[1..][k] == rest[j];
        assert gs[k + 1] == rest[j];
      }
    }
  }

  /** `boxes.find(b => b.id === id)`. */
  function FindById(boxes: seq<Group>, id: string): (r: Option<Group>)
    ensures r.None? <==> id !in Ids(boxes)
    ensures r.Some? ==> r.value in boxes && r.value.id == id
    ensures r.Some? ==> exists i :: 0 <= i < |boxes| && boxes[i] == r.value && forall j :: 0 <= j < i ==> boxes[j].id != id
  {
    if boxes == [] then None
    else if boxes[0].id == id then Some(boxes[0])
    else
      var r := FindById(boxes[1..], id);
      assert r.Some? ==> exists i :: 0 <= i < |boxes| && boxes[i] == r.value && forall j :: 0 <= j < i ==> boxes[j].id != id by {
        if r.Some? {
          var i :| 0 <= i < |boxes[1..]| && boxes[1..][i] == r.value && forall j :: 0 <= j < i ==> boxes[1..][j].id != id;
          assert boxes[i + 1] == r.value;
          forall j | 0 <= j < i + 1 ensures boxes[j].id != id {
            if j > 0 { assert boxes[j] == boxes[1..][j - 1]; }
          }
        }
      }
      assert Ids(boxes) == {boxes[0].id} + Ids(boxes[1..]) by {
        forall x | x in Ids(boxes) ensures x in {boxes[0].id} + Ids(boxes[1..]) {
          var i :| 0 <= i < |boxes| && boxes[i].id == x;
          if i > 0 { assert boxes[1..][i - 1].id == x; }
        }
        forall x | x in Ids(boxes[1..]) ensures x in Ids(boxes) {
          var i :| 0 <= i < |boxes[1..]| && boxes[1..][i].id == x;
          assert boxes[i + 1].id == x;
        }
      }
      r
  }

  /** `boxes.map(b => b.id === id ? box : b)`. */
  function ReplaceById(boxes: seq<Group>, id: string, box: Group): seq<Group>
  {
    seq(|boxes|, i requires 0 <= i < |boxes| => if boxes[i].id == id then box else boxes[i])
  }

  /** The box after the name check: a changed name gets a fresh slug among the others. */
  function Rekeyed(boxes: seq<Group>, updated: Group): Group
  {
    var current := FindById(boxes, updated.id);
    if current.None? || updated.name != current.value.name then
      updated.(id := Slug(updated.name, WithoutId(boxes, updated.id)))
    else updated
  }

  /** `handleGroupUpdate` as written: the list is mapped against the new id. */
  function HandleGroupUpdate(boxes: seq<Group>, updated: Group): seq<Group>
  {
    var box := Rekeyed(boxes, updated);
    ReplaceById(boxes, box.id, box)
  }

  /** With the name unchanged, the groups with the id become the update and every other
      group stays where it was. */
  lemma UpdateKeepingName(boxes: seq<Group>, updated: Group)
    requires FindById(boxes, updated.id).Some? && FindById(boxes, updated.id).value.name == updated.name
    ensures var r := HandleGroupUpdate(boxes, updated);
      && |r| == |boxes|
      && (forall i :: 0 <= i < |boxes| && boxes[i].id == updated.id ==> r[i] == updated)
      && (forall i :: 0 <= i < |boxes| && boxes[i].id != updated.id ==> r[i] == boxes[i])
  {
  }

  /** A rename that changes the slug is lost: no group has the new id, so the list comes
      back unchanged. */
  lemma RenameDropped(boxes: seq<Group>, updated: Group)
    requires FindById(boxes, updated.id).Some? && FindById(boxes, updated.id).value.name != updated.name
    requires Slug(updated.name, WithoutId(boxes, updated.id)) != updated.id
    ensures HandleGroupUpdate(boxes, updated) == boxes
  {
    SlugIsFresh(updated.name, WithoutId(boxes, updated.id));
    OthersKept(boxes, updated.id);
  }

  /** Every group whose id differs from `id` keeps its id among the others. */
  lemma OthersKept(boxes: seq<Group>, id: string)
    ensures forall i :: 0 <= i < |boxes| && boxes[i].id != id ==> boxes[i].id in Ids(WithoutId(boxes, id))
  {
    RemoveDropsAll(boxes, id);
    var w := WithoutId(boxes, id);
    forall i | 0 <= i < |boxes| && boxes[i].id != id ensures boxes[i].id in Ids(w) {
      assert boxes[i] in w;
      var k :| 0 <= k < |w| && w[k] == boxes[i];
    }
  }

  /** The evidently intended update: the group found under the old id is replaced. */
  function HandleGroupUpdateFixed(boxes: seq<Group>, updated: Group): seq<Group>
  {
    ReplaceById(boxes, updated.id, Rekeyed(boxes, updated))
  }

  /** The group takes the new name, with its other fields from the update and an id no
      other group has; every other group stays, and distinct ids stay distinct. */
  lemma FixedUpdateApplies(boxes: seq<Group>, updated: Group)
    requires updated.id in Ids(boxes)
    ensures var r := HandleGroupUpdateFixed(boxes, updated);
      && |r| == |boxes|
      && (forall i :: 0 <= i < |boxes| && boxes[i].id == updated.id ==>
            r[i] == updated.(id := r[i].id) && r[i].id !in Ids(WithoutId(boxes, updated.id)))
      && (forall i :: 0 <= i < |boxes| && boxes[i].id != updated.id ==> r[i] == boxes[i])
    ensures DistinctIds(boxes) ==> DistinctIds(HandleGroupUpdateFixed(boxes, updated))
  {
    var box := Rekeyed(boxes, updated);
    var others := WithoutId(boxes, updated.id);
    SlugIsFresh(updated.name, others);
    RemoveDropsAll(boxes, updated.id);
    assert box.id !in Ids(others);
    if DistinctIds(boxes) {
      ReplaceKeepsDistinct(boxes, updated.id, box);
    }
  }

  /** Putting a group with an id no other group has in place of the one with `id`
      keeps the ids distinct. */
  lemma ReplaceKeepsDistinct(boxes: seq<Group>, id: string, box: Group)
    requires DistinctIds(boxes) && box.id !in Ids(WithoutId(boxes, id))
    ensures DistinctIds(ReplaceById(boxes, id, box))
  {
    OthersKept(boxes, id);
  }

  // ---- pushed messages and saving -------------------------------------------

  /** A parsed WebSocket message: its `type`, its `files` and, when it is an array of
      groups, its `groups`. A message that is not JSON is `Unparsable`. */
  datatype Incoming = Unparsable | Incoming(kind: JsValue, files: JsValue, groups: Option<seq<Group>>)

  /** The application state the messages update. */
  datatype UiState = UiState(files: seq<string>, boxes: seq<Group>)

  /** `ws.onmessage`. */
  function OnMessage(st: UiState, msg: Incoming): UiState
  {
    if msg.Incoming? && msg.kind == Str("files") && msg.files.Arr? then st.(files := VisibleFiles(msg.files.items))
    else if msg.Incoming? && msg.kind == Str("groups") && msg.groups.Some? then st.(boxes := msg.groups.value)
    else st
  }

  /** The server's messages as the browser parses them. */
  function Receive(m: Server.Message): Incoming
  {
    match m
    case FileList(fs) => Incoming(Str("files"), Arr(Strings(fs)), None)
    case GroupList(gs) => Incoming(Str("groups"), Undefined, Some(gs))
    case FilesChanged(fs, _, _) => Incoming(Str("files"), Arr(Strings(fs)), None)
  }

  /** A group list replaces the groups; a file list replaces the files with its
      non-dot-file entries in order, so a list without dot-files arrives unchanged;
      anything else changes nothing. */
  lemma MessagesApplied(st: UiState, m: Server.Message)
    ensures m.GroupList? ==> OnMessage(st, Receive(m)) == st.(boxes := m.groups)
    ensures !m.GroupList? ==> OnMessage(st, Receive(m)).boxes == st.boxes
    ensures !m.GroupList? && (forall i :: 0 <= i < |m.files| ==> !StartsWith(m.files[i], ".")) ==>
      OnMessage(st, Receive(m)).files == m.files
    ensures !m.GroupList? ==>
      forall f :: f in OnMessage(st, Receive(m)).files <==> f in m.files && !StartsWith(f, ".")
  {
    if !m.GroupList? {
      if forall i :: 0 <= i < |m.files| ==> !StartsWith(m.files[i], ".") {
        VisibleFilesKeepsPlain(m.files);
      }
      forall f ensures Str(f) in Strings(m.files) <==> f in m.files {
        if f in m.files {
          var i :| 0 <= i < |m.files| && m.files[i] == f;
          assert Strings(m.files)[i] == Str(f);
        }
      }
    }
  }

  lemma UnknownMessagesIgnored(st: UiState, msg: Incoming)
    requires msg.Unparsable? || (msg.kind != Str("files") && msg.kind != Str("groups"))
    ensures OnMessage(st, msg) == st
  {
  }

  /** The save effect: the list is posted only when it is not empty. */
  function SavePayload(boxes: seq<Group>): (r: Option<seq<Group>>)
    ensures r.None? <==> boxes == []
  {
    if |boxes| > 0 then Some(boxes) else None
  }

  /** A non-empty list posted to a writable registry is stored exactly as the
      browser holds it. */
  lemma SaveStoresList(s: Snapshot, boxes: seq<Group>)
    requires Consistent(s) && s.present && s.writable && boxes != []
    ensures GroupsApi.PostSpec(s, SavePayload(boxes).value).after.registry == Stored(boxes)
  {
    GroupsApi.PostSavesVerbatim(s, boxes);
  }
}

=== FILE: cli_utils.dfy ===
/** The ignore matcher and the recursive directory scan (src/cli/utils.js).
    The glob matcher is left uninterpreted: it is a parameter that may also throw. */
module CliUtils {
  import opened Wrappers
  import opened Text
  import opened Settings
  import Seqs

  /** What one `minimatch(file, pattern, { dot: true })` call does. */
  datatype MatchOutcome = Matched | NotMatched | Threw

  type Glob = (string, string) -> MatchOutcome

  /** `patterns.some(...)`: a pattern that throws counts as not matching and the
      remaining patterns are still tried. */
  function ShouldIgnore(file: string, patterns: seq<string>, glob: Glob): (r: bool)
    ensures r <==> exists i :: 0 <= i < |patterns| && glob(file, patterns[i]) == Matched
  {
    if patterns == [] then false
    else glob(file, patterns[0]) == Matched || ShouldIgnore(file, patterns[1..], glob)
  }

  /** Ignoring by a concatenated list is ignoring by either part. */
  lemma ShouldIgnoreAppend(file: string, a: seq<string>, b: seq<string>, glob: Glob)
    ensures ShouldIgnore(file, a + b, glob) <==> ShouldIgnore(file, a, glob) || ShouldIgnore(file, b, glob)
  {
    var ab := a + b;
    if ShouldIgnore(file, a, glob) {
      var i :| 0 <= i < |a| && glob(file, a[i]) == Matched;
      assert ab[i] == a[i];
    }
    if ShouldIgnore(file, b, glob) {
      var i :| 0 <= i < |b| && glob(file, b[i]) == Matched;
      assert ab[|a| + i] == b[i];
    }
    if ShouldIgnore(file, ab, glob) {
      var i :| 0 <= i < |ab| && glob(file, ab[i]) == Matched;
      if i >= |a| { assert b[i - |a|] == ab[i]; } else { assert a[i] == ab[i]; }
    }
  }

  const DefaultIgnore: seq<string> := [
    "**/node_modules/**",
    "**/.git/**",
    "**/dist/**",
    "**/build/**",
    "**/coverage/**",
    "**/.env*",
    "**/*.log"
  ]

  /** `[...defaultIgnore, ...(config.ignore || [])]`, built the same way for the
      watcher and for the scanner. */
  function IgnorePatterns(config: Config): seq<string>
  {
    DefaultIgnore + (if config.ignore.Some? then config.ignore.value else [])
  }

  /** A path is ignored exactly when a built-in default or a configured pattern matches it. */
  lemma IgnorePatternsMeaning(file: string, config: Config, glob: Glob)
    ensures ShouldIgnore(file, IgnorePatterns(config), glob)
        <==> ShouldIgnore(file, DefaultIgnore, glob)
             || (config.ignore.Some? && ShouldIgnore(file, config.ignore.value, glob))
  {
    ShouldIgnoreAppend(file, DefaultIgnore, if config.ignore.Some? then config.ignore.value else [], glob);
  }

  /** The `ignored` callback handed to the watcher, applied to the path relative to the watched root. */
  function WatcherIgnores(relativePath: string, config: Config, glob: Glob): bool
  {
    ShouldIgnore(relativePath, IgnorePatterns(config), glob)
  }

  /** A directory entry as `fs.readdir(..., { withFileTypes: true })` reports it.
      A directory whose listing fails is `Unlistable`. */
  datatype Entry = File(name: string) | Dir(name: string, listing: Listing)
  datatype Listing = Listed(entries: seq<Entry>) | Unlistable

  /** Entry names as a directory listing gives them: non-empty, without `/`. */
  predicate NameOk(n: string)
  {
    n != "" && forall i :: 0 <= i < |n| ==> n[i] != '/'
  }

  predicate WellNamed(es: seq<Entry>)
    decreases es
  {
    if es == [] then true
    else
      var e := es[|es| - 1];
      WellNamed(es[..|es| - 1]) && NameOk(e.name)
      && (e.Dir? && e.listing.Listed? ==> WellNamed(e.listing.entries))
  }

  /** The raw relative paths the scan of the entries `es` of the directory at
      relative path `prefix` pushes, in depth-first pre-order; `None` when a listing
      it needs fails. */
  function ScanSpec(prefix: string, es: seq<Entry>, pats: seq<string>, glob: Glob): Option<seq<string>>
    decreases es
  {
    if es == [] then Some([])
    else
      match ScanSpec(prefix, es[..|es| - 1], pats, glob)
      case None => None
      case Some(front) =>
        var e := es[|es| - 1];
        var rel := prefix + e.name;
        if ShouldIgnore(rel, pats, glob) then Some(front)
        else match e
          case File(_) => Some(front + [rel])
          case Dir(_, Unlistable) => None
          case Dir(_, Listed(cs)) =>
            match ScanSpec(rel + "/", cs, pats, glob)
            case None => None
            case Some(sub) => Some(front + sub)
  }

  /** Every file path of the tree, pruning nothing. */
  function FilePaths(prefix: string, es: seq<Entry>): set<string>
    decreases es
  {
    if es == [] then {}
    else
      var e := es[|es| - 1];
      var rel := prefix + e.name;
      FilePaths(prefix, es[..|es| - 1])
      + match e
        case File(_) => {rel}
        case Dir(_, Unlistable) => {}
        case Dir(_, Listed(cs)) => FilePaths(rel + "/", cs)
  }

  /** `p` is not ignored, and no directory on its way down from position `from` is. */
  predicate Visible(p: string, from: nat, pats: seq<string>, glob: Glob)
  {
    !ShouldIgnore(p, pats, glob)
    && forall k :: from <= k < |p| && p[k] == '/' ==> !ShouldIgnore(p[..k], pats, glob)
  }

  lemma {:induction false} FilePathsUnder(prefix: string, es: seq<Entry>)
    ensures forall p :: p in FilePaths(prefix, es) ==> StartsWith(p, prefix)
    decreases es
  {
    if es != [] {
      var e := es[|es| - 1];
      var rel := prefix + e.name;
      FilePathsUnder(prefix, es[..|es| - 1]);
      if e.Dir? && e.listing.Listed? {
        FilePathsUnder(rel + "/", e.listing.entries);
        forall p | p in FilePaths(rel + "/", e.listing.entries) ensures StartsWith(p, prefix) {
          assert p[..|prefix|] == (rel + "/")[..|prefix|];
        }
      }
    }
  }

  lemma VisibleLeaf(prefix: string, n: string, pats: seq<string>, glob: Glob)
    requires NameOk(n)
    ensures Visible(prefix + n, |prefix|, pats, glob) <==> !ShouldIgnore(prefix + n, pats, glob)
  {
    var p := prefix + n;
    forall k | |prefix| <= k < |p| ensures p[k] != '/' {
      assert p[k] == n[k - |prefix|];
    }
  }

  lemma VisibleUnderDir(prefix: string, n: string, p: string, pats: seq<string>, glob: Glob)
    requires NameOk(n) && StartsWith(p, prefix + n + "/")
    ensures Visible(p, |prefix|, pats, glob)
        <==> !ShouldIgnore(prefix + n, pats, glob) && Visible(p, |prefix + n| + 1, pats, glob)
  {
    var rel := prefix + n;
    var at := |rel|;
    assert p[at] == '/' && p[..at] == rel by {
      assert p[..at + 1] == rel + "/";
    }
    forall k | |prefix| <= k < at ensures p[k] != '/' {
      assert p[k] == (rel + "/")[k] == n[k - |prefix|];
    }
  }

  /** The scan emits exactly the file paths that are not ignored and do not lie
      under an ignored directory: ignored directories are pruned whatever the other
      patterns say, directories themselves are never emitted. */
  lemma {:induction false} ScanExact(prefix: string, es: seq<Entry>, pats: seq<string>, glob: Glob)
    requires WellNamed(es)
    requires ScanSpec(prefix, es, pats, glob).Some?
    ensures forall p :: p in ScanSpec(prefix, es, pats, glob).value
                   <==> p in FilePaths(prefix, es) && Visible(p, |prefix|, pats, glob)
    decreases es
  {
    if es != [] {
      var init := es[..|es| - 1];
      var e := es[|es| - 1];
      var rel := prefix + e.name;
      ScanExact(prefix, init, pats, glob);
      match e
      case File(n) =>
        VisibleLeaf(prefix, n, pats, glob);
      case Dir(n, Unlistable) =>
      case Dir(n, Listed(cs)) =>
        FilePathsUnder(rel + "/", cs);
        forall p | p in FilePaths(rel + "/", cs)
          ensures Visible(p, |prefix|, pats, glob)
              <==> !ShouldIgnore(rel, pats, glob) && Visible(p, |rel| + 1, pats, glob)
        {
          VisibleUnderDir(prefix, n, p, pats, glob);
        }
        if !ShouldIgnore(rel, pats, glob) {
          ScanExact(rel + "/", cs, pats, glob);
        }
    }
  }

  /** A failing listing anywhere in the scanned part aborts the whole scan: once a
      prefix of the entries fails, so does every extension. */
  lemma {:induction false} ScanSpecPrefixFails(prefix: string, es: seq<Entry>, i: nat, pats: seq<string>, glob: Glob)
    requires i <= |es|
    requires ScanSpec(prefix, es[..i], pats, glob).None?
    ensures ScanSpec(prefix, es, pats, glob).None?
    decreases |es| - i
  {
    if i < |es| {
      assert es[..i + 1][..i] == es[..i];
      ScanSpecPrefixFails(prefix, es, i + 1, pats, glob);
    } else {
      assert es[..i] == es;
    }
  }

  /** An ignored directory is never descended into: its listing, readable or not,
      does not affect the scan. */
  lemma {:induction false} IgnoredListingIrrelevant(prefix: string, es: seq<Entry>, i: nat, listing: Listing,
                                                    pats: seq<string>, glob: Glob)
    requires i < |es| && es[i].Dir?
    requires ShouldIgnore(prefix + es[i].name, pats, glob)
    ensures ScanSpec(prefix, es[i := Dir(es[i].name, listing)], pats, glob) == ScanSpec(prefix, es, pats, glob)
    decreases es
  {
    var es' := es[i := Dir(es[i].name, listing)];
    if i < |es| - 1 {
      assert es'[..|es'| - 1] == es[..|es| - 1][i := Dir(es[i].name, listing)];
      IgnoredListingIrrelevant(prefix, es[..|es| - 1], i, listing, pats, glob);
    } else {
      assert es'[..|es'| - 1] == es[..|es| - 1];
    }
  }

  /** `relativePath.replace(/\\/g, '/')`. */
  function ToForwardSlashes(p: string): (r: string)
    ensures |r| == |p|
    ensures forall i :: 0 <= i < |r| ==> r[i] != '\\' && (p[i] != '\\' ==> r[i] == p[i])
  {
    seq(|p|, i requires 0 <= i < |p| => if p[i] == '\\' then '/' else p[i])
  }

  function Normalized(ps: seq<string>): (r: seq<string>)
    ensures |r| == |ps|
  {
    seq(|ps|, i requires 0 <= i < |ps| => ToForwardSlashes(ps[i]))
  }

  /** A path without backslashes is emitted exactly as computed. */
  lemma NormalizedKeepsPlainPaths(ps: seq<string>)
    requires forall i, j :: 0 <= i < |ps| && 0 <= j < |ps[i]| ==> ps[i][j] != '\\'
    ensures Normalized(ps) == ps
  {
    forall i | 0 <= i < |ps| ensures Normalized(ps)[i] == ps[i] {
      assert ToForwardSlashes(ps[i]) == ps[i];
    }
  }

  /** The recursive `scan`: pushes the normalised path of every non-ignored file onto
      `files` (here threaded through as a value) and descends into non-ignored
      directories; a failing listing rejects. */
  method Scan(files: seq<string>, prefix: string, es: seq<Entry>, pats: seq<string>, glob: Glob)
    returns (r: Option<seq<string>>)
    ensures ScanSpec(prefix, es, pats, glob).None? ==> r.None?
    ensures ScanSpec(prefix, es, pats, glob).Some? ==> r == Some(files + Normalized(ScanSpec(prefix, es, pats, glob).value))
    decreases es
  {
    var acc := files;
    for i := 0 to |es|
      invariant ScanSpec(prefix, es[..i], pats, glob).Some?
      invariant acc == files + Normalized(ScanSpec(prefix, es[..i], pats, glob).value)
    {
      var e := es[i];
      var rel := prefix + e.name;
      var done := ScanSpec(prefix, es[..i], pats, glob).value;
      if ShouldIgnore(rel, pats, glob) {
        StepIgnored(prefix, es, i, pats, glob);
        continue;
      }
      match e
      case File(_) =>
        StepFile(prefix, es, i, pats, glob);
        Seqs.AppendAssoc(files, Normalized(done), [ToForwardSlashes(rel)]);
        acc := acc + [ToForwardSlashes(rel)];
      case Dir(_, Unlistable) =>
        StepUnlistable(prefix, es, i, pats, glob);
        ScanSpecPrefixFails(prefix, es, i + 1, pats, glob);
        return None;
      case Dir(_, Listed(cs)) =>
        var sub := Scan(acc, rel + "/", cs, pats, glob);
        if sub.None? {
          StepDirFails(prefix, es, i, pats, glob);
          ScanSpecPrefixFails(prefix, es, i + 1, pats, glob);
          return None;
        }
        StepDir(prefix, es, i, pats, glob);
        Seqs.AppendAssoc(files, Normalized(done), Normalized(ScanSpec(rel + "/", cs, pats, glob).value));
        acc := sub.value;
    }
    assert es[..|es|] == es;
    r := Some(acc);
  }

  /** Normalising distributes over concatenation. */
  lemma NormalizedAppend(a: seq<string>, b: seq<string>)
    ensures Normalized(a + b) == Normalized(a) + Normalized(b)
  {
    assert forall k :: 0 <= k < |a + b| ==> Normalized(a + b)[k] == (Normalized(a) + Normalized(b))[k];
  }

  /** One step of the scan: an ignored entry adds nothing. */
  lemma StepIgnored(prefix: string, es: seq<Entry>, i: nat, pats: seq<string>, glob: Glob)
    requires i < |es| && ScanSpec(prefix, es[..i], pats, glob).Some?
    requires ShouldIgnore(prefix + es[i].name, pats, glob)
    ensures ScanSpec(prefix, es[..i + 1], pats, glob) == ScanSpec(prefix, es[..i], pats, glob)
  {
    assert es[..i + 1][..i] == es[..i];
  }

  /** One step of the scan: a file that is not ignored is pushed. */
  lemma StepFile(prefix: string, es: seq<Entry>, i: nat, pats: seq<string>, glob: Glob)
    requires i < |es| && ScanSpec(prefix, es[..i], pats, glob).Some?
    requires !ShouldIgnore(prefix + es[i].name, pats, glob) && es[i].File?
    ensures ScanSpec(prefix, es[..i + 1], pats, glob).Some?
    ensures Normalized(ScanSpec(prefix, es[..i + 1], pats, glob).value)
         == Normalized(ScanSpec(prefix, es[..i], pats, glob).value) + [ToForwardSlashes(prefix + es[i].name)]
  {
    assert es[..i + 1][..i] == es[..i];
    NormalizedAppend(ScanSpec(prefix, es[..i], pats, glob).value, [prefix + es[i].name]);
  }

  /** One step of the scan: an unreadable directory that is not ignored fails it. */
  lemma StepUnlistable(prefix: string, es: seq<Entry>, i: nat, pats: seq<string>, glob: Glob)
    requires i < |es| && ScanSpec(prefix, es[..i], pats, glob).Some?
    requires !ShouldIgnore(prefix + es[i].name, pats, glob) && es[i] == Dir(es[i].name, Unlistable)
    ensures ScanSpec(prefix, es[..i + 1], pats, glob).None?
  {
    assert es[..i + 1][..i] == es[..i];
  }

  /** One step of the scan: a failing sub-directory fails it. */
  lemma StepDirFails(prefix: string, es: seq<Entry>, i: nat, pats: seq<string>, glob: Glob)
    requires i < |es| && ScanSpec(prefix, es[..i], pats, glob).Some?
    requires !ShouldIgnore(prefix + es[i].name, pats, glob) && es[i].Dir? && es[i].listing.Listed?
    requires ScanSpec(prefix + es[i].name + "/", es[i].listing.entries, pats, glob).None?
    ensures ScanSpec(prefix, es[..i + 1], pats, glob).None?
  {
    assert es[..i + 1][..i] == es[..i];
  }

  /** One step of the scan: a readable directory that is not ignored adds its own scan. */
  lemma StepDir(prefix: string, es: seq<Entry>, i: nat, pats: seq<string>, glob: Glob)
    requires i < |es| && ScanSpec(prefix, es[..i], pats, glob).Some?
    requires !ShouldIgnore(prefix + es[i].name, pats, glob) && es[i].Dir? && es[i].listing.Listed?
    requires ScanSpec(prefix + es[i].name + "/", es[i].listing.entries, pats, glob).Some?
    ensures ScanSpec(prefix, es[..i + 1], pats, glob).Some?
    ensures Normalized(ScanSpec(prefix, es[..i + 1], pats, glob).value)
         == Normalized(ScanSpec(prefix, es[..i], pats, glob).value)
            + Normalized(ScanSpec(prefix + es[i].name + "/", es[i].listing.entries, pats, glob).value)
  {
    assert es[..i + 1][..i] == es[..i];
    NormalizedAppend(ScanSpec(prefix, es[..i], pats, glob).value,
      ScanSpec(prefix + es[i].name + "/", es[i].listing.entries, pats, glob).value);
  }

  /** `getAllFiles(dir)`: scans from the root with the default and configured
      patterns; `None` stands for the rejected promise. */
  method GetAllFiles(root: Listing, config: Config, glob: Glob) returns (r: Option<seq<string>>)
    ensures root.Unlistable? ==> r.None?
    ensures root.Listed? ==>
      match ScanSpec("", root.entries, IgnorePatterns(config), glob)
      case None => r.None?
      case Some(ps) => r == Some(Normalized(ps))
  {
    if root.Unlistable? {
      return None;
    }
    r := Scan([], "", root.entries, IgnorePatterns(config), glob);
    if r.Some? {
      assert [] + Normalized(ScanSpec("", root.entries, IgnorePatterns(config), glob).value)
          == Normalized(ScanSpec("", root.entries, IgnorePatterns(config), glob).value);
    }
  }
}

=== FILE: config_api.dfy ===
/** The sanitised configuration of src/server/api/config.js. The server started by
    src/server/index.js does not mount this route; it answers `/api/config` with the
    configuration object unchanged. */
module ConfigApi {
  import opened Wrappers
  import opened Settings
  import opened Http

  const DefaultDirectory := ".llmix"
  const DefaultPattern := "{name}-{timestamp}.txt"

  /** `value || fallback` for an optional string: an absent or empty value gives the fallback. */
  function OrDefault(value: Option<string>, fallback: string): (r: string)
    ensures value.Some? && value.value != "" ==> r == value.value
    ensures value.None? || value.value == "" ==> r == fallback
  {
    if value.Some? && value.value != "" then value.value else fallback
  }

  /** The `clientConfig` object: the ignore list and the two output settings, with defaults. */
  function ClientConfigOf(config: Config): ClientConfig
  {
    ClientConfig(
      if config.ignore.Some? then config.ignore.value else [],
      OrDefault(if config.output.Some? then config.output.value.directory else None, DefaultDirectory),
      OrDefault(if config.output.Some? then config.output.value.fileNamePattern else None, DefaultPattern))
  }

  /** `GET /api/config` as this module registers it. */
  function ConfigRoute(config: Config): Response
  {
    Response(200, ConfigBody(ClientConfigOf(config)))
  }

  /** The sanitised configuration read back as a configuration. */
  function AsConfig(c: ClientConfig): Config
  {
    Config(Some(c.ignore), Some(OutputConfig(Some(c.directory), Some(c.fileNamePattern))), None)
  }

  /** Missing or empty settings get their defaults, so both output settings are never empty. */
  lemma DefaultsApply(config: Config)
    ensures config.ignore.None? ==> ClientConfigOf(config).ignore == []
    ensures config.output.None? ==>
      ClientConfigOf(config).directory == ".llmix" && ClientConfigOf(config).fileNamePattern == "{name}-{timestamp}.txt"
    ensures config.output.Some? && config.output.value.directory in {None, Some("")} ==>
      ClientConfigOf(config).directory == ".llmix"
    ensures config.output.Some? && config.output.value.fileNamePattern in {None, Some("")} ==>
      ClientConfigOf(config).fileNamePattern == "{name}-{timestamp}.txt"
    ensures ClientConfigOf(config).directory != "" && ClientConfigOf(config).fileNamePattern != ""
  {
  }

  /** Given non-empty values pass through unchanged. */
  lemma GivenValuesPass(config: Config, ignore: seq<string>, directory: string, pattern: string)
    requires directory != "" && pattern != ""
    requires config == Config(Some(ignore), Some(OutputConfig(Some(directory), Some(pattern))), config.ui)
    ensures ClientConfigOf(config) == ClientConfig(ignore, directory, pattern)
  {
  }

  /** Nothing but the ignore list and the two output settings reaches the browser. */
  lemma OtherFieldsDropped(config: Config, ui: Option<string>)
    ensures ClientConfigOf(config.(ui := ui)) == ClientConfigOf(config)
  {
  }

  /** Sanitising is idempotent: a sanitised configuration is left as it is. */
  lemma SanitiseIdempotent(config: Config)
    ensures ClientConfigOf(AsConfig(ClientConfigOf(config))) == ClientConfigOf(config)
  {
    DefaultsApply(config);
  }
}

=== FILE: content_box.dfy ===
/** One group's panel in the browser, src/ui/components/ContentBox.jsx: its file list
    (drop, remove) and the "generate" button with its busy flag and error line. */
module ContentBox {
  import opened Wrappers
  import opened Seqs
  import opened Js
  import opened Groups
  import opened Disk
  import opened FileUtils
  import opened GroupStorage
  import opened Http
  import opened Server

  // ---- the file list ------------------------------------------------------

  /** `handleDrop`: a file not yet in the group is appended (the updated group is handed
      to `onUpdate`); a file already there changes nothing. */
  function HandleDrop(box: Group, file: string): (r: Option<Group>)
    ensures r.None? <==> file in box.files
    ensures r.Some? ==> r.value == box.(files := r.value.files)
  {
    if file in box.files then None else Some(box.(files := box.files + [file]))
  }

  /** A drop appends the file at the end and keeps a duplicate-free list duplicate-free. */
  lemma DropAppends(box: Group, file: string)
    requires file !in box.files
    ensures var g := HandleDrop(box, file).value;
      && |g.files| == |box.files| + 1 && g.files[..|box.files|] == box.files && g.files[|box.files|] == file
      && (NoDup(box.files) ==> NoDup(g.files))
  {
    var g := HandleDrop(box, file).value;
    assert g.files[..|box.files|] == box.files;
  }

  /** `removeFile`. */
  function RemoveFile(box: Group, file: string): Group
  {
    box.(files := Filter(box.files, (f: string) => f != file))
  }

  /** Every copy of the file goes, every other file stays in order, and nothing else
      about the group changes. */
  lemma RemoveFileDropsAll(box: Group, file: string)
    ensures var g := RemoveFile(box, file);
      && g == box.(files := g.files)
      && file !in g.files
      && (forall f :: f in g.files <==> f in box.files && f != file)
      && (NoDup(box.files) ==> NoDup(g.files))
      && (file !in box.files ==> g == box)
  {
    var keep := (f: string) => f != file;
    FilterMembers(box.files, keep);
    if file !in box.files {
      forall i | 0 <= i < |box.files| ensures keep(box.files[i]) {
        assert box.files[i] in box.files;
      }
      FilterKeepsAll(box.files, keep);
    }
    if NoDup(box.files) {
      FilterNoDup(box.files, keep);
    }
  }

  // ---- generating ---------------------------------------------------------

  /** The body `handleGenerate` posts to `/api/generate` as written: files, name and
      description, and no group id. A group without files posts nothing. */
  function RequestOf(box: Group): (r: Option<GenerateRequest>)
    ensures r.None? <==> box.files == []
    ensures r.Some? ==> r.value.groupId == Undefined && r.value.files == Arr(Strings(box.files))
  {
    if box.files == [] then None
    else Some(GenerateRequest(Arr(Strings(box.files)), Str(box.name), Str(box.description), Undefined))
  }

  /** The evidently intended body: the same, carrying the group's id. */
  function RequestWithId(box: Group): (r: Option<GenerateRequest>)
    ensures r.None? <==> box.files == []
    ensures r.Some? ==> r.value == RequestOf(box).value.(groupId := Str(box.id))
  {
    if box.files == [] then None
    else Some(GenerateRequest(Arr(Strings(box.files)), Str(box.name), Str(box.description), Str(box.id)))
  }

  /** The panel's own state: the busy flag and the error line. */
  datatype Panel = Panel(isGenerating: bool, error: Option<string>)

  /** What the fetch came back with: an HTTP status, or a rejection with its message. */
  datatype Answer = Answered(status: nat) | NetworkError(message: string)

  const GenerateFailed := "Failed to generate content"

  /** `response.ok`. */
  predicate Ok2xx(status: nat)
  {
    200 <= status < 300
  }

  /** The panel while the request is in flight. */
  function Started(p: Panel, box: Group): Panel
  {
    if box.files == [] then p else Panel(true, None)
  }

  /** The panel once the request has settled (the `finally` clears the busy flag). */
  function Settled(p: Panel, box: Group, answer: Answer): Panel
  {
    if box.files == [] then p
    else
      match answer
      case Answered(status) => Panel(false, if Ok2xx(status) then None else Some(GenerateFailed))
      case NetworkError(message) => Panel(false, Some(message))
  }

  /** A group without files leaves the panel alone. Otherwise the panel is busy with no
      error while the request runs, and afterwards is idle, with no error exactly when
      the server answered 2xx. */
  lemma GenerateFlow(p: Panel, box: Group, answer: Answer)
    ensures box.files == [] ==> Started(p, box) == p && Settled(p, box, answer) == p
    ensures box.files != [] ==> Started(p, box) == Panel(true, None)
    ensures box.files != [] ==> !Settled(p, box, answer).isGenerating
    ensures box.files != [] ==>
      (Settled(p, box, answer).error.None? <==> answer.Answered? && Ok2xx(answer.status))
    ensures box.files != [] && answer.Answered? && !Ok2xx(answer.status) ==>
      Settled(p, box, answer).error == Some(GenerateFailed)
  {
  }

  /** As written, every click on a group with files is refused with 400 (the name check
      first, then the missing group id), the folder is left as it was and the panel shows
      the error. */
  lemma ClickAlwaysRefused(s: Snapshot, watchDir: string, box: Group, clock: Clock,
                           probe: string -> FileOutcome, now: string, p: Panel)
    requires box.files != []
    ensures var h := GenerateRouteSpec(s, watchDir, RequestOf(box).value, clock, probe, now);
      && h.after == s
      && h.response == Error(400, if box.name == "" then NameRequired else GroupIdMissing)
      && Settled(p, box, Answered(h.response.status)) == Panel(false, Some(GenerateFailed))
  {
    ValidationOrder(s, watchDir, RequestOf(box).value, clock, probe, now);
  }

  /** With the id sent, a click on a named group whose id is registered, on a writable
      disk, writes the artifact into the group's directory, heads its history with the
      artifact's path, answers 200 and leaves the panel without an error. */
  lemma FixedRequestGenerates(s: Snapshot, watchDir: string, box: Group, clock: Clock,
                              probe: string -> FileOutcome, now: string, p: Panel)
    requires Consistent(s) && s.writable
    requires box.files != [] && box.name != "" && box.id != ""
    requires box.id in Ids(GroupsOf(s))
    ensures var h := GenerateRouteSpec(s, watchDir, RequestWithId(box).value, clock, probe, now);
      && box.id in h.after.dirs && FileName(box.id, clock) in h.after.dirs[box.id]
      && h.response.status == 200
      && h.response.body.GeneratedBody?
      && h.response.body.result.path == box.id + "/" + FileName(box.id, clock)
      && Settled(p, box, Answered(h.response.status)) == Panel(false, None)
  {
    var req := RequestWithId(box).value;
    assert Validate(req).None?;
    GenerateWritesThenRecords(s, watchDir, req, clock, probe, now);
  }
}

=== FILE: disk.dfy ===
/** The `.llmix` storage folder under the watched directory: one sub-directory per
    group id (holding file names) and the registry document `groups.json`. */
module Disk {
  import opened Wrappers
  import opened Groups

  /** `groups.json`: absent, present but unreadable or not JSON, or a stored list. */
  datatype RegistryFile = Missing | Corrupt | Stored(groups: seq<Group>)

  /** A value snapshot of the folder. `writable` is the environment: whether the
      operating system accepts writes there; no operation changes it. */
  datatype Snapshot = Snapshot(
    writable: bool,
    present: bool,
    dirs: map<string, set<string>>,
    registry: RegistryFile)

  /** Nothing can be inside a folder that does not exist. */
  predicate Consistent(s: Snapshot)
  {
    !s.present ==> s.dirs == map[] && s.registry == Missing
  }

  const AccessDenied := "EACCES: permission denied"
  const NoSuchFile := "ENOENT: no such file or directory"

  /** `fs.mkdir(<.llmix>/id, { recursive: true })`: succeeds without change when the
      directory exists, otherwise needs a writable disk and creates the folder too. */
  function MakeDir(s: Snapshot, id: string): (r: Result<Snapshot>)
    ensures r.Ok? <==> id in s.dirs || s.writable
    ensures r.Ok? ==> id in r.value.dirs && r.value.registry == s.registry && r.value.writable == s.writable
    ensures r.Ok? ==> r.value.dirs == if id in s.dirs then s.dirs else s.dirs[id := {}]
    ensures r.Ok? && Consistent(s) ==> Consistent(r.value) && r.value.present
  {
    if id in s.dirs then Ok(s)
    else if !s.writable then Err(AccessDenied)
    else Ok(s.(present := true, dirs := s.dirs[id := {}]))
  }

  /** The folder as the class the storage layer and the generator update in place. */
  class Volume {
    const writable: bool
    var present: bool
    var dirs: map<string, set<string>>
    var registry: RegistryFile

    function View(): Snapshot
      reads this
    {
      Snapshot(writable, present, dirs, registry)
    }

    ghost predicate Valid()
      reads this
    {
      Consistent(View())
    }

    constructor (s: Snapshot)
      requires Consistent(s)
      ensures View() == s && Valid()
    {
      writable := s.writable;
      present := s.present;
      dirs := s.dirs;
      registry := s.registry;
    }
  }
}

=== FILE: file_tree.dfy ===
/** The file list panel of src/ui/components/FileTree.jsx. */
module FileTree {
  import opened Wrappers
  import opened Text
  import opened Js

  /** An entry worth listing: a string that is not a dot-file. */
  predicate Listed(v: JsValue)
  {
    v.Str? && !StartsWith(v.s, ".")
  }

  /** `files.filter(f => typeof f === 'string' && !f.startsWith('.'))`, keeping the strings. */
  function VisibleFiles(items: seq<JsValue>): (r: seq<string>)
    ensures |r| <= |items|
    ensures forall f :: f in r <==> Str(f) in items && !StartsWith(f, ".")
  {
    if items == [] then []
    else
      var rest := VisibleFiles(items[1..]);
      assert forall v :: v in items <==> v == items[0] || v in items[1..];
      if Listed(items[0]) then [items[0].s] + rest else rest
  }

  /** The filter keeps the original order: filtering a concatenation is concatenating
      the filtered parts. */
  lemma {:induction false} VisibleFilesAppend(a: seq<JsValue>, b: seq<JsValue>)
    ensures VisibleFiles(a + b) == VisibleFiles(a) + VisibleFiles(b)
  {
    if a == [] {
      assert a + b == b;
    } else {
      assert (a + b)[0] == a[0] && (a + b)[1..] == a[1..] + b;
      VisibleFilesAppend(a[1..], b);
    }
  }

  /** A list of strings none of which is a dot-file passes unchanged. */
  lemma {:induction false} VisibleFilesKeepsPlain(files: seq<string>)
    requires forall i :: 0 <= i < |files| ==> !StartsWith(files[i], ".")
    ensures VisibleFiles(Strings(files)) == files
  {
    if files != [] {
      var items := Strings(files);
      VisibleFilesKeepsPlain(files[1..]);
      assert items[1..] == Strings(files[1..]);
      assert files == [files[0]] + files[1..];
    }
  }

  /** What the panel shows: the count label, the entries, or the placeholder. */
  datatype TreeView = TreeView(countLabel: string, entries: seq<string>, placeholder: bool)

  const NoFiles := "No files available"

  /** The panel for the `files` prop, which defaults to `[]` when it is missing;
      nothing at all when it is some other non-array. */
  function Render(files: JsValue): (r: Option<TreeView>)
    ensures r.None? <==> !files.Arr? && !files.Undefined?
    ensures r.Some? && files.Arr? ==> r.value.entries == VisibleFiles(files.items)
    ensures files.Undefined? ==> r == Some(TreeView("", [], true))
    ensures r.Some? ==> (r.value.placeholder <==> r.value.entries == [])
    ensures r.Some? ==> (r.value.countLabel == "" <==> r.value.entries == [])
    ensures r.Some? && r.value.entries != [] ==>
      r.value.countLabel == "(" + NatToString(|r.value.entries|) + ")"
  {
    var v := if files.Undefined? then Arr([]) else files;
    if !v.Arr? then None
    else
      var shown := VisibleFiles(v.items);
      Some(TreeView(if |shown| > 0 then "(" + NatToString(|shown|) + ")" else "", shown, |shown| == 0))
  }
}

=== FILE: file_utils.dfy ===
/** The artifact writer and the directory helpers of src/server/fileUtils.js. */
module FileUtils {
  import opened Wrappers
  import opened Seqs
  import opened Text
  import opened Js
  import opened Groups
  import opened Disk
  import GroupStorage

  const GroupIdRequired := "Group ID is required for file generation"
  const GenerateFailed := "Failed to generate content file: "
  /** What `path.join` throws for a file entry that is not a string. */
  const PathTypeError := "The \"path\" argument must be of type string"
  /** The line of forty dashes closing every file section. */
  const Separator := "\n----------------------------------------\n\n"

  /** The three readings of the clock: for the file name, the header and the result. */
  datatype Clock = Clock(atName: string, atHeader: string, atResult: string)

  /** What `fs.stat` and `fs.readFile` report for one file of the watched directory. */
  datatype FileOutcome =
    | Read(size: nat, mtime: string, content: string)
    | NotFile
    | Failed(message: string)

  // ---- the timestamp token ------------------------------------------------

  predicate KeptInToken(c: char) { c != '-' && c != ':' }

  /** The run of digits at the end of `t`. */
  function TrailingDigits(t: string): (k: nat)
    ensures k <= |t|
    ensures forall i :: |t| - k <= i < |t| ==> IsDigit(t[i])
    ensures k < |t| ==> !IsDigit(t[|t| - 1 - k])
  {
    if t == [] || !IsDigit(t[|t| - 1]) then 0 else TrailingDigits(t[..|t| - 1]) + 1
  }

  /** `.replace(/\.\d+Z$/, '')`: drop a final `Z` with the dot and digits before it. */
  function StripMillis(s: string): string
  {
    if |s| == 0 || s[|s| - 1] != 'Z' then s
    else
      var k := TrailingDigits(s[..|s| - 1]);
      if 1 <= k && k < |s| - 1 && s[|s| - 2 - k] == '.' then s[..|s| - 2 - k] else s
  }

  /** The file-name token derived from an ISO-8601 time stamp. */
  function Token(iso: string): string
  {
    StripMillis(ReplaceFirst(Filter(iso, KeptInToken), "T", ""))
  }

  /** The shape of `Date.prototype.toISOString()`: `YYYY-MM-DDTHH:MM:SS.sssZ`. */
  predicate IsIso(s: string)
  {
    && |s| == 24
    && (forall i :: 0 <= i < 24 && i !in {4, 7, 10, 13, 16, 19, 23} ==> IsDigit(s[i]))
    && s[4] == '-' && s[7] == '-' && s[10] == 'T' && s[13] == ':' && s[16] == ':'
    && s[19] == '.' && s[23] == 'Z'
  }

  /** Removing the dashes and colons of an ISO time stamp leaves its other five runs. */
  lemma FilterIso(s: string)
    requires IsIso(s)
    ensures Filter(s, KeptInToken) == s[..4] + s[5..7] + s[8..13] + s[14..16] + s[17..]
  {
    var a, b, c, d, e := s[..4], s[5..7], s[8..13], s[14..16], s[17..];
    assert s == a + [s[4]] + (b + [s[7]] + (c + [s[13]] + (d + [s[16]] + e)));
    FilterDrop(a, s[4], b + [s[7]] + (c + [s[13]] + (d + [s[16]] + e)), KeptInToken);
    FilterDrop(b, s[7], c + [s[13]] + (d + [s[16]] + e), KeptInToken);
    FilterDrop(c, s[13], d + [s[16]] + e, KeptInToken);
    FilterDrop(d, s[16], e, KeptInToken);
    FilterKeepsAll(e, KeptInToken);
  }

  /** The first `T` after a run of digits is the one removed. */
  lemma ReplaceAfterDigits(g: string, h: string)
    requires forall i :: 0 <= i < |g| ==> IsDigit(g[i])
    ensures ReplaceFirst(g + "T" + h, "T", "") == g + h
  {
    var f := g + "T" + h;
    assert OccursAt(f, "T", |g|);
    assert forall j :: 0 <= j < |g| ==> !OccursAt(f, "T", j) by {
      forall j | 0 <= j < |g| ensures !OccursAt(f, "T", j) {
        assert f[j..j + 1][0] == g[j];
      }
    }
    assert IndexOf(f, "T") == Some(|g|);
    assert f[|g| + 1..] == h;
  }

  /** A final `.<digits>Z` is stripped. */
  lemma StripFraction(p: string, m: string)
    requires m != [] && forall i :: 0 <= i < |m| ==> IsDigit(m[i])
    ensures StripMillis(p + "." + m + "Z") == p
  {
    var s := p + "." + m + "Z";
    var t := s[..|s| - 1];
    assert t == p + "." + m;
    assert forall j :: |p| + 1 <= j < |t| ==> t[j] == m[j - |p| - 1];
    assert t[|p|] == '.' && !IsDigit('.');
    var k := TrailingDigits(t);
    assert k == |m|;
  }

  /** An ISO time stamp without its dashes and colons: the date digits, the `T`, then
      the time digits with the fraction. */
  lemma FilteredIso(s: string)
    requires IsIso(s)
    ensures Filter(s, KeptInToken) ==
      (s[..4] + s[5..7] + s[8..10]) + "T" + (s[11..13] + s[14..16] + (s[17..19] + "." + s[20..23] + "Z"))
  {
    FilterIso(s);
    assert s[8..13] == s[8..10] + "T" + s[11..13];
    assert s[17..] == s[17..19] + "." + s[20..23] + "Z";
  }

  /** An ISO time stamp yields exactly its fourteen date and time digits, `YYYYMMDDHHMMSS`. */
  lemma TokenOfIso(s: string)
    requires IsIso(s)
    ensures Token(s) == s[0..4] + s[5..7] + s[8..10] + s[11..13] + s[14..16] + s[17..19]
  {
    FilteredIso(s);
    var g := s[..4] + s[5..7] + s[8..10];
    var h := s[11..13] + s[14..16] + (s[17..19] + "." + s[20..23] + "Z");
    assert forall i :: 0 <= i < |g| ==> IsDigit(g[i]) by {
      assert forall i :: 0 <= i < |g| ==> g[i] == s[if i < 4 then i else if i < 6 then i + 1 else i + 2];
    }
    ReplaceAfterDigits(g, h);
    var a, b, c, m := s[11..13], s[14..16], s[17..19], s[20..23];
    var q := g + a + b;
    AppendAssoc(g, a + b, (c + "." + m) + "Z");
    AppendAssoc(g, a, b);
    AppendAssoc(q, c + "." + m, "Z");
    AppendAssoc(q, c + ".", m);
    AppendAssoc(q, c, ".");
    var p := q + c;
    assert g + h == p + "." + m + "Z";
    assert forall i :: 0 <= i < |m| ==> IsDigit(m[i]) by {
      assert forall i :: 0 <= i < |m| ==> m[i] == s[20 + i];
    }
    StripFraction(p, m);
    assert s[0..4] == s[..4];
  }

  /** The token of an ISO time stamp is fourteen digits. */
  lemma TokenDigits(s: string)
    requires IsIso(s)
    ensures |Token(s)| == 14 && forall i :: 0 <= i < 14 ==> IsDigit(Token(s)[i])
  {
    TokenOfIso(s);
    IsoFieldDigits(s);
  }

  /** The six numeric fields of an ISO time stamp, concatenated, are fourteen digits. */
  lemma IsoFieldDigits(s: string)
    requires IsIso(s)
    ensures var p := s[0..4] + s[5..7] + s[8..10] + s[11..13] + s[14..16] + s[17..19];
      |p| == 14 && AllDigits(p)
  {
    assert AllDigits(s[0..4]) && AllDigits(s[5..7]) && AllDigits(s[8..10]);
    assert AllDigits(s[11..13]) && AllDigits(s[14..16]) && AllDigits(s[17..19]);
    DigitsAppend(s[0..4], s[5..7]);
    DigitsAppend(s[0..4] + s[5..7], s[8..10]);
    DigitsAppend(s[0..4] + s[5..7] + s[8..10], s[11..13]);
    DigitsAppend(s[0..4] + s[5..7] + s[8..10] + s[11..13], s[14..16]);
    DigitsAppend(s[0..4] + s[5..7] + s[8..10] + s[11..13] + s[14..16], s[17..19]);
  }

  predicate AllDigits(t: string)
  {
    forall i :: 0 <= i < |t| ==> IsDigit(t[i])
  }

  lemma DigitsAppend(a: string, b: string)
    requires AllDigits(a) && AllDigits(b)
    ensures AllDigits(a + b)
  {
  }

  /** What follows the group id in an artifact's name: `-{timestamp}.txt`. */
  function NameSuffix(clock: Clock): string
  {
    "-" + Token(clock.atName) + ".txt"
  }

  /** `{groupId}-{timestamp}.txt`. */
  function FileName(groupId: string, clock: Clock): string
  {
    groupId + NameSuffix(clock)
  }

  // ---- the artifact text --------------------------------------------------

  /** The third header line: empty when the description is falsy. */
  function DescriptionLine(description: JsValue): (r: string)
    ensures r == "" <==> !Truthy(description)
    ensures Truthy(description) ==> StartsWith(r, "# Description: ")
  {
    if Truthy(description) then "# Description: " + Display(description) else ""
  }

  /** The header block: eight lines joined by newlines, the last one closing the block
      and followed by a blank line. */
  function Header(name: string, description: JsValue, generatedAt: string, groupId: string,
                  fileCount: nat, directory: string): string
  {
    JoinLines(["###", "# Content Group: " + name, DescriptionLine(description),
      "# Generated: " + generatedAt, "# Group ID: " + groupId, "# Files: " + NatToString(fileCount),
      "# Directory: " + directory, "###\n\n"])
  }

  /** The stat/read outcome that applies to one entry of `files`: an entry that is not a
      string makes `path.join` throw inside the per-file `try`. */
  function Probe(file: JsValue, probe: string -> FileOutcome): FileOutcome
  {
    if file.Str? then probe(file.s) else Failed(PathTypeError)
  }

  /** One file's contribution: its section, an error section, or nothing for a non-file. */
  function Section(file: JsValue, outcome: FileOutcome): string
  {
    match outcome
    case NotFile => ""
    case Read(size, mtime, content) =>
      JoinLines(["### File: " + Display(file) + " ###\n", "# Size: " + NatToString(size) + " bytes",
        "# Modified: " + mtime, content, Separator])
    case Failed(message) =>
      JoinLines(["### File: " + Display(file) + " ###\n", "# Error: Failed to read file - " + message, Separator])
  }

  /** A readable file's section: a heading, a blank line, the size and modification
      time, then the content verbatim and the closing rule. */
  lemma SectionLayout(file: JsValue, size: nat, mtime: string, content: string)
    ensures Section(file, Read(size, mtime, content)) ==
      "### File: " + Display(file) + " ###\n" + "\n" + "# Size: " + NatToString(size) + " bytes" + "\n"
      + "# Modified: " + mtime + "\n" + content + "\n" + Separator
  {
    var heading := "### File: " + Display(file) + " ###\n";
    JoinFive(heading, "# Size: " + NatToString(size) + " bytes", "# Modified: " + mtime, content, Separator);
    var x := heading + "\n";
    AppendAssoc(x, "# Size: " + NatToString(size), " bytes");
    AppendAssoc(x, "# Size: ", NatToString(size));
    var y := x + "# Size: " + NatToString(size) + " bytes" + "\n";
    AppendAssoc(y, "# Modified: ", mtime);
  }

  /** The content of a readable file occurs in its section unchanged. */
  lemma SectionHoldsContent(file: JsValue, size: nat, mtime: string, content: string)
    ensures exists k :: OccursAt(Section(file, Read(size, mtime, content)), content, k)
  {
    SectionLayout(file, size, mtime, content);
    var before := "### File: " + Display(file) + " ###\n" + "\n" + "# Size: " + NatToString(size) + " bytes" + "\n"
      + "# Modified: " + mtime + "\n";
    var whole := before + content + ("\n" + Separator);
    AppendAssoc(before + content, "\n", Separator);
    assert Section(file, Read(size, mtime, content)) == whole;
    assert whole[|before|..|before| + |content|] == content;
    assert OccursAt(whole, content, |before|);
  }

  /** An unreadable file is reported in place, with the error's message. */
  lemma FailedSectionLayout(file: JsValue, message: string)
    ensures Section(file, Failed(message)) ==
      "### File: " + Display(file) + " ###\n" + "\n" + "# Error: Failed to read file - " + message + "\n" + Separator
  {
    var heading := "### File: " + Display(file) + " ###\n";
    JoinThree(heading, "# Error: Failed to read file - " + message, Separator);
    AppendAssoc(heading + "\n", "# Error: Failed to read file - ", message);
  }

  /** The sections of all files, in the order of `files`. */
  function Body(files: seq<JsValue>, probe: string -> FileOutcome): string
  {
    FlatMap(files, file => Section(file, Probe(file, probe)))
  }

  /** The body of a concatenation is the concatenation of the bodies. */
  lemma BodyAppend(a: seq<JsValue>, b: seq<JsValue>, probe: string -> FileOutcome)
    ensures Body(a + b, probe) == Body(a, probe) + Body(b, probe)
  {
    FlatMapAppend(a, b, file => Section(file, Probe(file, probe)));
  }

  /** The body of one more file is the body so far followed by that file's section. */
  lemma BodyStep(files: seq<JsValue>, i: nat, probe: string -> FileOutcome)
    requires i < |files|
    ensures Body(files[..i + 1], probe) == Body(files[..i], probe) + Section(files[i], Probe(files[i], probe))
  {
    assert files[..i + 1][..i] == files[..i];
  }

  /** Each file's section sits after those of the files before it and before those after it. */
  lemma SectionsInOrder(files: seq<JsValue>, probe: string -> FileOutcome, i: nat)
    requires i < |files|
    ensures Body(files, probe) ==
      Body(files[..i], probe) + Section(files[i], Probe(files[i], probe)) + Body(files[i + 1..], probe)
  {
    FlatMapAt(files, file => Section(file, Probe(file, probe)), i);
  }

  /** Entries that are not regular files leave no trace in the body. */
  lemma {:induction false} SkippedFilesVanish(files: seq<JsValue>, probe: string -> FileOutcome)
    requires forall i :: 0 <= i < |files| ==> Probe(files[i], probe) == NotFile
    ensures Body(files, probe) == ""
  {
    if files != [] {
      SkippedFilesVanish(files[..|files| - 1], probe);
    }
  }

  /** The directory the artifacts of a group go to. */
  function GroupDirOf(watchDir: string, groupId: string): string
  {
    PathJoin(PathJoin(watchDir, ".llmix"), groupId)
  }

  /** The full text written to the artifact. */
  function Content(watchDir: string, files: seq<JsValue>, name: string, description: JsValue,
                   groupId: string, clock: Clock, probe: string -> FileOutcome): string
  {
    Header(name, description, clock.atHeader, groupId, |files|, GroupDirOf(watchDir, groupId))
      + Body(files, probe)
  }

  /** The per-file loop of `generateContentFile`: appends each file's section in order,
      skipping entries that are not regular files. */
  method AppendSections(header: string, files: seq<JsValue>, probe: string -> FileOutcome)
    returns (content: string)
    ensures content == header + Body(files, probe)
  {
    content := header;
    for i := 0 to |files|
      invariant content == header + Body(files[..i], probe)
    {
      var outcome := Probe(files[i], probe);
      if outcome.NotFile? {
        SkipStep(header, files, i, probe);
        continue;
      }
      AppendStep(header, files, i, probe);
      content := content + Section(files[i], outcome);
    }
    assert files[..|files|] == files;
  }

  /** A skipped entry leaves the content as it was. */
  lemma SkipStep(header: string, files: seq<JsValue>, i: nat, probe: string -> FileOutcome)
    requires i < |files| && Probe(files[i], probe).NotFile?
    ensures header + Body(files[..i + 1], probe) == header + Body(files[..i], probe)
  {
    BodyStep(files, i, probe);
    assert Section(files[i], Probe(files[i], probe)) == "";
  }

  /** Appending an entry's section extends the content by one file. */
  lemma AppendStep(header: string, files: seq<JsValue>, i: nat, probe: string -> FileOutcome)
    requires i < |files|
    ensures header + Body(files[..i + 1], probe)
         == (header + Body(files[..i], probe)) + Section(files[i], Probe(files[i], probe))
  {
    BodyStep(files, i, probe);
  }

  /** What a successful generation leaves behind: the volume, the reported result and
      the text written. */
  datatype Generated = Generated(after: Snapshot, result: GenerationResult, written: string)

  /** `generateContentFile` on a snapshot of the volume. */
  function GenerateSpec(s: Snapshot, watchDir: string, files: seq<JsValue>, name: string,
                        description: JsValue, groupId: string, clock: Clock,
                        probe: string -> FileOutcome): Result<Generated>
  {
    if groupId == "" then Err(GroupIdRequired)
    else if !s.writable then Err(GenerateFailed + AccessDenied)
    else
      var fileName := FileName(groupId, clock);
      var written := Content(watchDir, files, name, description, groupId, clock, probe);
      Ok(Generated(
        s.(present := true, dirs := s.dirs[groupId := (if groupId in s.dirs then s.dirs[groupId] else {}) + {fileName}]),
        GenerationResult(true, PathJoin(groupId, fileName), PathJoin(GroupDirOf(watchDir, groupId), fileName),
          |files|, groupId, clock.atResult, fileName, GroupDirOf(watchDir, groupId), |written|),
        written))
  }

  /** A generation fails exactly without a group id or on a read-only disk; otherwise it
      adds one artifact, named after the group and the time, to the group's directory
      (creating it) and touches nothing else; the reported path is relative to the
      `.llmix` folder and the reported size is the length of the text written. */
  lemma GenerateOutcome(s: Snapshot, watchDir: string, files: seq<JsValue>, name: string,
                        description: JsValue, groupId: string, clock: Clock, probe: string -> FileOutcome)
    requires Consistent(s)
    ensures var r := GenerateSpec(s, watchDir, files, name, description, groupId, clock, probe);
      && (r.Ok? <==> groupId != "" && s.writable)
      && (groupId == "" ==> r == Err(GroupIdRequired))
      && (r.Ok? ==>
        var g := r.value;
        && Consistent(g.after) && g.after.present && g.after.registry == s.registry
        && g.after.dirs.Keys == s.dirs.Keys + {groupId}
        && g.after.dirs[groupId] - {g.result.fileName} == (if groupId in s.dirs then s.dirs[groupId] else {}) - {g.result.fileName}
        && g.result.fileName in g.after.dirs[groupId]
        && (forall id :: id in s.dirs && id != groupId ==> g.after.dirs[id] == s.dirs[id])
        && g.result.success && g.result.groupId == groupId && g.result.fileCount == |files|
        && g.result.path == groupId + "/" + g.result.fileName
        && StartsWith(g.result.fileName, groupId + "-")
        && g.result.size == |g.written|
        && g.written == Header(name, description, clock.atHeader, groupId, |files|, g.result.directory)
             + Body(files, probe))
  {
  }

  /** With a well-formed clock, the artifact is named `{groupId}-YYYYMMDDHHMMSS.txt`. */
  lemma ArtifactName(groupId: string, clock: Clock)
    requires IsIso(clock.atName)
    ensures var n := FileName(groupId, clock);
      && |n| == |groupId| + 19
      && n[..|groupId|] == groupId && n[|groupId|] == '-' && n[|groupId| + 15..] == ".txt"
      && forall i :: |groupId| < i <= |groupId| + 14 ==> IsDigit(n[i])
  {
    TokenDigits(clock.atName);
    var t := Token(clock.atName);
    var n := FileName(groupId, clock);
    assert n == groupId + "-" + t + ".txt";
    forall i | |groupId| < i <= |groupId| + 14 ensures IsDigit(n[i]) {
      assert n[i] == t[i - |groupId| - 1];
    }
  }

  /** `generateContentFile`. Nothing is written without a group id or when the disk
      refuses the write; otherwise the artifact lands in the group's directory. */
  method GenerateContentFile(vol: Volume, watchDir: string, files: seq<JsValue>, name: string,
                             description: JsValue, groupId: string, clock: Clock,
                             probe: string -> FileOutcome) returns (r: Result<GenerationResult>, written: string)
    requires vol.Valid()
    modifies vol
    ensures vol.Valid()
    ensures var spec := GenerateSpec(old(vol.View()), watchDir, files, name, description, groupId, clock, probe);
      && (spec.Err? ==> r == Err(spec.error) && vol.View() == old(vol.View()))
      && (spec.Ok? ==> r == Ok(spec.value.result) && vol.View() == spec.value.after && written == spec.value.written)
  {
    written := "";
    if groupId == "" {
      return Err(GroupIdRequired), written;
    }
    ghost var s0 := vol.View();
    ghost var before := if groupId in vol.dirs then vol.dirs[groupId] else {};
    var groupDir := GroupDirOf(watchDir, groupId);
    if groupId !in vol.dirs {
      if !vol.writable {
        return Err(GenerateFailed + AccessDenied), written;
      }
      vol.present := true;
      vol.dirs := vol.dirs[groupId := {}];
    }
    var fileName := FileName(groupId, clock);
    var content := AppendSections(Header(name, description, clock.atHeader, groupId, |files|, groupDir), files, probe);
    if !vol.writable {
      return Err(GenerateFailed + AccessDenied), written;
    }
    vol.dirs := vol.dirs[groupId := vol.dirs[groupId] + {fileName}];
    written := content;
    r := Ok(GenerationResult(true, PathJoin(groupId, fileName), PathJoin(groupDir, fileName),
      |files|, groupId, clock.atResult, fileName, groupDir, |content|));
    GenerateSpecOk(s0, watchDir, files, name, description, groupId, clock, probe);
    assert vol.View() == s0.(present := true, dirs := s0.dirs[groupId := before + {fileName}]);
  }

  /** The success case of `GenerateSpec`, spelled out. */
  lemma GenerateSpecOk(s: Snapshot, watchDir: string, files: seq<JsValue>, name: string,
                       description: JsValue, groupId: string, clock: Clock, probe: string -> FileOutcome)
    requires groupId != "" && s.writable
    ensures var fileName := FileName(groupId, clock);
      var groupDir := GroupDirOf(watchDir, groupId);
      var written := Header(name, description, clock.atHeader, groupId, |files|, groupDir) + Body(files, probe);
      GenerateSpec(s, watchDir, files, name, description, groupId, clock, probe)
      == Ok(Generated(
        s.(present := true, dirs := s.dirs[groupId := (if groupId in s.dirs then s.dirs[groupId] else {}) + {fileName}]),
        GenerationResult(true, PathJoin(groupId, fileName), PathJoin(groupDir, fileName),
          |files|, groupId, clock.atResult, fileName, groupDir, |written|),
        written))
  {
  }

  // ---- directory helpers ----------------------------------------------------

  /** The places `fileExists` is asked about. */
  datatype Place = Folder | GroupDir(id: string) | GroupFile(id: string, name: string)

  /** `fileExists`: `fs.access` never throws out of it; it answers whether the place is there. */
  function FileExists(s: Snapshot, p: Place): (r: bool)
    ensures Consistent(s) && r ==> s.present
    ensures p.GroupFile? && r ==> p.id in s.dirs
  {
    match p
    case Folder => s.present
    case GroupDir(id) => id in s.dirs
    case GroupFile(id, name) => id in s.dirs && name in s.dirs[id]
  }

  /** `cleanupEmptyDirectories` of fileUtils: like the store's, but a directory named
      `default` is kept even when empty. */
  function CleanupSpec(s: Snapshot): (r: Snapshot)
    ensures r.registry == s.registry && r.present == s.present
    ensures !s.present || !s.writable ==> r == s
    ensures s.present && s.writable ==>
      forall k :: k in r.dirs <==> k in s.dirs && (s.dirs[k] != {} || k == "default")
    ensures forall k :: k in r.dirs ==> k in s.dirs && r.dirs[k] == s.dirs[k]
  {
    if !s.present || !s.writable then s
    else s.(dirs := map k | k in s.dirs && (s.dirs[k] != {} || k == "default") :: s.dirs[k])
  }

  /** The two clean-ups differ only on an empty `default` directory. */
  lemma CleanupsAgreeExceptDefault(s: Snapshot)
    requires "default" !in s.dirs || s.dirs["default"] != {}
    ensures CleanupSpec(s) == GroupStorage.CleanupSpec(s)
  {
    assert CleanupSpec(s).dirs == GroupStorage.CleanupSpec(s).dirs;
  }

  method CleanupEmptyDirectories(vol: Volume)
    requires vol.Valid()
    modifies vol
    ensures vol.Valid() && vol.View() == CleanupSpec(old(vol.View()))
  {
    if !FileExists(vol.View(), Folder) {
      return;
    }
    ghost var d0 := vol.dirs;
    var pending := vol.dirs.Keys;
    while pending != {}
      invariant vol.present && vol.registry == old(vol.registry)
      invariant pending <= d0.Keys
      invariant !vol.writable ==> vol.dirs == d0
      invariant vol.writable ==>
        vol.dirs == map k | k in d0 && (k in pending || d0[k] != {} || k == "default") :: d0[k]
      decreases pending
    {
      var d :| d in pending;
      if d != "default" && vol.dirs[d] == {} {
        if !vol.writable {
          return;
        }
        vol.dirs := vol.dirs - {d};
      }
      pending := pending - {d};
    }
  }

  /** `deleteGroupDirectory` of fileUtils: errors propagate, and an empty id names the
      whole `.llmix` folder, which is then removed with the registry. */
  function RemoveGroupSpec(s: Snapshot, id: string): (r: Result<Snapshot>)
    requires Consistent(s)
    ensures r.Ok? ==> Consistent(r.value)
    ensures r.Err? <==> !s.writable && (if id == "" then s.present else id in s.dirs)
    ensures r.Ok? && id != "" ==> r.value.dirs == s.dirs - {id} && r.value.registry == s.registry
    ensures r.Ok? && id == "" ==> !r.value.present && r.value.registry == Missing
  {
    if id == "" then
      if !s.present then Ok(s)
      else if !s.writable then Err(AccessDenied)
      else Ok(Snapshot(s.writable, false, map[], Missing))
    else if id !in s.dirs then Ok(s)
    else if !s.writable then Err(AccessDenied)
    else Ok(s.(dirs := s.dirs - {id}))
  }

  /** Where it succeeds on a real id, this deletion is the store's deletion. */
  lemma DeletionsAgree(s: Snapshot, id: string)
    requires Consistent(s) && id != "" && RemoveGroupSpec(s, id).Ok?
    ensures RemoveGroupSpec(s, id).value == GroupStorage.DeleteSpec(s, id)
  {
  }

  method DeleteGroupDirectory(vol: Volume, groupId: string) returns (r: Outcome)
    requires vol.Valid()
    modifies vol
    ensures vol.Valid()
    ensures RemoveGroupSpec(old(vol.View()), groupId).Ok? ==>
      r.Pass? && vol.View() == RemoveGroupSpec(old(vol.View()), groupId).value
    ensures RemoveGroupSpec(old(vol.View()), groupId).Err? ==>
      r == Fail(AccessDenied) && vol.View() == old(vol.View())
  {
    var place := if groupId == "" then Folder else GroupDir(groupId);
    if !FileExists(vol.View(), place) {
      return Pass;
    }
    if !vol.writable {
      return Fail(AccessDenied);
    }
    if groupId == "" {
      vol.present, vol.dirs, vol.registry := false, map[], Missing;
    } else {
      vol.dirs := vol.dirs - {groupId};
    }
    r := Pass;
  }

  /** The new names of the moved files: the first occurrence of the old id is replaced. */
  function Renamed(names: set<string>, oldId: string, newId: string): set<string>
  {
    set f | f in names :: ReplaceFirst(f, oldId, newId)
  }

  /** `moveGroupFiles`: like the store's rename, but every file name has its first
      occurrence of the old id replaced by the new one; errors propagate. */
  function MoveSpec(s: Snapshot, oldId: string, newId: string): (r: Result<Snapshot>)
    requires Consistent(s)
    ensures r.Ok? ==> Consistent(r.value) && r.value.registry == s.registry
    ensures r.Err? <==> !s.writable && (newId !in s.dirs || oldId in s.dirs)
    ensures r.Ok? && oldId in s.dirs && oldId != newId ==>
      && oldId !in r.value.dirs && newId in r.value.dirs
      && r.value.dirs[newId] == (if newId in s.dirs then s.dirs[newId] else {}) + Renamed(s.dirs[oldId], oldId, newId)
    ensures r.Ok? ==> r.value.present && forall k :: k != oldId && k != newId ==>
      (k in r.value.dirs <==> k in s.dirs) && (k in s.dirs ==> r.value.dirs[k] == s.dirs[k])
    ensures r.Ok? && oldId !in s.dirs && oldId != newId ==>
      r.value.dirs == s.dirs[newId := if newId in s.dirs then s.dirs[newId] else {}]
    ensures r.Ok? && oldId == newId ==> r.value.dirs == s.dirs - {oldId}
  {
    match MakeDir(s, newId)
    case Err(e) => Err(e)
    case Ok(s1) =>
      if oldId !in s1.dirs then Ok(s1)
      else if !s1.writable then Err(AccessDenied)
      else Ok(s1.(dirs := s1.dirs[newId := s1.dirs[newId] + Renamed(s1.dirs[oldId], oldId, newId)] - {oldId}))
  }

  /** A name that starts with the old id gets the new id in its place. */
  lemma ReplaceLeadingId(oldId: string, rest: string, newId: string)
    ensures ReplaceFirst(oldId + rest, oldId, newId) == newId + rest
  {
    var s := oldId + rest;
    assert OccursAt(s, oldId, 0);
    assert IndexOf(s, oldId) == Some(0);
    assert s[|oldId|..] == rest;
  }

  /** A file whose name starts with the old id is moved under the name that starts
      with the new id instead. */
  lemma MoveRenamesPrefixed(s: Snapshot, oldId: string, newId: string, rest: string)
    requires Consistent(s) && oldId in s.dirs && oldId != newId
    requires oldId + rest in s.dirs[oldId]
    requires MoveSpec(s, oldId, newId).Ok?
    ensures newId + rest in MoveSpec(s, oldId, newId).value.dirs[newId]
  {
    ReplaceLeadingId(oldId, rest, newId);
    assert newId + rest in Renamed(s.dirs[oldId], oldId, newId);
  }

  /** A generated artifact of the old group reappears under the new group's name. */
  lemma MoveRenamesArtifacts(s: Snapshot, oldId: string, newId: string, clock: Clock)
    requires Consistent(s) && oldId in s.dirs && oldId != newId
    requires FileName(oldId, clock) in s.dirs[oldId]
    requires MoveSpec(s, oldId, newId).Ok?
    ensures FileName(newId, clock) in MoveSpec(s, oldId, newId).value.dirs[newId]
  {
    MoveRenamesPrefixed(s, oldId, newId, NameSuffix(clock));
  }

  /** The group directories part-way through a move: the files still `pending` wait in
      the old directory, the others are in the new one under their new names. */
  ghost function Midway(d: map<string, set<string>>, oldId: string, newId: string, pending: set<string>)
    : map<string, set<string>>
    requires oldId in d && newId in d
  {
    d[newId := d[newId] + Renamed(d[oldId] - pending, oldId, newId)][oldId := pending]
  }

  lemma MidwayStart(d: map<string, set<string>>, oldId: string, newId: string)
    requires oldId in d && newId in d && oldId != newId
    ensures Midway(d, oldId, newId, d[oldId]) == d
  {
    var m := Midway(d, oldId, newId, d[oldId]);
    assert Renamed(d[oldId] - d[oldId], oldId, newId) == {};
    assert m[newId] == d[newId] + {} == d[newId];
    assert m.Keys == d.Keys;
    assert forall k :: k in d ==> m[k] == d[k];
  }

  lemma RenamedAdd(names: set<string>, file: string, oldId: string, newId: string)
    ensures Renamed(names + {file}, oldId, newId) == Renamed(names, oldId, newId) + {ReplaceFirst(file, oldId, newId)}
  {
  }

  lemma MidwayStep(d: map<string, set<string>>, oldId: string, newId: string, pending: set<string>, file: string)
    requires oldId in d && newId in d && oldId != newId && pending <= d[oldId] && file in pending
    ensures Midway(d, oldId, newId, pending - {file}) ==
      var m := Midway(d, oldId, newId, pending);
      m[newId := m[newId] + {ReplaceFirst(file, oldId, newId)}][oldId := m[oldId] - {file}]
  {
    assert d[oldId] - (pending - {file}) == (d[oldId] - pending) + {file};
    RenamedAdd(d[oldId] - pending, file, oldId, newId);
    var m := Midway(d, oldId, newId, pending);
    var m' := m[newId := m[newId] + {ReplaceFirst(file, oldId, newId)}][oldId := m[oldId] - {file}];
    var after := Midway(d, oldId, newId, pending - {file});
    assert after.Keys == m'.Keys;
    assert after[newId] == m'[newId];
    assert forall k :: k in after ==> after[k] == m'[k];
  }

  lemma MidwayEnd(d: map<string, set<string>>, oldId: string, newId: string)
    requires oldId in d && newId in d
    ensures oldId != newId ==>
      Midway(d, oldId, newId, {}) - {oldId} == d[newId := d[newId] + Renamed(d[oldId], oldId, newId)] - {oldId}
    ensures oldId == newId ==>
      d - {oldId} == d[newId := d[newId] + Renamed(d[oldId], oldId, newId)] - {oldId}
  {
    assert d[oldId] - {} == d[oldId];
    var moved := d[newId := d[newId] + Renamed(d[oldId], oldId, newId)] - {oldId};
    if oldId != newId {
      assert (Midway(d, oldId, newId, {}) - {oldId}).Keys == moved.Keys;
    } else {
      assert moved.Keys == (d - {oldId}).Keys;
    }
  }

  method MoveGroupFiles(vol: Volume, oldId: string, newId: string) returns (r: Outcome)
    requires vol.Valid() && oldId != "" && newId != ""
    modifies vol
    ensures vol.Valid()
    ensures MoveSpec(old(vol.View()), oldId, newId).Ok? ==>
      r.Pass? && vol.View() == MoveSpec(old(vol.View()), oldId, newId).value
    ensures MoveSpec(old(vol.View()), oldId, newId).Err? ==>
      r == Fail(AccessDenied) && vol.View() == old(vol.View())
  {
    if newId !in vol.dirs {
      if !vol.writable {
        return Fail(AccessDenied);
      }
      vol.present := true;
      vol.dirs := vol.dirs[newId := {}];
    }
    if !FileExists(vol.View(), GroupDir(oldId)) {
      return Pass;
    }
    if !vol.writable {
      return Fail(AccessDenied);
    }
    ghost var d1 := vol.dirs;
    var pending := vol.dirs[oldId];
    if oldId != newId {
      MidwayStart(d1, oldId, newId);
    }
    while pending != {}
      invariant vol.present && vol.registry == old(vol.registry) && vol.writable
      invariant newId in d1 && oldId in d1 && pending <= d1[oldId]
      invariant oldId == newId ==> vol.dirs == d1
      invariant oldId != newId ==> vol.dirs == Midway(d1, oldId, newId, pending)
      decreases pending
    {
      var file :| file in pending;
      var newFileName := ReplaceFirst(file, oldId, newId);
      if oldId != newId {
        MidwayStep(d1, oldId, newId, pending, file);
        vol.dirs := vol.dirs[newId := vol.dirs[newId] + {newFileName}][oldId := vol.dirs[oldId] - {file}];
      }
      pending := pending - {file};
    }
    MidwayEnd(d1, oldId, newId);
    vol.dirs := vol.dirs - {oldId};
    r := Pass;
  }
}

=== FILE: generate_api.dfy ===
/** The stand-alone generation route of src/server/api/generate.js. It validates like
    the server's own route but never passes a group id on. */
module GenerateApi {
  import opened Wrappers
  import opened Js
  import opened Disk
  import opened Http
  import opened FileUtils
  import opened GroupsApi
  import opened Server

  /** The route on a snapshot: the two checks, then `generateContentFile` without a
      group id (the empty id stands for the missing one). */
  function GenerateApiSpec(s: Snapshot, watchDir: string, req: GenerateRequest, clock: Clock,
                           probe: string -> FileOutcome): Handled
  {
    if !FilesOk(req) then Handled(Error(400, FilesRequired), s)
    else if !NameOk(req) then Handled(Error(400, NameRequired), s)
    else match GenerateSpec(s, watchDir, req.files.items, req.name.s, req.description, "", clock, probe)
      case Err(e) => Handled(Failure(e), s)
      case Ok(g) => Handled(Response(200, GeneratedBody(g.result)), g.after)
  }

  /** No request succeeds: the two checks answer 400 in their order, and every request
      that passes them fails with 500 because the generator demands a group id. The
      folder is never touched, so no history is recorded either. */
  lemma GenerateApiNeverSucceeds(s: Snapshot, watchDir: string, req: GenerateRequest, clock: Clock,
                                 probe: string -> FileOutcome)
    ensures var h := GenerateApiSpec(s, watchDir, req, clock, probe);
      && h.after == s
      && (h.response == Error(400, FilesRequired) <==> !FilesOk(req))
      && (h.response == Error(400, NameRequired) <==> FilesOk(req) && !NameOk(req))
      && (FilesOk(req) && NameOk(req) ==> h.response == Failure(GroupIdRequired))
      && h.response.status != 200
  {
  }

  /** The group id in the body plays no part. */
  lemma GroupIdIgnored(s: Snapshot, watchDir: string, req: GenerateRequest, clock: Clock,
                       probe: string -> FileOutcome, groupId: JsValue)
    ensures GenerateApiSpec(s, watchDir, req.(groupId := groupId), clock, probe)
         == GenerateApiSpec(s, watchDir, req, clock, probe)
  {
  }

  method HandleGenerateApi(vol: Volume, watchDir: string, req: GenerateRequest, clock: Clock,
                           probe: string -> FileOutcome) returns (response: Response)
    requires vol.Valid()
    modifies vol
    ensures vol.Valid()
    ensures Handled(response, vol.View()) == GenerateApiSpec(old(vol.View()), watchDir, req, clock, probe)
  {
    if !FilesOk(req) {
      return Error(400, FilesRequired);
    }
    if !NameOk(req) {
      return Error(400, NameRequired);
    }
    var result, _ := GenerateContentFile(vol, watchDir, req.files.items, req.name.s, req.description, "", clock, probe);
    match result
    case Err(e) =>
      response := Failure(e);
    case Ok(_) =>
      // `res.json(result)` is never reached: the generator always throws without an id.
      assert false;
  }
}

=== FILE: groups.dfy ===
/** The group data model shared by the server and the browser client. */
module Groups {
  import opened Wrappers
  import opened Js

  /** One generation recorded in a group's history (newest first). */
  datatype HistoryEntry = HistoryEntry(fileName: string, timestamp: string)

  /** A content group. `history` is `None` for a stored record that lacks the field. */
  datatype Group = Group(
    id: string,
    name: string,
    files: seq<string>,
    description: string,
    color: string,
    history: Option<seq<HistoryEntry>>)

  /** The descriptor returned for a written artifact. */
  datatype GenerationResult = GenerationResult(
    success: bool,
    path: string,
    fullPath: string,
    fileCount: nat,
    groupId: string,
    timestamp: string,
    fileName: string,
    directory: string,
    size: nat)

  /** The ids in use by a list of groups. */
  function Ids(gs: seq<Group>): set<string>
  {
    set i | 0 <= i < |gs| :: gs[i].id
  }

  /** `gs.findIndex(g => g.id === key)`: strict equality, so a key that is not a
      string never matches. `None` stands for -1. */
  function FindIndex(gs: seq<Group>, key: JsValue): (r: Option<nat>)
    ensures r.Some? ==> r.value < |gs| && key == Str(gs[r.value].id)
    ensures r.Some? ==> forall j :: 0 <= j < r.value ==> key != Str(gs[j].id)
    ensures r.None? <==> forall j :: 0 <= j < |gs| ==> key != Str(gs[j].id)
  {
    if gs == [] then None
    else if key == Str(gs[0].id) then Some(0)
    else match FindIndex(gs[1..], key)
      case None => None
      case Some(i) => Some(i + 1)
  }

  /** A string key is found exactly when some group carries it as id. */
  lemma FindIndexIds(gs: seq<Group>, id: string)
    ensures FindIndex(gs, Str(id)).Some? <==> id in Ids(gs)
  {
    if id in Ids(gs) {
      var i :| 0 <= i < |gs| && gs[i].id == id;
      assert Str(id) == Str(gs[i].id);
    }
  }

  /** A number (what `parseInt` returns) is never found among string ids. */
  lemma NumberKeyNeverFound(gs: seq<Group>, key: JsValue)
    requires key.Num? || key.NaN?
    ensures FindIndex(gs, key).None?
  {
  }

  /** There are no more distinct ids than groups. */
  lemma {:induction false} IdsCard(gs: seq<Group>)
    ensures |Ids(gs)| <= |gs|
  {
    if gs != [] {
      var rest := gs[1..];
      IdsCard(rest);
      assert Ids(gs) == {gs[0].id} + Ids(rest) by {
        forall x | x in Ids(gs) ensures x in {gs[0].id} + Ids(rest) {
          var i :| 0 <= i < |gs| && gs[i].id == x;
          if i > 0 { assert rest[i - 1].id == x; }
        }
        forall x | x in Ids(rest) ensures x in Ids(gs) {
          var i :| 0 <= i < |rest| && rest[i].id == x;
          assert gs[i + 1].id == x;
        }
      }
    }
  }
}

=== FILE: groups_api.dfy ===
/** The group routes of src/server/api/groups.js: read-modify-write on the registry with
    directory side effects. Express dispatches to the first registration of a route, so
    the PUT and POST handlers registered first are the ones modelled. */
module GroupsApi {
  import opened Wrappers
  import opened Seqs
  import opened Js
  import opened Groups
  import opened Disk
  import opened Http
  import opened GroupStorage

  /** A route's answer together with the folder it leaves behind. */
  datatype Handled = Handled(response: Response, after: Snapshot)

  const GroupNotFound := "Group not found"

  // ---- PUT /api/groups/:id ------------------------------------------------

  function PutSpec(s: Snapshot, oldId: string, updated: Group): Handled
    requires Consistent(s)
  {
    var groups := GroupsOf(s);
    match FindIndex(groups, Str(oldId))
    case None => Handled(Error(404, GroupNotFound), s)
    case Some(i) =>
      var s1 := if oldId != updated.id then RenameSpec(s, oldId, updated.id) else s;
      match SaveSpec(s1, groups[i := updated])
      case Err(e) => Handled(Error(500, e), s1)
      case Ok(s2) => Handled(Response(200, GroupBody(updated)), s2)
  }

  /** An id that names no group answers 404 and touches nothing. */
  lemma PutUnknownId(s: Snapshot, oldId: string, updated: Group)
    requires Consistent(s) && oldId !in Ids(GroupsOf(s))
    ensures PutSpec(s, oldId, updated) == Handled(Error(404, GroupNotFound), s)
  {
    FindIndexIds(GroupsOf(s), oldId);
  }

  /** A known id succeeds exactly when the disk takes the write; the entry at the found
      index becomes the body, the length and every other entry stay, and the body is echoed. */
  lemma PutReplacesAtIndex(s: Snapshot, oldId: string, updated: Group)
    requires Consistent(s) && oldId in Ids(GroupsOf(s))
    ensures PutSpec(s, oldId, updated).response.status == 200 <==> s.writable
    ensures s.writable ==>
      var i := FindIndex(GroupsOf(s), Str(oldId)).value;
      var h := PutSpec(s, oldId, updated);
      && h.response == Response(200, GroupBody(updated))
      && h.after.registry.Stored?
      && |h.after.registry.groups| == |GroupsOf(s)|
      && h.after.registry.groups[i] == updated
      && GroupsOf(s)[i].id == oldId
      && forall j :: 0 <= j < |GroupsOf(s)| && j != i ==> h.after.registry.groups[j] == GroupsOf(s)[j]
  {
    FindIndexIds(GroupsOf(s), oldId);
  }

  /** The directories change only through the rename, and only when the id changes. */
  lemma PutRenamesOnlyOnIdChange(s: Snapshot, oldId: string, updated: Group)
    requires Consistent(s)
    ensures updated.id == oldId ==> PutSpec(s, oldId, updated).after.dirs == s.dirs
    ensures updated.id != oldId && oldId in Ids(GroupsOf(s)) ==>
      PutSpec(s, oldId, updated).after.dirs == RenameSpec(s, oldId, updated.id).dirs
  {
    FindIndexIds(GroupsOf(s), oldId);
  }

  method PutGroup(store: Storage, oldId: string, updated: Group) returns (resp: Response)
    requires store.vol.Valid()
    modifies store.vol
    ensures store.vol.Valid()
    ensures Handled(resp, store.vol.View()) == PutSpec(old(store.vol.View()), oldId, updated)
  {
    var groups := store.GetGroups();
    var index := FindIndex(groups, Str(oldId));
    if index.None? {
      return Error(404, GroupNotFound);
    }
    if oldId != updated.id {
      store.RenameGroupDirectory(oldId, updated.id);
    }
    groups := groups[index.value := updated];
    var saved := store.SaveGroups(groups);
    if saved.Fail? {
      return Error(500, saved.error);
    }
    resp := Response(200, GroupBody(updated));
  }

  // ---- POST /api/groups -----------------------------------------------------

  /** The state after creating the directories of `groups` in order, and the first failure. */
  datatype Progress = Progress(outcome: Outcome, state: Snapshot)

  function CreateAll(s: Snapshot, groups: seq<Group>): Progress
    requires Consistent(s)
    ensures Consistent(CreateAll(s, groups).state)
    ensures CreateAll(s, groups).state.writable == s.writable
    ensures s.present ==> CreateAll(s, groups).state.present
  {
    if groups == [] then Progress(Pass, s)
    else
      var before := CreateAll(s, groups[..|groups| - 1]);
      if before.outcome.Fail? then before
      else match CreateDirSpec(before.state, groups[|groups| - 1].id)
        case Err(e) => Progress(Fail(e), before.state)
        case Ok(s1) => Progress(Pass, s1)
  }

  /** After a successful pass every group with an id has its directory, and the other
      directories and the registry are as before. */
  lemma {:induction false} CreateAllMakesDirs(s: Snapshot, groups: seq<Group>)
    requires Consistent(s) && CreateAll(s, groups).outcome.Pass?
    ensures forall i :: 0 <= i < |groups| && groups[i].id != "" ==> groups[i].id in CreateAll(s, groups).state.dirs
    ensures forall k :: k in s.dirs ==> k in CreateAll(s, groups).state.dirs && CreateAll(s, groups).state.dirs[k] == s.dirs[k]
    ensures CreateAll(s, groups).state.registry == s.registry
  {
    if groups != [] {
      var init := groups[..|groups| - 1];
      CreateAllMakesDirs(s, init);
      assert forall i :: 0 <= i < |init| ==> init[i] == groups[i];
    }
  }

  /** Creation fails only on a disk that refuses writes, and then nothing has changed. */
  lemma {:induction false} CreateAllFailsUnchanged(s: Snapshot, groups: seq<Group>)
    requires Consistent(s) && !s.writable
    ensures CreateAll(s, groups).state == s
  {
    if groups != [] {
      CreateAllFailsUnchanged(s, groups[..|groups| - 1]);
    }
  }

  /** Once a creation has failed, the later groups are not attempted. */
  lemma {:induction false} CreateAllStopsAtFailure(s: Snapshot, groups: seq<Group>, k: nat)
    requires Consistent(s) && k <= |groups| && CreateAll(s, groups[..k]).outcome.Fail?
    ensures CreateAll(s, groups) == CreateAll(s, groups[..k])
  {
    if k < |groups| {
      var init := groups[..|groups| - 1];
      assert init[..k] == groups[..k];
      CreateAllStopsAtFailure(s, init, k);
    } else {
      assert groups[..k] == groups;
    }
  }

  lemma {:induction false} CreateAllFailsOnlyReadOnly(s: Snapshot, groups: seq<Group>)
    requires Consistent(s) && s.writable
    ensures CreateAll(s, groups).outcome.Pass?
  {
    if groups != [] {
      CreateAllFailsOnlyReadOnly(s, groups[..|groups| - 1]);
    }
  }

  function PostSpec(s: Snapshot, groups: seq<Group>): Handled
    requires Consistent(s)
  {
    var created := CreateAll(s, groups);
    if created.outcome.Fail? then Handled(Error(500, created.outcome.error), created.state)
    else match SaveSpec(created.state, groups)
      case Err(e) => Handled(Error(500, e), created.state)
      case Ok(s1) => Handled(Response(200, SuccessBody), s1)
  }

  /** On a writable disk the body is saved verbatim, with a directory for every group;
      otherwise the answer is 500 and nothing changes. */
  lemma PostSavesVerbatim(s: Snapshot, groups: seq<Group>)
    requires Consistent(s) && s.present
    ensures PostSpec(s, groups).response.status == 200 <==> s.writable
    ensures s.writable ==>
      && PostSpec(s, groups).after.registry == Stored(groups)
      && forall i :: 0 <= i < |groups| && groups[i].id != "" ==> groups[i].id in PostSpec(s, groups).after.dirs
    ensures !s.writable ==> PostSpec(s, groups).after == s
  {
    if s.writable {
      CreateAllFailsOnlyReadOnly(s, groups);
      CreateAllMakesDirs(s, groups);
    } else {
      CreateAllFailsUnchanged(s, groups);
    }
  }

  method PostGroups(store: Storage, groups: seq<Group>) returns (resp: Response)
    requires store.vol.Valid()
    modifies store.vol
    ensures store.vol.Valid()
    ensures Handled(resp, store.vol.View()) == PostSpec(old(store.vol.View()), groups)
  {
    ghost var s0 := store.vol.View();
    for i := 0 to |groups|
      invariant store.vol.Valid()
      invariant CreateAll(s0, groups[..i]) == Progress(Pass, store.vol.View())
    {
      assert groups[..i + 1][..i] == groups[..i];
      var created := store.CreateGroupDirectory(groups[i].id);
      if created.Err? {
        assert CreateAll(s0, groups[..i + 1]) == Progress(Fail(created.error), store.vol.View());
        CreateAllStopsAtFailure(s0, groups, i + 1);
        return Error(500, created.error);
      }
    }
    assert groups[..|groups|] == groups;
    var saved := store.SaveGroups(groups);
    if saved.Fail? {
      return Error(500, saved.error);
    }
    resp := Response(200, SuccessBody);
  }

  // ---- DELETE /api/groups/:id -------------------------------------------------

  predicate Keeps(groupId: string, g: Group) { g.id != groupId }

  function DeleteRouteSpec(s: Snapshot, groupId: string): Handled
    requires Consistent(s)
  {
    var groups := GroupsOf(s);
    var filtered := Filter(groups, g => Keeps(groupId, g));
    if |filtered| == |groups| then Handled(Error(404, GroupNotFound), s)
    else
      var s1 := DeleteSpec(s, groupId);
      match SaveSpec(s1, filtered)
      case Err(e) => Handled(Error(500, e), s1)
      case Ok(s2) => Handled(Response(200, SuccessBody), s2)
  }

  /** The route answers 404, touching nothing, exactly when no group has the id. */
  lemma DeleteNotFound(s: Snapshot, groupId: string)
    requires Consistent(s)
    ensures DeleteRouteSpec(s, groupId).response.status == 404 <==> groupId !in Ids(GroupsOf(s))
    ensures groupId !in Ids(GroupsOf(s)) ==> DeleteRouteSpec(s, groupId).after == s
  {
    var groups := GroupsOf(s);
    FilterKeepsLength(groups, g => Keeps(groupId, g));
    if groupId in Ids(groups) {
      var i :| 0 <= i < |groups| && groups[i].id == groupId;
      assert !Keeps(groupId, groups[i]);
    }
  }

  /** Otherwise, on a writable disk, every group with the id goes, the rest keep their
      order, and the id's directory is removed. */
  lemma DeleteRemovesAll(s: Snapshot, groupId: string)
    requires Consistent(s) && groupId in Ids(GroupsOf(s)) && s.writable
    ensures DeleteRouteSpec(s, groupId).response == Response(200, SuccessBody)
    ensures DeleteRouteSpec(s, groupId).after.registry == Stored(Filter(GroupsOf(s), g => Keeps(groupId, g)))
    ensures forall g :: g in DeleteRouteSpec(s, groupId).after.registry.groups <==> g in GroupsOf(s) && g.id != groupId
    ensures groupId != "" ==> DeleteRouteSpec(s, groupId).after.dirs == s.dirs - {groupId}
  {
    DeleteNotFound(s, groupId);
    FilterMembers(GroupsOf(s), g => Keeps(groupId, g));
  }

  method DeleteGroup(store: Storage, groupId: string) returns (resp: Response)
    requires store.vol.Valid()
    modifies store.vol
    ensures store.vol.Valid()
    ensures Handled(resp, store.vol.View()) == DeleteRouteSpec(old(store.vol.View()), groupId)
  {
    var groups := store.GetGroups();
    var filteredGroups := Filter(groups, g => Keeps(groupId, g));
    if |filteredGroups| == |groups| {
      return Error(404, GroupNotFound);
    }
    store.DeleteGroupDirectory(groupId);
    var saved := store.SaveGroups(filteredGroups);
    if saved.Fail? {
      return Error(500, saved.error);
    }
    resp := Response(200, SuccessBody);
  }

  // ---- POST /api/groups/:groupId/history ---------------------------------------

  /** The history route as written: the path id goes through `parseInt` first. */
  function HistorySpec(s: Snapshot, groupId: string, fileName: string, now: string): Handled
  {
    match AddHistorySpec(s, ParseInt(groupId), fileName, now)
    case Err(e) => Handled(Error(500, e), s)
    case Ok(s1) => Handled(Response(200, SuccessBody), s1)
  }

  /** Whatever the path and the registry, the route answers 500 "Group not found" and
      records nothing: a number is never strictly equal to a string id. */
  lemma HistoryRouteAlwaysFails(s: Snapshot, groupId: string, fileName: string, now: string)
    ensures HistorySpec(s, groupId, fileName, now) ==
      Handled(Error(500, "Group not found: " + Display(ParseInt(groupId))), s)
  {
    NumberKeyNeverFound(GroupsOf(s), ParseInt(groupId));
  }

  method PostHistory(store: Storage, groupId: string, fileName: string, now: string) returns (resp: Response)
    requires store.vol.Valid()
    modifies store.vol
    ensures store.vol.Valid()
    ensures Handled(resp, store.vol.View()) == HistorySpec(old(store.vol.View()), groupId, fileName, now)
  {
    var added := store.AddGenerationToHistory(ParseInt(groupId), fileName, now);
    if added.Fail? {
      return Error(500, added.error);
    }
    resp := Response(200, SuccessBody);
  }

  /** The route as evidently intended: the path id is looked up as the string it is. */
  function HistoryFixedSpec(s: Snapshot, groupId: string, fileName: string, now: string): Handled
  {
    match AddHistorySpec(s, Str(groupId), fileName, now)
    case Err(e) => Handled(Error(500, e), s)
    case Ok(s1) => Handled(Response(200, SuccessBody), s1)
  }

  /** With the string lookup a known group gets the entry in front of its history. */
  lemma HistoryFixedRecords(s: Snapshot, groupId: string, fileName: string, now: string)
    requires Consistent(s) && groupId in Ids(GroupsOf(s)) && s.writable
    ensures HistoryFixedSpec(s, groupId, fileName, now).response == Response(200, SuccessBody)
    ensures
      var i := FindIndex(GroupsOf(s), Str(groupId)).value;
      var after := HistoryFixedSpec(s, groupId, fileName, now).after;
      && after.registry.Stored?
      && after.registry.groups[i].id == groupId
      && after.registry.groups[i].history == Some([HistoryEntry(fileName, now)] + HistoryOrEmpty(GroupsOf(s)[i]))
  {
    FindIndexIds(GroupsOf(s), groupId);
    HistoryPrepended(s, Str(groupId), fileName, now);
  }

  method PostHistoryFixed(store: Storage, groupId: string, fileName: string, now: string) returns (resp: Response)
    requires store.vol.Valid()
    modifies store.vol
    ensures store.vol.Valid()
    ensures Handled(resp, store.vol.View()) == HistoryFixedSpec(old(store.vol.View()), groupId, fileName, now)
  {
    var added := store.AddGenerationToHistory(Str(groupId), fileName, now);
    if added.Fail? {
      return Error(500, added.error);
    }
    resp := Response(200, SuccessBody);
  }
}

=== FILE: http.dfy ===
/** The JSON responses the server's routes answer with. */
module Http {
  import opened Wrappers
  import opened Groups
  import opened Settings

  datatype Body =
    | ErrorBody(error: string, details: Option<string>)
    | GroupBody(group: Group)
    | SuccessBody
    | GeneratedBody(result: GenerationResult)
    | ConfigBody(config: ClientConfig)
    | FilesBody(files: seq<string>)

  datatype Response = Response(status: nat, body: Body)

  function Error(status: nat, error: string): Response
  {
    Response(status, ErrorBody(error, None))
  }
}

=== FILE: ignore_config.dfy ===
/** The ignore-pattern panel of src/ui/components/IgnoreConfig.jsx. */
module IgnoreConfig {
  import opened Wrappers
  import opened Seqs
  import opened Settings

  /** The patterns the panel always lists. They are display strings and differ from the
      patterns the scanner applies. */
  const DisplayDefaults: seq<string> := [
    "node_modules",
    ".git",
    "dist",
    "build",
    "/(^|[\\/\\])\\../"
  ]

  /** `config?.ignore || []`: a missing configuration or list counts as none. */
  function Configured(config: Option<Config>): seq<string>
  {
    if config.Some? && config.value.ignore.Some? then config.value.ignore.value else []
  }

  /** `[...new Set([...defaultPatterns, ...configuredPatterns])]`. */
  function AllPatterns(config: Option<Config>): seq<string>
  {
    Dedup(DisplayDefaults + Configured(config))
  }

  /** One listed pattern and whether it carries the "custom" tag. */
  datatype Row = Row(pattern: string, custom: bool)

  function Rows(config: Option<Config>): (r: seq<Row>)
    ensures |r| == |AllPatterns(config)|
  {
    var all := AllPatterns(config);
    seq(|all|, i requires 0 <= i < |all| => Row(all[i], all[i] in Configured(config)))
  }

  /** Every default and every configured pattern is listed, each exactly once, and
      nothing else is. */
  lemma ListsEachOnce(config: Option<Config>)
    ensures NoDup(AllPatterns(config))
    ensures forall p :: p in AllPatterns(config) <==> p in DisplayDefaults || p in Configured(config)
  {
    DedupNoDup(DisplayDefaults + Configured(config));
  }

  lemma DisplayDefaultsDistinct()
    ensures NoDup(DisplayDefaults)
  {
    var d := DisplayDefaults;
    assert d[0] != d[1] && d[0] != d[2] && d[0] != d[3] && d[0] != d[4];
    assert d[1] != d[2] && d[1] != d[3] && d[1] != d[4];
    assert d[2] != d[3] && d[2] != d[4] && d[3] != d[4];
  }

  /** The defaults come first, in their order; the configured patterns that are not
      defaults follow in the order of their first occurrence. */
  lemma DefaultsFirst(config: Option<Config>)
    ensures AllPatterns(config) ==
      DisplayDefaults + Filter(Dedup(Configured(config)), p => p !in DisplayDefaults)
  {
    DedupAppend(DisplayDefaults, Configured(config));
    DisplayDefaultsDistinct();
    DedupOfNoDup(DisplayDefaults);
  }

  /** The count in the heading is five plus the number of distinct configured patterns
      that are not defaults; without configured patterns it is five. */
  lemma CountShown(config: Option<Config>)
    ensures 5 <= |Rows(config)| <= 5 + |Configured(config)|
    ensures Configured(config) == [] ==> |Rows(config)| == 5
  {
    DefaultsFirst(config);
    var rest := Filter(Dedup(Configured(config)), p => p !in DisplayDefaults);
    assert |rest| <= |Dedup(Configured(config))| <= |Configured(config)|;
  }

  /** The rows tagged "custom" show exactly the configured patterns, defaults included;
      the untagged rows show exactly the defaults that are not configured; and no
      pattern has two rows. */
  lemma CustomTag(config: Option<Config>)
    ensures forall p :: ((exists i :: 0 <= i < |Rows(config)| && Rows(config)[i].custom && Rows(config)[i].pattern == p)
      <==> p in Configured(config))
    ensures forall p :: ((exists i :: 0 <= i < |Rows(config)| && !Rows(config)[i].custom && Rows(config)[i].pattern == p)
      <==> p in DisplayDefaults && p !in Configured(config))
    ensures forall i, j :: 0 <= i < j < |Rows(config)| ==> Rows(config)[i].pattern != Rows(config)[j].pattern
  {
    var all, rows := AllPatterns(config), Rows(config);
    ListsEachOnce(config);
    forall p | p in Configured(config) || p in DisplayDefaults
      ensures exists i :: 0 <= i < |rows| && rows[i].pattern == p && (rows[i].custom <==> p in Configured(config))
    {
      assert p in all;
      var i :| 0 <= i < |all| && all[i] == p;
      assert rows[i].pattern == p;
    }
    forall i | 0 <= i < |rows|
      ensures rows[i].pattern in DisplayDefaults || rows[i].pattern in Configured(config)
    {
      assert rows[i].pattern == all[i];
    }
  }
}

=== FILE: js.dfy ===
/** The JavaScript values that reach the model through JSON request bodies and messages. */
module Js {
  import opened Text

  /** A JSON-decoded JavaScript value. Numbers are restricted to integers;
      object contents are not modelled. */
  datatype JsValue =
    | Undefined
    | Null
    | Bool(b: bool)
    | Num(n: int)
    | NaN
    | Str(s: string)
    | Arr(items: seq<JsValue>)
    | Obj

  /** JavaScript truthiness: what `if (v)` and `v || d` test. */
  predicate Truthy(v: JsValue)
  {
    match v
    case Undefined => false
    case Null => false
    case Bool(b) => b
    case Num(n) => n != 0
    case NaN => false
    case Str(s) => s != ""
    case Arr(_) => true
    case Obj => true
  }

  /** `String(v)`, which is what a template literal `${v}` inserts. */
  function Display(v: JsValue): string
    decreases v
  {
    match v
    case Undefined => "undefined"
    case Null => "null"
    case Bool(b) => if b then "true" else "false"
    case Num(n) => IntToString(n)
    case NaN => "NaN"
    case Str(s) => s
    case Arr(items) => DisplayItems(items)
    case Obj => "[object Object]"
  }

  /** `Array.prototype.join(',')`, which prints `undefined` and `null` elements as empty. */
  function DisplayItems(items: seq<JsValue>): string
    decreases items
  {
    if items == [] then ""
    else
      var first := if items[0].Undefined? || items[0].Null? then "" else Display(items[0]);
      if |items| == 1 then first else first + "," + DisplayItems(items[1..])
  }

  /** A digit of the radix `parseInt` settled on: decimal, or hexadecimal after `0x`. */
  predicate IsRadixDigit(c: char, hex: bool)
  {
    IsDigit(c) || (hex && ('a' <= c <= 'f' || 'A' <= c <= 'F'))
  }

  /** The value of one (decimal or hexadecimal) digit. */
  function DigitValue(c: char): (v: nat)
    ensures IsDigit(c) ==> v == c as int - '0' as int
    ensures v < 16
  {
    if IsDigit(c) then c as int - '0' as int
    else if 'a' <= c <= 'f' then c as int - 'a' as int + 10
    else if 'A' <= c <= 'F' then c as int - 'A' as int + 10
    else 0
  }

  /** The longest run of digits that starts `s`: where `parseInt` stops reading. */
  function LeadingDigits(s: string, hex: bool): (r: string)
    ensures |r| <= |s| && r == s[..|r|]
    ensures forall i :: 0 <= i < |r| ==> IsRadixDigit(r[i], hex)
    ensures |r| < |s| ==> !IsRadixDigit(s[|r|], hex)
  {
    if s != [] && IsRadixDigit(s[0], hex) then [s[0]] + LeadingDigits(s[1..], hex) else ""
  }

  function DigitsValue(ds: string, hex: bool): nat
  {
    if ds == [] then 0
    else DigitsValue(ds[..|ds| - 1], hex) * (if hex then 16 else 10) + DigitValue(ds[|ds| - 1])
  }

  /** `trimStart()`: `s` without its leading white space. */
  function TrimStart(s: string): (r: string)
    ensures |r| <= |s| && r == s[|s| - |r|..]
    ensures r != [] ==> !IsSpace(r[0])
    ensures forall i :: 0 <= i < |s| - |r| ==> IsSpace(s[i])
  {
    if s != [] && IsSpace(s[0]) then TrimStart(s[1..]) else s
  }

  /** `trimEnd()`: `s` without its trailing white space. */
  function TrimEnd(s: string): (r: string)
    ensures |r| <= |s| && r == s[..|r|]
    ensures r != [] ==> !IsSpace(r[|r| - 1])
    ensures forall i :: |r| <= i < |s| ==> IsSpace(s[i])
  {
    if s != [] && IsSpace(s[|s| - 1]) then TrimEnd(s[..|s| - 1]) else s
  }

  /** `trim()`. */
  function Trim(s: string): string
  {
    TrimEnd(TrimStart(s))
  }

  /** A list of strings as the JSON array it is sent as. */
  function Strings(fs: seq<string>): (r: seq<JsValue>)
    ensures |r| == |fs| && forall i :: 0 <= i < |fs| ==> r[i] == Str(fs[i])
    ensures forall f :: Str(f) in r <==> f in fs
    ensures forall v :: v in r ==> v.Str?
  {
    seq(|fs|, i requires 0 <= i < |fs| => Str(fs[i]))
  }

  /** `parseInt(s)` without a radix: after leading white space and a sign, a `0x` or
      `0X` prefix selects base 16, anything else base 10; the value of the leading
      digits, or NaN when there are none. Whatever the input, the result is a number
      and never a string. */
  function ParseInt(s: string): (r: JsValue)
    ensures r.Num? || r.NaN?
  {
    var t := TrimStart(s);
    var neg := |t| > 0 && t[0] == '-';
    var rest := if |t| > 0 && (t[0] == '-' || t[0] == '+') then t[1..] else t;
    var hex := |rest| >= 2 && rest[0] == '0' && (rest[1] == 'x' || rest[1] == 'X');
    var ds := LeadingDigits(if hex then rest[2..] else rest, hex);
    if ds == "" then NaN
    else
      var v: int := DigitsValue(ds, hex);
      Num(if neg then -v else v)
  }

  /** An unsigned `0x` literal is read as the hexadecimal digits after the prefix. */
  lemma ParseIntHexLiteral(d: string)
    ensures var ds := LeadingDigits(d, true);
      ParseInt("0x" + d) == if ds == "" then NaN else Num(DigitsValue(ds, true))
  {
    var s := "0x" + d;
    assert s[0] == '0' && s[1] == 'x' && !IsSpace('0');
    assert TrimStart(s) == s;
    assert s[2..] == d;
  }

  /** The digits of `1f` and their value. */
  lemma HexOneF()
    ensures LeadingDigits("1f", true) == "1f" && DigitsValue("1f", true) == 31
  {
    assert LeadingDigits("f", true) == "f" by { assert "f"[1..] == ""; }
    assert "1f"[1..] == "f";
    assert "1f"[..1] == "1";
    assert DigitsValue("1", true) == 1 by { assert "1"[..0] == ""; }
  }

  /** A `0x` prefix is read in base 16. */
  lemma ParseIntHex()
    ensures ParseInt("0x1f") == Num(31)
  {
    ParseIntHexLiteral("1f");
    assert "0x" + "1f" == "0x1f";
    HexOneF();
  }

  /** A string whose first character is neither white space, a sign nor a digit
      parses to NaN. */
  lemma ParseIntNoDigits(s: string)
    requires s != [] && !IsSpace(s[0]) && !IsDigit(s[0]) && s[0] != '-' && s[0] != '+'
    ensures ParseInt(s) == NaN
  {
    assert TrimStart(s) == s;
    assert !IsRadixDigit(s[0], false);
  }

  /** A group id such as `default` parses to NaN. */
  lemma ParseIntWord()
    ensures ParseInt("default") == NaN
  {
    var s := "default";
    assert s[0] == 'd' && !IsSpace('d');
    ParseIntNoDigits(s);
  }
}

=== FILE: seqs.dfy ===
/** Order-preserving filtering (JavaScript `Array.prototype.filter`), concatenation of
    mapped pieces, and duplicate freedom. */
module Seqs {

  /** The elements of `s` that satisfy `keep`, in their original order. */
  function Filter<T(!new)>(s: seq<T>, keep: T -> bool): (r: seq<T>)
    ensures |r| <= |s|
  {
    if s == [] then []
    else (if keep(s[0]) then [s[0]] else []) + Filter(s[1..], keep)
  }

  /** An element survives filtering exactly when it was there and is kept. */
  lemma {:induction false} FilterMembers<T(!new)>(s: seq<T>, keep: T -> bool)
    ensures forall x :: x in Filter(s, keep) <==> x in s && keep(x)
  {
    if s != [] {
      FilterMembers(s[1..], keep);
      assert forall x :: x in s <==> x == s[0] || x in s[1..];
    }
  }

  /** Filtering distributes over concatenation: the kept elements stay in input order. */
  lemma {:induction false} FilterAppend<T(!new)>(a: seq<T>, b: seq<T>, keep: T -> bool)
    ensures Filter(a + b, keep) == Filter(a, keep) + Filter(b, keep)
  {
    if a == [] {
      assert a + b == b;
    } else {
      var head := if keep(a[0]) then [a[0]] else [];
      assert (a + b)[0] == a[0] && (a + b)[1..] == a[1..] + b;
      assert Filter(a + b, keep) == head + Filter(a[1..] + b, keep);
      FilterAppend(a[1..], b, keep);
      assert Filter(a, keep) == head + Filter(a[1..], keep);
    }
  }

  /** Filtering keeps a sequence whose every element is kept. */
  lemma {:induction false} FilterKeepsAll<T(!new)>(s: seq<T>, keep: T -> bool)
    requires forall i :: 0 <= i < |s| ==> keep(s[i])
    ensures Filter(s, keep) == s
  {
    if s != [] {
      FilterKeepsAll(s[1..], keep);
    }
  }

  /** Filtering keeps the length exactly when every element is kept. */
  lemma {:induction false} FilterKeepsLength<T(!new)>(s: seq<T>, keep: T -> bool)
    ensures |Filter(s, keep)| == |s| <==> forall i :: 0 <= i < |s| ==> keep(s[i])
  {
    if s != [] {
      FilterKeepsLength(s[1..], keep);
      if !keep(s[0]) {
        assert |Filter(s, keep)| == |Filter(s[1..], keep)| < |s|;
      } else {
        assert forall i :: 1 <= i < |s| ==> s[i] == s[1..][i - 1];
      }
    }
  }

  /** Filtering skips a dropped element between a kept prefix and the rest. */
  lemma FilterDrop<T(!new)>(x: seq<T>, c: T, y: seq<T>, keep: T -> bool)
    requires forall i :: 0 <= i < |x| ==> keep(x[i])
    requires !keep(c)
    ensures Filter(x + [c] + y, keep) == x + Filter(y, keep)
  {
    var xc := x + [c];
    FilterAppend(xc, y, keep);
    FilterAppend(x, [c], keep);
    FilterKeepsAll(x, keep);
    assert [c][1..] == [];
    assert Filter([c], keep) == [];
    assert Filter(xc, keep) == x;
  }

  predicate NoDup<T(==)>(s: seq<T>)
  {
    forall i, j :: 0 <= i < j < |s| ==> s[i] != s[j]
  }

  /** Filtering a duplicate-free sequence leaves it duplicate-free. */
  lemma {:induction false} FilterNoDup<T(!new)>(s: seq<T>, keep: T -> bool)
    requires NoDup(s)
    ensures NoDup(Filter(s, keep))
  {
    if s != [] {
      FilterNoDup(s[1..], keep);
      FilterMembers(s[1..], keep);
      assert s[0] !in s[1..];
    }
  }

  /** `[...new Set(s)]`: the first occurrence of every element, in order. */
  function Dedup<T(==,!new)>(s: seq<T>): (r: seq<T>)
    ensures |r| <= |s|
    ensures forall x :: x in r <==> x in s
  {
    if s == [] then []
    else
      var r := Dedup(s[..|s| - 1]);
      assert s == s[..|s| - 1] + [s[|s| - 1]];
      if s[|s| - 1] in r then r else r + [s[|s| - 1]]
  }

  /** The deduplication holds every element once. */
  lemma {:induction false} DedupNoDup<T(!new)>(s: seq<T>)
    ensures NoDup(Dedup(s))
  {
    if s != [] {
      DedupNoDup(s[..|s| - 1]);
    }
  }

  /** A duplicate-free sequence is its own deduplication. */
  lemma {:induction false} DedupOfNoDup<T(!new)>(s: seq<T>)
    requires NoDup(s)
    ensures Dedup(s) == s
  {
    if s != [] {
      var init := s[..|s| - 1];
      DedupOfNoDup(init);
      assert s[|s| - 1] !in init;
      assert init + [s[|s| - 1]] == s;
    }
  }

  /** One more element is appended unless it was seen before. */
  lemma DedupSnoc<T(!new)>(s: seq<T>, y: T)
    ensures Dedup(s + [y]) == if y in s then Dedup(s) else Dedup(s) + [y]
  {
    assert (s + [y])[..|s + [y]| - 1] == s;
  }

  /** Filtering one more element appends it exactly when it is kept. */
  lemma FilterSnoc<T(!new)>(s: seq<T>, y: T, keep: T -> bool)
    ensures Filter(s + [y], keep) == Filter(s, keep) + (if keep(y) then [y] else [])
  {
    FilterAppend(s, [y], keep);
    assert [y][1..] == [];
  }

  /** Deduplicating a concatenation: the first part deduplicated, then the new elements
      of the second part in their first-occurrence order. */
  lemma {:induction false} DedupAppend<T(!new)>(a: seq<T>, b: seq<T>)
    ensures Dedup(a + b) == Dedup(a) + Filter(Dedup(b), x => x !in a)
  {
    if b == [] {
      assert a + b == a;
    } else {
      var init, y := b[..|b| - 1], b[|b| - 1];
      assert b == init + [y];
      assert a + b == (a + init) + [y];
      DedupAppend(a, init);
      DedupAppendSnoc(a, init, y);
    }
  }

  /** The inductive step of `DedupAppend`: one more element at the end of the second part. */
  lemma DedupAppendSnoc<T(!new)>(a: seq<T>, init: seq<T>, y: T)
    requires Dedup(a + init) == Dedup(a) + Filter(Dedup(init), x => x !in a)
    ensures Dedup((a + init) + [y]) == Dedup(a) + Filter(Dedup(init + [y]), x => x !in a)
  {
    var unseen := (x: T) => x !in a;
    var rest := Dedup(init);
    DedupSnoc(a + init, y);
    DedupSnoc(init, y);
    if y in init {
      assert y in a + init;
    } else if y in a {
      assert y in a + init;
      FilterSnoc(rest, y, unseen);
    } else {
      assert y !in a + init;
      FilterSnoc(rest, y, unseen);
      AppendAssoc(Dedup(a), Filter(rest, unseen), [y]);
    }
  }

  lemma SplitAt<T>(s: seq<T>, i: nat)
    requires i < |s|
    ensures s == (s[..i] + [s[i]]) + s[i + 1..]
  {
  }

  lemma AppendAssoc<T>(p: seq<T>, q: seq<T>, r: seq<T>)
    ensures (p + q) + r == p + (q + r)
  {
  }

  /** The pieces `f(x)` for the elements `x` of `s`, concatenated in order. */
  function FlatMap<T, U>(s: seq<T>, f: T -> seq<U>): seq<U>
  {
    if s == [] then [] else FlatMap(s[..|s| - 1], f) + f(s[|s| - 1])
  }

  lemma {:induction false} FlatMapAppend<T, U>(a: seq<T>, b: seq<T>, f: T -> seq<U>)
    ensures FlatMap(a + b, f) == FlatMap(a, f) + FlatMap(b, f)
  {
    if b == [] {
      assert a + b == a;
    } else {
      assert (a + b)[..|a + b| - 1] == a + b[..|b| - 1];
      FlatMapAppend(a, b[..|b| - 1], f);
    }
  }

  lemma FlatMapSingle<T, U>(x: T, f: T -> seq<U>)
    ensures FlatMap([x], f) == f(x)
  {
    assert [x][..0] == [];
  }

  /** The piece of the `i`-th element sits between those of the elements before and after it. */
  lemma FlatMapAt<T, U>(s: seq<T>, f: T -> seq<U>, i: nat)
    requires i < |s|
    ensures FlatMap(s, f) == FlatMap(s[..i], f) + f(s[i]) + FlatMap(s[i + 1..], f)
  {
    var before, x, after := s[..i], s[i], s[i + 1..];
    SplitAt(s, i);
    FlatMapAppend(before + [x], after, f);
    FlatMapAppend(before, [x], f);
    FlatMapSingle(x, f);
  }
}

=== FILE: server.dfy ===
/** The server of src/server/index.js: the `/api/files` and `/api/generate` routes, and
    the live-update hub that keeps browser connections alive and pushes file lists. */
module Server {
  import opened Wrappers
  import opened Js
  import opened Groups
  import opened Disk
  import opened Http
  import opened Settings
  import opened CliUtils
  import opened FileUtils
  import opened GroupStorage
  import opened GroupsApi

  // ---- GET /api/files -----------------------------------------------------

  /** `GET /api/files`: the scan's list, or 500 with the scan's error message. The scan
      uses the configuration `getAllFiles` loads from the watched directory, `loaded`. */
  method ListFiles(root: Listing, loaded: Config, glob: Glob, failure: string) returns (response: Response)
    ensures var scan := if root.Listed? then ScanSpec("", root.entries, IgnorePatterns(loaded), glob) else None;
      && (scan.Some? ==> response == Response(200, FilesBody(Normalized(scan.value))))
      && (scan.None? ==> response == Error(500, failure))
  {
    var files := GetAllFiles(root, loaded, glob);
    if files.None? {
      return Error(500, failure);
    }
    response := Response(200, FilesBody(files.value));
  }

  // ---- POST /api/generate -------------------------------------------------

  const FilesRequired := "Files array is required and must not be empty"
  const NameRequired := "Name is required and must be a string"
  const GroupIdMissing := "Group ID is required"
  const GenerateError := "Failed to generate content file"

  /** The JSON body of a generation request, field by field. */
  datatype GenerateRequest = GenerateRequest(files: JsValue, name: JsValue, description: JsValue, groupId: JsValue)

  predicate FilesOk(req: GenerateRequest) { req.files.Arr? && |req.files.items| > 0 }
  predicate NameOk(req: GenerateRequest) { Truthy(req.name) && req.name.Str? }

  /** The three checks, in their order; the first that fails answers 400. */
  function Validate(req: GenerateRequest): Option<Response>
  {
    if !FilesOk(req) then Some(Error(400, FilesRequired))
    else if !NameOk(req) then Some(Error(400, NameRequired))
    else if !Truthy(req.groupId) then Some(Error(400, GroupIdMissing))
    else None
  }

  /** Whatever the handler throws becomes a 500 carrying the error's message. */
  function Failure(details: string): Response
  {
    Response(500, ErrorBody(GenerateError, Some(details)))
  }

  /** The route on a snapshot: validate, create the group's directory, write the
      artifact, then record it in the group's history. A truthy id that is not a string
      makes `path.join` throw inside `createGroupDirectory`. */
  function GenerateRouteSpec(s: Snapshot, watchDir: string, req: GenerateRequest, clock: Clock,
                             probe: string -> FileOutcome, now: string): Handled
  {
    match Validate(req)
    case Some(bad) => Handled(bad, s)
    case None =>
      if !req.groupId.Str? then Handled(Failure(PathTypeError), s)
      else
        var id := req.groupId.s;
        match CreateDirSpec(s, id)
        case Err(e) => Handled(Failure(e), s)
        case Ok(s1) =>
          match GenerateSpec(s1, watchDir, req.files.items, req.name.s, req.description, id, clock, probe)
          case Err(e) => Handled(Failure(e), s1)
          case Ok(g) =>
            if !g.result.success then Handled(Response(200, GeneratedBody(g.result)), g.after)
            else match AddHistorySpec(g.after, req.groupId, g.result.path, now)
              case Err(e) => Handled(Failure(e), g.after)
              case Ok(s3) => Handled(Response(200, GeneratedBody(g.result)), s3)
  }

  /** The checks run in order: a request is refused with 400 exactly when one fails,
      the message names the first failing check, and a refused request changes nothing. */
  lemma ValidationOrder(s: Snapshot, watchDir: string, req: GenerateRequest, clock: Clock,
                        probe: string -> FileOutcome, now: string)
    ensures var h := GenerateRouteSpec(s, watchDir, req, clock, probe, now);
      && (h.response.status == 400 <==> !FilesOk(req) || !NameOk(req) || !Truthy(req.groupId))
      && (h.response.status == 400 ==> h.after == s)
      && (h.response == Error(400, FilesRequired) <==> !FilesOk(req))
      && (h.response == Error(400, NameRequired) <==> FilesOk(req) && !NameOk(req))
      && (h.response == Error(400, GroupIdMissing) <==> FilesOk(req) && NameOk(req) && !Truthy(req.groupId))
  {
  }

  /** A valid request for a string id on a read-only disk fails with 500 and leaves the
      folder as it was. */
  lemma GenerateReadOnly(s: Snapshot, watchDir: string, req: GenerateRequest, clock: Clock,
                         probe: string -> FileOutcome, now: string)
    requires Consistent(s) && !s.writable
    ensures GenerateRouteSpec(s, watchDir, req, clock, probe, now).after == s
    ensures Validate(req).None? ==> GenerateRouteSpec(s, watchDir, req, clock, probe, now).response.status == 500
  {
  }

  /** On a writable disk a valid request for a string id always leaves the artifact in
      the group's directory; it answers 200 exactly when the id is registered, and then
      the artifact's path heads that group's history. An unregistered id gets 500
      although the artifact was written. */
  lemma GenerateWritesThenRecords(s: Snapshot, watchDir: string, req: GenerateRequest, clock: Clock,
                                  probe: string -> FileOutcome, now: string)
    requires Consistent(s) && s.writable && Validate(req).None? && req.groupId.Str?
    ensures var id := req.groupId.s;
      var h := GenerateRouteSpec(s, watchDir, req, clock, probe, now);
      && id in h.after.dirs && FileName(id, clock) in h.after.dirs[id]
      && (h.response.status == 200 <==> id in Ids(GroupsOf(s)))
      && (h.response.status != 200 ==> h.response == Failure("Group not found: " + Display(req.groupId)))
      && (h.response.status == 200 ==>
        var i := FindIndex(GroupsOf(s), Str(id)).value;
        && h.response.body.GeneratedBody?
        && h.response.body.result.path == id + "/" + FileName(id, clock)
        && h.after.registry.Stored?
        && |h.after.registry.groups| == |GroupsOf(s)|
        && h.after.registry.groups[i].history ==
             Some([HistoryEntry(id + "/" + FileName(id, clock), now)] + HistoryOrEmpty(GroupsOf(s)[i])))
  {
    var id := req.groupId.s;
    var s1 := CreateDirSpec(s, id).value;
    GenerateOutcome(s1, watchDir, req.files.items, req.name.s, req.description, id, clock, probe);
    var g := GenerateSpec(s1, watchDir, req.files.items, req.name.s, req.description, id, clock, probe).value;
    assert GroupsOf(g.after) == GroupsOf(s);
    FindIndexIds(GroupsOf(s), id);
  }

  /** `POST /api/generate` against the storage layer and the generator. */
  method HandleGenerate(store: Storage, watchDir: string, req: GenerateRequest, clock: Clock,
                        probe: string -> FileOutcome, now: string) returns (response: Response)
    requires store.vol.Valid()
    modifies store.vol
    ensures store.vol.Valid()
    ensures Handled(response, store.vol.View())
      == GenerateRouteSpec(old(store.vol.View()), watchDir, req, clock, probe, now)
  {
    var bad := Validate(req);
    if bad.Some? {
      return bad.value;
    }
    if !req.groupId.Str? {
      return Failure(PathTypeError);
    }
    var created := store.CreateGroupDirectory(req.groupId.s);
    if created.Err? {
      return Failure(created.error);
    }
    var result, _ := GenerateContentFile(store.vol, watchDir, req.files.items, req.name.s, req.description,
      req.groupId.s, clock, probe);
    if result.Err? {
      return Failure(result.error);
    }
    if result.value.success {
      var recorded := store.AddGenerationToHistory(req.groupId, result.value.path, now);
      if recorded.Fail? {
        return Failure(recorded.error);
      }
    }
    response := Response(200, GeneratedBody(result.value));
  }

  // ---- the live-update hub ------------------------------------------------

  type ClientId = nat

  /** The `readyState` of a WebSocket. */
  datatype ReadyState = Connecting | Open | Closing | Closed

  /** One connection as the WebSocket server tracks it, with the liveness flag the
      heartbeat sets and clears. */
  datatype Socket = Socket(isAlive: bool, state: ReadyState)

  /** The messages pushed to browsers. */
  datatype Message =
    | FileList(files: seq<string>)
    | GroupList(groups: seq<Group>)
    | FilesChanged(files: seq<string>, event: string, path: string)

  /** `terminate()`: destroys the connection at once unless it is already closed. */
  function Terminate(sock: Socket): (r: Socket)
    ensures r.isAlive == sock.isAlive
    ensures r.state == (if sock.state == Closed then Closed else Closing)
    ensures r.state != Open
  {
    if sock.state == Closed then sock else sock.(state := Closing)
  }

  /** Terminating twice is terminating once, and a connection already closing or
      closed is left as it is. */
  lemma TerminateIdempotent(sock: Socket)
    ensures Terminate(Terminate(sock)) == Terminate(sock)
    ensures sock.state == Closing || sock.state == Closed ==> Terminate(sock) == sock
  {
  }

  /** One heartbeat for one connection: a connection that did not answer the last ping
      is terminated, any other is marked unanswered and pinged. */
  function TickOne(sock: Socket): Socket
  {
    if !sock.isAlive then Terminate(sock) else sock.(isAlive := false)
  }

  function TickSpec(m: map<ClientId, Socket>): (r: map<ClientId, Socket>)
    ensures r.Keys == m.Keys
  {
    map c | c in m :: TickOne(m[c])
  }

  /** A `pong` marks the connection alive again. */
  function PongSpec(m: map<ClientId, Socket>, c: ClientId): (r: map<ClientId, Socket>)
    ensures r.Keys == m.Keys
  {
    if c in m then m[c := m[c].(isAlive := true)] else m
  }

  /** A connection that answers no ping is terminated by the second heartbeat at the
      latest, whatever it did before. */
  lemma SilentClientTerminated(m: map<ClientId, Socket>, c: ClientId)
    requires c in m && m[c].state != Closed
    ensures TickSpec(TickSpec(m))[c].state == Closing
  {
  }

  /** A connection that answers every ping is never terminated by the heartbeat. */
  lemma AnsweringClientKept(m: map<ClientId, Socket>, c: ClientId)
    requires c in m && m[c].isAlive
    ensures TickSpec(PongSpec(TickSpec(m), c))[c] == m[c].(isAlive := false)
    ensures TickSpec(m)[c].state == m[c].state
  {
  }

  /** The watcher events that trigger a broadcast. */
  predicate Broadcasts(event: string)
  {
    event == "add" || event == "unlink" || event == "change"
  }

  /** What a connection receives once the initial file list and the groups are read:
      both, files first, if it is still open; nothing when the file scan failed. */
  function InitialMessages(state: ReadyState, files: Option<seq<string>>, groups: seq<Group>): (r: seq<Message>)
    ensures r != [] <==> state == Open && files.Some?
    ensures r != [] ==> r == [FileList(files.value), GroupList(groups)]
  {
    if files.Some? && state == Open then [FileList(files.value), GroupList(groups)] else []
  }

  /** The set of tracked connections (`wss.clients`), the server's own `clients` set
      that broadcasts go to, and the shutdown flags. */
  class SyncHub {
    var sockets: map<ClientId, Socket>
    var clients: set<ClientId>
    var pinging: bool
    var isShuttingDown: bool

    /** Every broadcast target is a tracked connection. */
    ghost predicate Valid()
      reads this
    {
      clients <= sockets.Keys
    }

    /** The connections in `clients` that a broadcast reaches. */
    function OpenClients(): (r: set<ClientId>)
      reads this
      requires Valid()
      ensures r <= clients
      ensures forall c :: c in clients ==> (c in r <==> sockets[c].state == Open)
    {
      set c | c in clients && sockets[c].state == Open
    }

    constructor ()
      ensures Valid() && sockets == map[] && clients == {} && pinging && !isShuttingDown
    {
      sockets := map[];
      clients := {};
      pinging := true;
      isShuttingDown := false;
    }

    /** A new connection: alive, open, and a broadcast target. */
    method Connect(c: ClientId)
      requires Valid() && c !in sockets
      modifies this
      ensures Valid()
      ensures sockets == old(sockets)[c := Socket(true, Open)] && clients == old(clients) + {c}
      ensures pinging == old(pinging) && isShuttingDown == old(isShuttingDown)
    {
      sockets := sockets[c := Socket(true, Open)];
      clients := clients + {c};
    }

    method Pong(c: ClientId)
      requires Valid()
      modifies this
      ensures Valid()
      ensures sockets == PongSpec(old(sockets), c)
      ensures clients == old(clients) && pinging == old(pinging) && isShuttingDown == old(isShuttingDown)
    {
      if c in sockets {
        sockets := sockets[c := sockets[c].(isAlive := true)];
      }
    }

    /** The `close` event: the connection leaves both sets. */
    method Closed(c: ClientId)
      requires Valid()
      modifies this
      ensures Valid()
      ensures sockets == old(sockets) - {c} && clients == old(clients) - {c}
      ensures pinging == old(pinging) && isShuttingDown == old(isShuttingDown)
    {
      sockets := sockets - {c};
      clients := clients - {c};
    }

    /** The `error` event: the connection stops receiving broadcasts but stays tracked
      until it closes. */
    method Errored(c: ClientId)
      requires Valid()
      modifies this
      ensures Valid()
      ensures sockets == old(sockets) && clients == old(clients) - {c}
      ensures pinging == old(pinging) && isShuttingDown == old(isShuttingDown)
    {
      clients := clients - {c};
    }

    /** One firing of the three-second heartbeat over every tracked connection. */
    method PingTick() returns (terminated: set<ClientId>, pinged: set<ClientId>)
      requires Valid()
      modifies this
      ensures Valid()
      ensures clients == old(clients) && pinging == old(pinging) && isShuttingDown == old(isShuttingDown)
      ensures !pinging ==> sockets == old(sockets) && terminated == {} && pinged == {}
      ensures pinging ==> sockets == TickSpec(old(sockets))
      ensures pinging ==> terminated == set c | c in old(sockets) && !old(sockets)[c].isAlive
      ensures pinging ==> pinged == set c | c in old(sockets) && old(sockets)[c].isAlive
    {
      terminated, pinged := {}, {};
      if !pinging {
        return;
      }
      ghost var m0 := sockets;
      var pending := sockets.Keys;
      while pending != {}
        invariant pending <= m0.Keys && sockets.Keys == m0.Keys
        invariant clients == old(clients) && pinging && isShuttingDown == old(isShuttingDown)
        invariant forall c :: c in m0 ==> sockets[c] == if c in pending then m0[c] else TickOne(m0[c])
        invariant terminated == set c | c in m0 && c !in pending && !m0[c].isAlive
        invariant pinged == set c | c in m0 && c !in pending && m0[c].isAlive
        decreases pending
      {
        var c :| c in pending;
        var sock := sockets[c];
        if !sock.isAlive {
          sockets := sockets[c := Terminate(sock)];
          terminated := terminated + {c};
        } else {
          sockets := sockets[c := sock.(isAlive := false)];
          pinged := pinged + {c};
        }
        pending := pending - {c};
      }
      assert sockets == TickSpec(m0);
    }

    /** A watcher event: for `add`, `unlink` and `change`, the fresh file list goes to
      every open broadcast target; a target whose send throws is dropped. Nothing is
      sent for other events or when the scan fails. */
    method Broadcast(event: string, path: string, files: Option<seq<string>>, failing: set<ClientId>)
      returns (message: Option<Message>, recipients: set<ClientId>)
      requires Valid()
      modifies this
      ensures Valid()
      ensures sockets == old(sockets) && pinging == old(pinging) && isShuttingDown == old(isShuttingDown)
      ensures !Broadcasts(event) || files.None? ==> message == None && recipients == {} && clients == old(clients)
      ensures Broadcasts(event) && files.Some? ==>
        && message == Some(FilesChanged(files.value, event, path))
        && recipients == old(OpenClients()) - failing
        && clients == old(clients) - (old(OpenClients()) * failing)
    {
      message, recipients := None, {};
      if !Broadcasts(event) || files.None? {
        return;
      }
      message := Some(FilesChanged(files.value, event, path));
      ghost var c0 := clients;
      ghost var open := OpenClients();
      var pending := clients;
      while pending != {}
        invariant pending <= c0 && Valid() && open <= c0
        invariant sockets == old(sockets) && pinging == old(pinging) && isShuttingDown == old(isShuttingDown)
        invariant forall c :: c in c0 ==> (c in open <==> sockets[c].state == Open)
        invariant clients == c0 - (set c | c in open && c !in pending && c in failing)
        invariant recipients == set c | c in open && c !in pending && c !in failing
        decreases pending
      {
        var c :| c in pending;
        if sockets[c].state == Open {
          if c in failing {
            clients := clients - {c};
          } else {
            recipients := recipients + {c};
          }
        }
        pending := pending - {c};
      }
    }

    /** Shutdown runs once: it stops the heartbeat and terminates every tracked
      connection; a second call returns at once. */
    method Cleanup() returns (ran: bool)
      requires Valid()
      modifies this
      ensures Valid() && isShuttingDown && clients == old(clients)
      ensures ran <==> !old(isShuttingDown)
      ensures ran ==> !pinging && sockets == map c | c in old(sockets) :: Terminate(old(sockets)[c])
      ensures !ran ==> sockets == old(sockets) && pinging == old(pinging)
    {
      if isShuttingDown {
        return false;
      }
      isShuttingDown := true;
      pinging := false;
      sockets := map c | c in sockets :: Terminate(sockets[c]);
      ran := true;
    }
  }
}

=== FILE: settings.dfy ===
/** The resolved configuration object handed to the server by the configuration loader. */
module Settings {
  import opened Wrappers

  datatype OutputConfig = OutputConfig(directory: Option<string>, fileNamePattern: Option<string>)

  /** `{ ignore?, output?: { directory?, fileNamePattern? }, ui? }`; `ui` stands for
      every field the server does not interpret. */
  datatype Config = Config(ignore: Option<seq<string>>, output: Option<OutputConfig>, ui: Option<string>)

  /** The sanitised subset sent to the browser. */
  datatype ClientConfig = ClientConfig(ignore: seq<string>, directory: string, fileNamePattern: string)
}

=== FILE: storage.dfy ===
/** The group store (src/server/storage.js): the registry document and the
    one-directory-per-group convention, as a class over the `.llmix` volume.
    Each method is proved against a specification function on a snapshot. */
module GroupStorage {
  import opened Wrappers
  import opened Text
  import opened Js
  import opened Groups
  import opened Disk

  const DefaultGroupId := "content-group-1"
  const DefaultGroup := Group(DefaultGroupId, "Content Group 1", [], "", "blue", Some([]))

  /** `getGroups`: the stored list, or `[]` when the document is missing or unreadable. */
  function GroupsOf(s: Snapshot): seq<Group>
  {
    if s.registry.Stored? then s.registry.groups else []
  }

  /** `saveGroups`: overwrite `groups.json`; write failures propagate. */
  function SaveSpec(s: Snapshot, groups: seq<Group>): (r: Result<Snapshot>)
    ensures r.Ok? <==> s.present && s.writable
    ensures r.Ok? ==> r.value.registry == Stored(groups) && r.value.dirs == s.dirs
  {
    if !s.present then Err(NoSuchFile)
    else if !s.writable then Err(AccessDenied)
    else Ok(s.(registry := Stored(groups)))
  }

  /** `init`: create the folder, and when no registry exists write one holding
      exactly the default group, after creating that group's directory. */
  function InitSpec(s: Snapshot): (r: Result<Snapshot>)
    requires Consistent(s)
    ensures r.Ok? <==> s.writable || (s.present && s.registry != Missing)
    ensures r.Ok? ==> Consistent(r.value) && r.value.present
    ensures r.Ok? && s.registry == Missing ==>
      && r.value.registry == Stored([DefaultGroup])
      && r.value.dirs == s.dirs[DefaultGroupId := if DefaultGroupId in s.dirs then s.dirs[DefaultGroupId] else {}]
    ensures r.Ok? && s.registry != Missing ==> r.value == s
  {
    if !s.present && !s.writable then Err(AccessDenied)
    else
      var s1 := s.(present := true);
      if s1.registry != Missing then Ok(s1)
      else match MakeDir(s1, DefaultGroupId)
        case Err(e) => Err(e)
        case Ok(s2) => SaveSpec(s2, [DefaultGroup])
  }

  /** `createGroupDirectory`: nothing for a falsy id, otherwise an idempotent `mkdir -p`. */
  function CreateDirSpec(s: Snapshot, id: string): (r: Result<Snapshot>)
  {
    if id == "" then Ok(s) else MakeDir(s, id)
  }

  /** Creating a group directory twice is the same as creating it once: the second
      call neither fails nor changes anything. */
  lemma CreateDirIdempotent(s: Snapshot, id: string)
    requires CreateDirSpec(s, id).Ok?
    ensures CreateDirSpec(CreateDirSpec(s, id).value, id) == CreateDirSpec(s, id)
    ensures id != "" ==> id in CreateDirSpec(s, id).value.dirs
  {
  }

  /** `deleteGroupDirectory`: `rm -rf` of the group directory; errors are swallowed. */
  function DeleteSpec(s: Snapshot, id: string): (r: Snapshot)
    ensures r.registry == s.registry && r.present == s.present
    ensures id != "" && s.writable ==> r.dirs == s.dirs - {id}
    ensures id == "" || !s.writable ==> r == s
  {
    if id == "" || id !in s.dirs || !s.writable then s else s.(dirs := s.dirs - {id})
  }

  /** `cleanupEmptyDirectories`: removes every empty group directory and nothing else;
      when the folder cannot be listed or written nothing changes. */
  function CleanupSpec(s: Snapshot): (r: Snapshot)
    ensures r.registry == s.registry && r.present == s.present
    ensures !s.present || !s.writable ==> r == s
    ensures s.present && s.writable ==>
      forall k :: k in r.dirs <==> k in s.dirs && s.dirs[k] != {}
    ensures forall k :: k in r.dirs ==> k in s.dirs && r.dirs[k] == s.dirs[k]
  {
    if !s.present || !s.writable then s
    else s.(dirs := map k | k in s.dirs && s.dirs[k] != {} :: s.dirs[k])
  }

  /** `renameGroupDirectory`: create the new directory, move every file into it under
      the same name, remove the old directory; a missing old directory degrades to the
      creation, and every error is swallowed. */
  function RenameSpec(s: Snapshot, oldId: string, newId: string): (r: Snapshot)
    requires Consistent(s)
    ensures Consistent(r) && r.registry == s.registry
    ensures oldId == "" || newId == "" || !s.writable ==> r == s
    ensures oldId != "" && newId != "" && s.writable && oldId !in s.dirs && oldId != newId ==>
      r.dirs == s.dirs[newId := if newId in s.dirs then s.dirs[newId] else {}]
    ensures oldId != "" && newId != "" && s.writable && oldId in s.dirs && oldId != newId ==>
      && newId in r.dirs && oldId !in r.dirs
      && r.dirs[newId] == (if newId in s.dirs then s.dirs[newId] else {}) + s.dirs[oldId]
      && (forall f :: f in s.dirs[oldId] ==> f in r.dirs[newId])
      && (forall k :: k != oldId && k != newId ==> (k in r.dirs <==> k in s.dirs))
      && (forall k :: k != oldId && k != newId && k in s.dirs ==> r.dirs[k] == s.dirs[k])
    ensures oldId != "" && oldId == newId && s.writable ==> r.dirs == s.dirs - {oldId}
  {
    if oldId == "" || newId == "" then s
    else match MakeDir(s, newId)
      case Err(_) => s
      case Ok(s1) =>
        if oldId !in s1.dirs || !s1.writable then s1
        else s1.(dirs := s1.dirs[newId := s1.dirs[newId] + s1.dirs[oldId]] - {oldId})
  }

  function HistoryOrEmpty(g: Group): seq<HistoryEntry>
  {
    if g.history.Some? then g.history.value else []
  }

  /** `addGenerationToHistory`: find the first group whose id is `=== key`, put the new
      entry in front of its history (a missing history counts as empty) and save. */
  function AddHistorySpec(s: Snapshot, key: JsValue, fileName: string, now: string): Result<Snapshot>
  {
    var gs := GroupsOf(s);
    match FindIndex(gs, key)
    case None => Err("Group not found: " + Display(key))
    case Some(i) =>
      SaveSpec(s, gs[i := gs[i].(history := Some([HistoryEntry(fileName, now)] + HistoryOrEmpty(gs[i])))])
  }

  /** An unknown group id fails with "Group not found" and nothing is saved. */
  lemma HistoryUnknownGroup(s: Snapshot, key: JsValue, fileName: string, now: string)
    requires FindIndex(GroupsOf(s), key).None?
    ensures AddHistorySpec(s, key, fileName, now) == Err("Group not found: " + Display(key))
  {
  }

  /** For a known group the new entry becomes `history[0]`, the previous history
      follows unchanged, and every other group and field is untouched. */
  lemma HistoryPrepended(s: Snapshot, key: JsValue, fileName: string, now: string)
    requires FindIndex(GroupsOf(s), key).Some?
    ensures AddHistorySpec(s, key, fileName, now).Ok? <==> s.present && s.writable
    ensures AddHistorySpec(s, key, fileName, now).Ok? ==>
      var i := FindIndex(GroupsOf(s), key).value;
      var after := AddHistorySpec(s, key, fileName, now).value;
      && after.dirs == s.dirs
      && after.registry.Stored?
      && |after.registry.groups| == |GroupsOf(s)|
      && after.registry.groups[i].history.Some?
      && after.registry.groups[i].history.value[0] == HistoryEntry(fileName, now)
      && after.registry.groups[i].history.value[1..] == HistoryOrEmpty(GroupsOf(s)[i])
      && after.registry.groups[i].(history := GroupsOf(s)[i].history) == GroupsOf(s)[i]
      && forall j :: 0 <= j < |GroupsOf(s)| && j != i ==> after.registry.groups[j] == GroupsOf(s)[j]
  {
  }

  /** The group directories part-way through a rename: the files still `pending` wait in
      the old directory, the others are in the new one under the same names. */
  ghost function Transfer(d: map<string, set<string>>, oldId: string, newId: string, pending: set<string>)
    : map<string, set<string>>
    requires oldId in d && newId in d
  {
    d[newId := d[newId] + (d[oldId] - pending)][oldId := pending]
  }

  lemma TransferStart(d: map<string, set<string>>, oldId: string, newId: string)
    requires oldId in d && newId in d && oldId != newId
    ensures Transfer(d, oldId, newId, d[oldId]) == d
  {
    var m := Transfer(d, oldId, newId, d[oldId]);
    assert m[newId] == d[newId] + {} == d[newId];
    assert m.Keys == d.Keys;
    assert forall k :: k in d ==> m[k] == d[k];
  }

  lemma TransferStep(d: map<string, set<string>>, oldId: string, newId: string, pending: set<string>, f: string)
    requires oldId in d && newId in d && oldId != newId && pending <= d[oldId] && f in pending
    ensures Transfer(d, oldId, newId, pending - {f}) ==
      var m := Transfer(d, oldId, newId, pending);
      m[newId := m[newId] + {f}][oldId := m[oldId] - {f}]
  {
    var m := Transfer(d, oldId, newId, pending);
    var m' := m[newId := m[newId] + {f}][oldId := m[oldId] - {f}];
    var after := Transfer(d, oldId, newId, pending - {f});
    assert d[oldId] - (pending - {f}) == (d[oldId] - pending) + {f};
    assert after.Keys == m'.Keys;
    assert after[newId] == m'[newId];
    assert forall k :: k in after ==> after[k] == m'[k];
  }

  lemma TransferEnd(d: map<string, set<string>>, oldId: string, newId: string)
    requires oldId in d && newId in d
    ensures oldId != newId ==>
      Transfer(d, oldId, newId, {}) - {oldId} == d[newId := d[newId] + d[oldId]] - {oldId}
    ensures oldId == newId ==> d - {oldId} == d[newId := d[newId] + d[oldId]] - {oldId}
  {
    assert d[oldId] - {} == d[oldId];
    var moved := d[newId := d[newId] + d[oldId]] - {oldId};
    if oldId != newId {
      assert (Transfer(d, oldId, newId, {}) - {oldId}).Keys == moved.Keys;
    } else {
      assert moved.Keys == (d - {oldId}).Keys;
    }
  }

  class Storage {
    const baseDir: string
    const groupsFile: string
    const vol: Volume

    constructor (watchDir: string, vol: Volume)
      ensures this.vol == vol
      ensures baseDir == PathJoin(watchDir, ".llmix") && groupsFile == PathJoin(baseDir, "groups.json")
    {
      this.vol := vol;
      baseDir := PathJoin(watchDir, ".llmix");
      groupsFile := PathJoin(PathJoin(watchDir, ".llmix"), "groups.json");
    }

    /** `getGroupDirectory`: the group's directory lies directly under the base folder. */
    function GetGroupDirectory(groupId: string): (r: string)
      ensures groupId != "" && baseDir != "" ==> StartsWith(r, baseDir + "/") && r[|baseDir| + 1..] == groupId
    {
      PathJoin(baseDir, groupId)
    }

    /** Two different groups never share a directory. */
    lemma GroupDirectoriesDistinct(a: string, b: string)
      requires a != "" && b != "" && a != b
      ensures GetGroupDirectory(a) != GetGroupDirectory(b)
    {
      if baseDir != "" {
        assert GetGroupDirectory(a)[|baseDir| + 1..] == a;
        assert GetGroupDirectory(b)[|baseDir| + 1..] == b;
      }
    }

    method Init() returns (r: Outcome)
      requires vol.Valid()
      modifies vol
      ensures vol.Valid()
      ensures InitSpec(old(vol.View())).Ok? ==> r.Pass? && vol.View() == InitSpec(old(vol.View())).value
      ensures InitSpec(old(vol.View())).Err? ==> r.Fail? && vol.View() == old(vol.View())
    {
      if !vol.present {
        if !vol.writable {
          return Fail(AccessDenied);
        }
        vol.present := true;
      }
      if vol.registry == Missing {
        var created := CreateGroupDirectory(DefaultGroupId);
        if created.Err? {
          return Fail(created.error);
        }
        r := SaveGroups([DefaultGroup]);
      } else {
        r := Pass;
      }
    }

    method CreateGroupDirectory(groupId: string) returns (r: Result<Option<string>>)
      requires vol.Valid()
      modifies vol
      ensures vol.Valid()
      ensures CreateDirSpec(old(vol.View()), groupId).Ok? ==>
        && vol.View() == CreateDirSpec(old(vol.View()), groupId).value
        && r == Ok(if groupId == "" then None else Some(GetGroupDirectory(groupId)))
      ensures CreateDirSpec(old(vol.View()), groupId).Err? ==>
        r == Err(CreateDirSpec(old(vol.View()), groupId).error) && vol.View() == old(vol.View())
    {
      if groupId == "" {
        return Ok(None);
      }
      if groupId !in vol.dirs {
        if !vol.writable {
          return Err(AccessDenied);
        }
        vol.present := true;
        vol.dirs := vol.dirs[groupId := {}];
      }
      r := Ok(Some(GetGroupDirectory(groupId)));
    }

    method CleanupEmptyDirectories()
      requires vol.Valid()
      modifies vol
      ensures vol.Valid() && vol.View() == CleanupSpec(old(vol.View()))
    {
      if !vol.present {
        return;
      }
      ghost var d0 := vol.dirs;
      var pending := vol.dirs.Keys;
      while pending != {}
        invariant vol.present && vol.registry == old(vol.registry)
        invariant pending <= d0.Keys
        invariant !vol.writable ==> vol.dirs == d0
        invariant vol.writable ==> vol.dirs == map k | k in d0 && (k in pending || d0[k] != {}) :: d0[k]
        decreases pending
      {
        var d :| d in pending;
        if vol.dirs[d] == {} {
          if !vol.writable {
            return;
          }
          vol.dirs := vol.dirs - {d};
        }
        pending := pending - {d};
      }
    }

    method DeleteGroupDirectory(groupId: string)
      requires vol.Valid()
      modifies vol
      ensures vol.Valid() && vol.View() == DeleteSpec(old(vol.View()), groupId)
    {
      if groupId == "" || groupId !in vol.dirs || !vol.writable {
        return;
      }
      vol.dirs := vol.dirs - {groupId};
    }

    method RenameGroupDirectory(oldId: string, newId: string)
      requires vol.Valid()
      modifies vol
      ensures vol.Valid() && vol.View() == RenameSpec(old(vol.View()), oldId, newId)
    {
      if oldId == "" || newId == "" {
        return;
      }
      if newId !in vol.dirs {
        if !vol.writable {
          return;
        }
        vol.present := true;
        vol.dirs := vol.dirs[newId := {}];
      }
      if oldId !in vol.dirs {
        return;
      }
      ghost var d1 := vol.dirs;
      var pending := vol.dirs[oldId];
      if oldId != newId {
        TransferStart(d1, oldId, newId);
      }
      while pending != {}
        invariant vol.present && vol.registry == old(vol.registry)
        invariant newId in d1 && oldId in d1 && pending <= d1[oldId]
        invariant !vol.writable || oldId == newId ==> vol.dirs == d1
        invariant vol.writable && oldId != newId ==> vol.dirs == Transfer(d1, oldId, newId, pending)
        decreases pending
      {
        var f :| f in pending;
        if !vol.writable {
          return;
        }
        if oldId != newId {
          TransferStep(d1, oldId, newId, pending, f);
          vol.dirs := vol.dirs[newId := vol.dirs[newId] + {f}][oldId := vol.dirs[oldId] - {f}];
        }
        pending := pending - {f};
      }
      if !vol.writable {
        return;
      }
      TransferEnd(d1, oldId, newId);
      vol.dirs := vol.dirs - {oldId};
    }

    /** `getGroups` never throws: a missing or unreadable registry reads as no groups. */
    function GetGroups(): (r: seq<Group>)
      reads vol
      ensures vol.registry.Stored? ==> r == vol.registry.groups
      ensures !vol.registry.Stored? ==> r == []
    {
      GroupsOf(vol.View())
    }

    method SaveGroups(groups: seq<Group>) returns (r: Outcome)
      requires vol.Valid()
      modifies vol
      ensures vol.Valid()
      ensures SaveSpec(old(vol.View()), groups).Ok? ==> r.Pass? && vol.View() == SaveSpec(old(vol.View()), groups).value
      ensures SaveSpec(old(vol.View()), groups).Err? ==>
        r == Fail(SaveSpec(old(vol.View()), groups).error) && vol.View() == old(vol.View())
    {
      if !vol.present {
        return Fail(NoSuchFile);
      }
      if !vol.writable {
        return Fail(AccessDenied);
      }
      vol.registry := Stored(groups);
      r := Pass;
    }

    method AddGenerationToHistory(groupId: JsValue, fileName: string, now: string) returns (r: Outcome)
      requires vol.Valid()
      modifies vol
      ensures vol.Valid()
      ensures AddHistorySpec(old(vol.View()), groupId, fileName, now).Ok? ==>
        r.Pass? && vol.View() == AddHistorySpec(old(vol.View()), groupId, fileName, now).value
      ensures AddHistorySpec(old(vol.View()), groupId, fileName, now).Err? ==>
        r == Fail(AddHistorySpec(old(vol.View()), groupId, fileName, now).error) && vol.View() == old(vol.View())
    {
      var groups := GetGroups();
      var index := FindIndex(groups, groupId);
      if index.None? {
        return Fail("Group not found: " + Display(groupId));
      }
      var i := index.value;
      var group := groups[i];
      group := group.(history := Some([HistoryEntry(fileName, now)] + HistoryOrEmpty(group)));
      groups := groups[i := group];
      r := SaveGroups(groups);
    }
  }
}

=== FILE: text.dfy ===
/** String helpers with JavaScript semantics: number formatting, `indexOf`/`replace`
    with a string pattern, `Array.prototype.join('\n')`, `path.join`, and the
    character classes `\s` and `\w` of JavaScript regular expressions. */
module Text {
  import opened Wrappers

  predicate IsDigit(c: char) { '0' <= c <= '9' }

  function DigitChar(d: nat): (c: char)
    requires d < 10
    ensures IsDigit(c) && c as int - '0' as int == d
  {
    (d + '0' as int) as char
  }

  /** Decimal representation of a natural number, as `${n}` prints it. */
  function NatToString(n: nat): (r: string)
    ensures |r| >= 1 && forall i :: 0 <= i < |r| ==> IsDigit(r[i])
    ensures n < 10 <==> |r| == 1
    ensures r[|r| - 1] == DigitChar(n % 10)
  {
    if n < 10 then [DigitChar(n)] else NatToString(n / 10) + [DigitChar(n % 10)]
  }

  /** Different numbers print differently. */
  lemma {:induction false} NatToStringInjective(a: nat, b: nat)
    requires NatToString(a) == NatToString(b)
    ensures a == b
  {
    var sa, sb := NatToString(a), NatToString(b);
    if a >= 10 && b >= 10 {
      assert sa[..|sa| - 1] == NatToString(a / 10);
      assert sb[..|sb| - 1] == NatToString(b / 10);
      NatToStringInjective(a / 10, b / 10);
    }
  }

  /** `${i}` for an integer. */
  function IntToString(i: int): (r: string)
    ensures |r| >= 1
  {
    if i < 0 then "-" + NatToString(-i) else NatToString(i)
  }

  predicate StartsWith(s: string, prefix: string)
  {
    |prefix| <= |s| && s[..|prefix|] == prefix
  }

  predicate OccursAt(s: string, pat: string, i: nat)
  {
    i + |pat| <= |s| && s[i..i + |pat|] == pat
  }

  /** The first position at or after `from` where `pat` occurs in `s`. */
  function IndexOfFrom(s: string, pat: string, from: nat): (r: Option<nat>)
    ensures r.Some? ==> from <= r.value && OccursAt(s, pat, r.value)
    ensures r.Some? ==> forall j :: from <= j < r.value ==> !OccursAt(s, pat, j)
    ensures r.None? ==> forall j :: from <= j ==> !OccursAt(s, pat, j)
    decreases |s| - from
  {
    if from + |pat| > |s| then None
    else if OccursAt(s, pat, from) then Some(from)
    else IndexOfFrom(s, pat, from + 1)
  }

  /** `s.indexOf(pat)`, with `None` for -1. */
  function IndexOf(s: string, pat: string): Option<nat>
  {
    IndexOfFrom(s, pat, 0)
  }

  /** `s.replace(pat, rep)` with a string pattern: only the first occurrence is replaced. */
  function ReplaceFirst(s: string, pat: string, rep: string): string
  {
    match IndexOf(s, pat)
    case None => s
    case Some(i) => s[..i] + rep + s[i + |pat|..]
  }

  /** `lines.join('\n')`. */
  function JoinLines(lines: seq<string>): string
  {
    if |lines| == 0 then ""
    else if |lines| == 1 then lines[0]
    else JoinLines(lines[..|lines| - 1]) + "\n" + lines[|lines| - 1]
  }

  /** Joining lines puts a line feed between each pair of neighbours. */
  lemma JoinThree(a: string, b: string, c: string)
    ensures JoinLines([a, b, c]) == a + "\n" + b + "\n" + c
  {
    assert [a, b, c][..2] == [a, b] && [a, b][..1] == [a];
    assert JoinLines([a, b]) == a + "\n" + b;
  }

  lemma JoinFive(a: string, b: string, c: string, d: string, e: string)
    ensures JoinLines([a, b, c, d, e]) == a + "\n" + b + "\n" + c + "\n" + d + "\n" + e
  {
    assert [a, b, c, d, e][..4] == [a, b, c, d] && [a, b, c, d][..3] == [a, b, c];
    JoinThree(a, b, c);
    assert JoinLines([a, b, c, d]) == a + "\n" + b + "\n" + c + "\n" + d;
  }

  /** `path.join(dir, name)` for a single path segment `name` (an empty segment adds nothing). */
  function PathJoin(dir: string, name: string): string
  {
    if name == "" then dir else if dir == "" then name else dir + "/" + name
  }

  /** The `\s` class: JavaScript white space and line terminators. */
  predicate IsSpace(c: char)
  {
    var x := c as int;
    (9 <= x <= 13) || x == 32 || x == 0xA0 || x == 0x1680 || (0x2000 <= x <= 0x200A)
    || x == 0x2028 || x == 0x2029 || x == 0x202F || x == 0x205F || x == 0x3000 || x == 0xFEFF
  }

  /** The `\w` class: ASCII letters, digits and `_`. */
  predicate IsWordChar(c: char)
  {
    ('a' <= c <= 'z') || ('A' <= c <= 'Z') || ('0' <= c <= '9') || c == '_'
  }
}

=== FILE: wrappers.dfy ===
/** Option and Result, the wrappers used across the model. */
module Wrappers {

  datatype Option<+T> = None | Some(value: T)

  /** Either a value or an error message (a thrown JavaScript Error). */
  datatype Result<+T> = Ok(value: T) | Err(error: string)

  /** The outcome of an operation that returns nothing but may throw. */
  datatype Outcome = Pass | Fail(error: string)
}
